=== FILE: README.md ===
# ecosim core in Dafny

A model of the simulation core of `ecosim`, a discrete-time predator–prey ecosystem on a square
integer grid. Stationary producers and mobile consumers live on a terrain of plain, water, tree, hill
and shelter tiles. A food web says who eats whom. Each step of the engine runs five phases:

1. every organism alive at the start of the step acts in roster order (a consumer flees, chases,
   eats and wanders), then receives the terrain's water effect, and its tile is counted in the
   heatmap;
2. the terrain updates the shelters;
3. `reproduce` appends offspring;
4. the population history grows by one entry per species;
5. on every decomposition interval, the first corpse leaves the roster.

The model is functional:

- An organism is an immutable record with an explicit integer `id`. The source uses `id(org)` for
  identity.
- The roster is a `seq<Organism>`, and every behaviour rule works on the whole roster and the index of
  the acting organism. A change made by one organism is therefore what the next one sees.
- The terrain map is an insertion-ordered dictionary (`OrderedMap.Dict`). The rescue phase depends on
  its order, since it takes the first shelter tile.
- The water and shelter counters are maps keyed by `(tile, id)`.
- The heatmap is a map from `(species, y, x)` to a count.
- Every random draw is an explicit oracle argument, of one of three kinds:
  - a `randint(lo, hi)` is a raw `nat` mapped into the range by `Grid.RandInt`;
  - the clone direction `random.choice` is a raw `nat` `n`, choosing `CLONE_DIRECTIONS[n % 4]`
    (`Reproduction.CloneTile`);
  - the pair-skip coin `random.random() > 0.7` is the `bool` `Dice.skipShort`.

  Every property therefore holds for all draws.

Modules, in dependency order:

| module | file | models |
|---|---|---|
| `Wrappers`, `Grid`, `Seqs`, `OrderedMap` | wrappers.dfy, grid.dfy, seqs.dfy, ordered_map.dfy | options, clamping, Manhattan distance, `randint`, filtering, dict key order |
| `FoodWebs` | foodweb.dfy | `core/foodweb.py` lookups over the parsed predation and species maps |
| `Organisms` | organism.dfy | `core/organism.py` records, constructors, `Organism.step`, `Producer.step`, `Consumer.move` |
| `Terrains` | terrain.dfy | the tile map, its type predicates and manual rectangle stamping |
| `TerrainGen` | terrain_gen.dfy | random terrain generation (`_place_random`, `generate_*`) |
| `TerrainEffects` | terrain_effects.dfy | the water energy grant and the shelter rule |
| `Behavior` | behavior.dfy | `logic/behavior.py` and `Consumer.step` |
| `Reproduction` | reproduction.dfy | `logic/reproduction.py`, with its cooldown and rescue maps as an explicit `ReproState` |
| `Engine` | engine.dfy | `setup`'s roster and the decomposition interval |
| `EngineStep` | engine_step.dfy | one step of `run`, its invariant, and whole runs |

Points where the code does something a reader might not expect, all kept by the model:

- **Pair breeding when prey is short.** The code has a branch that skips a pair whose prey ratio is
  short when `random() > 0.7`. That branch is unreachable: every pair that reaches it has already passed
  `prey > 2 * population`, and no required ratio exceeds 2, so its prey always suffices
  (`Reproduction.ReadyPairHasFood`). The model keeps the coin as `Dice.skipShort`, and it is never
  consulted for a pair that can breed.
- **Dead consumers in pair breeding.** The code iterates over all consumers, dead ones included, so the
  model does too (`Reproduction.ConsumerIndices`).
- **Eating oneself.** `eat_if_possible` does not exclude the eater itself. A species that is its own
  prey can therefore eat itself, and the model keeps that.
- **Chase and flee bounds.** The code clamps chase and flee to `0..19`, whatever the grid size. The
  model keeps this, so organisms are proved to stay on the grid only when the grid has more than 19
  tiles per side.
- **Flee direction.** The code moves a fleeing organism towards its threats, not away from them. The
  consumer step, and so the engine, uses this flee as written (`Behavior.FleeAsWritten`). The
  Findings table below records the discrepancy, and `Behavior.Flee` is the corrected definition.

## Model

| member | source | states |
|---|---|---|
| OrderedMap.Get | core/terrain.py:81-82 | A lookup finds a value iff the key is in the dict, and for distinct keys it finds exactly the stored value. |
| OrderedMap.Put | core/terrain.py:36 | After a write, the written key reads the new value and every other key reads as before. An existing key keeps its place; a new key goes at the end. Keys stay distinct. |
| OrderedMap.Keys | core/foodweb.py:70-77 | The keys are listed one per entry, in insertion order. |
| Grid.Clamp | logic/behavior.py:19-20 | The clamp `max(0, min(v, hi))` lands in `0..hi` and leaves a value already in range unchanged. |
| Grid.ClampNoFarther | logic/behavior.py:19-20 | Clamping a step taken from an in-range coordinate never moves it farther than the step itself. |
| Grid.Sign | logic/behavior.py:42-43 | The chase step per axis is -1, 0 or 1: zero exactly for a zero delta, otherwise with the delta's sign. |
| Grid.Manhattan | logic/reproduction.py:106 | The distance is zero exactly when the two tiles coincide. |
| Grid.ManhattanSymmetric | logic/behavior.py:5-6 | The Manhattan distance is symmetric. |
| Grid.RandInt | logic/behavior.py:17-18 | A draw for `randint(lo, hi)` lies in `lo..hi`. |
| Grid.RandIntCovers | logic/behavior.py:17-18 | Every value in `lo..hi` is produced by some draw, so the draw oracles cover all of the source's outcomes. |
| FoodWebs.GetPrey | core/foodweb.py:20-30 | An unknown predator has no prey; a known one has exactly its listed prey. |
| FoodWebs.PredatorsIn | core/foodweb.py:32-42 | `p` is among the predators of a species iff some predation entry of `p` lists that species. |
| FoodWebs.PredatorsMirrorPrey | core/foodweb.py:32-42 | `p` is a predator of `s` iff `s` is among the prey of `p`. |
| FoodWebs.IsPredatorMirrorsIsPrey | core/foodweb.py:44-68 | `is_predator(a, b)` holds iff `is_prey(b, a)` holds. |
| FoodWebs.AllSpecies | core/foodweb.py:70-77 | One name per species entry: exactly the species that have metadata, and without duplicates. |
| FoodWebs.GetType | core/foodweb.py:79-89 | The type is the configured one, or "Unknown" for an unknown species or a missing field. |
| FoodWebs.GetTrophicLevel | core/foodweb.py:91-101 | The level is the configured one, or "unknown" for an unknown species or a missing field. |
| FoodWebs.GetColor | core/foodweb.py:103-113 | The colour is the configured one, or "#000000" for an unknown species or a missing field. |
| FoodWebs.GetDecompositionRate | core/foodweb.py:115-125 | The rate is the configured one, or 20 for an unknown species or a missing field. |
| Organisms.NewProducer | core/organism.py:66-76 | A new producer is alive, with energy 100 and maximum 120, at the given tile. |
| Organisms.NewConsumer | core/organism.py:98-111 | A new consumer is alive, with energy 100, maximum 120 and speed 1, with the given level and tile. |
| Organisms.DecayStep | core/organism.py:42-46 | A dead organism is untouched. A living one loses exactly one unit of energy and dies iff the result is at most 0. Nothing else changes. |
| Organisms.ConsumerMove | core/organism.py:113-123 | A random move lands on the grid, moves at most `speed` per axis, and changes only the position. |
| Terrains.NewTerrain | core/terrain.py:7-11 | A new terrain reads plain everywhere and has no water or shelter counters. |
| Terrains.GetType | core/terrain.py:81-82 | A tile never written reads "plain"; a written tile reads its stored type. |
| Terrains.TypePredicates | core/terrain.py:84-97 | `is_blocked` holds iff the type is tree, and `is_shelter`, `is_hill` and `is_water` likewise for shelter, hill and water. |
| Terrains.StampTile | core/terrain.py:33-36 | Stamping one tile changes only that tile, and only when it lies on the grid. |
| Terrains.StampColumn | core/terrain.py:32-36 | One column of a rectangle gets the type on its in-grid tiles; every other tile keeps its type. |
| Terrains.StampColumns | core/terrain.py:31-36 | The remaining columns of a rectangle get the type on their in-grid tiles; every other tile keeps its type. |
| Terrains.StampRect | core/terrain.py:24-36 | A rectangle gives its type to every in-grid tile it covers. Every other tile and both counter maps are unchanged. |
| Terrains.LoadManual | core/terrain.py:23-36 | After stamping a list of rectangles, a tile reads the type of the last in-grid rectangle covering it, or its old type if none covers it. |
| Terrains.ManualRoundTrip | core/terrain.py:23-36 | On a new terrain, an uncovered tile reads plain. An in-grid tile covered by rectangle `i` and by no later one reads rectangle `i`'s type, so later rectangles win. |
| TerrainGen.RoundHalfEven | core/terrain.py:49 | Python's `round(n / d)`: the result is within half a unit of `n / d`, and even on a tie. |
| TerrainGen.PlaceRandomTile | core/terrain.py:38-46 | The chosen tile is the first of the 100 attempts that is plain, and it is on the grid. There is none only when every attempt hits a feature. |
| TerrainGen.PlaceRandom | core/terrain.py:38-46 | `_place_random` turns the chosen tile, which was plain and in grid, into the requested type, writes no other tile, and adds at most one map entry. |
| TerrainGen.PatchTile | core/terrain.py:53-55 | Each of the 25 patch offsets lies within 2 of the centre on both axes. |
| TerrainGen.SetIfPlain | core/terrain.py:55-58 | The given tile, if plain and in grid, becomes the patch type. No other tile changes, and nothing changes unless it was plain. |
| TerrainGen.Patch | core/terrain.py:53-58 | A 5×5 patch changes only plain in-grid tiles, to its type, within 2 of its centre. |
| TerrainGen.WrittenStep | core/terrain.py:55-58 | Across two plain-only passes of one type, a tile written by either pass reads that type at the end. |
| TerrainGen.PatchWrites | core/terrain.py:53-58 | From patch index `k` on, every patch tile that was plain and in grid reads the patch type afterwards. |
| TerrainGen.PatchWritesSquare | core/terrain.py:53-58 | A whole patch writes every plain in-grid tile within 2 of its centre. With `Patch`'s frame, that is exactly the set of tiles that change. |
| TerrainGen.Centre | core/terrain.py:51-52 | A patch centre lies in `2..grid_size - 3` on both axes. |
| TerrainGen.Patches | core/terrain.py:50-58 | A run of patches changes only plain in-grid tiles, and only to its type. |
| TerrainGen.PatchesWrite | core/terrain.py:50-58 | Every drawn patch is written: each plain in-grid tile within 2 of any drawn centre reads the type after the whole run. |
| TerrainGen.Placements | core/terrain.py:60-62 | Repeated random placements change only plain in-grid tiles, and add at most one map entry each. |
| TerrainGen.PlacementsWriteFirst | core/terrain.py:38-46 | The tile the first placement picks still reads the type after all the placements. |
| TerrainGen.GenerateWater | core/terrain.py:48-58 | Water generation turns only plain in-grid tiles into water. At least one patch is drawn, and every drawn patch is written. |
| TerrainGen.GenerateTrees | core/terrain.py:60-62 | Tree generation turns only plain in-grid tiles into trees, adding at most `grid_size - 7` entries. On a grid above 7, the first placement's tile ends as a tree. |
| TerrainGen.GenerateHills | core/terrain.py:64-74 | Hill generation turns only plain in-grid tiles into hills, and writes every drawn patch. On grids of 1 to 3 tiles, no patch is drawn and nothing changes. |
| TerrainGen.GenerateShelters | core/terrain.py:76-79 | Shelter generation turns only plain in-grid tiles into shelters, at most 4 per cluster, on any non-empty grid. The first placement's tile ends as a shelter. |
| TerrainGen.GenerateRandom | core/terrain.py:17-22 | Random mode changes only plain in-grid tiles, each to water, tree, hill or shelter, and keeps the counters. Every water patch is still water at the end. |
| TerrainEffects.Neighbour | core/terrain.py:102-107 | Each of the eight scan offsets names an adjacent tile. |
| TerrainEffects.AdjacentIsNeighbour | core/terrain.py:102-107 | Every adjacent tile is one of the eight scanned, so the scan misses no neighbour. |
| TerrainEffects.GrantTile | core/terrain.py:102-111 | The granting tile is the first neighbour in scan order that is in grid, water, and has a counter below 2. There is none only when no neighbour qualifies. |
| TerrainEffects.GrantTileComplete | core/terrain.py:102-111 | A grant happens iff some eligible water neighbour exists. |
| TerrainEffects.ApplyWaterEffect | core/terrain.py:99-114 | Off every 10th step, for a dead organism, for a producer, or with no eligible water neighbour, nothing changes. Otherwise energy becomes `min(max, energy + 5)` and exactly one counter, that of the first eligible tile, grows by one. Counters stay within 0..2 and energy within its maximum. |
| TerrainEffects.EvictionTile | core/terrain.py:122-128 | An eviction target is on the grid and neither shelter nor tree. There is none only when all 20 attempts fail. |
| TerrainEffects.UpdateShelterOne | core/terrain.py:117-142 | A non-primary on a shelter moves to a tile free of shelter and tree, or stays, and its counters are untouched. A primary on a shelter (`TerrainEffects.CanEnterShelter`, the test of core/terrain.py:145-146) stays; its count there rises by exactly 1, and it dies iff the count exceeds 3. Anyone off the shelters loses all its counters. Other organisms' counters never change, and no one revives. |
| TerrainEffects.FourthShelterStepKills | core/terrain.py:132-138 | A primary entering a shelter with no count survives three consecutive updates and dies on the fourth, whatever the draws. |
| TerrainEffects.ShelterOutcomeOne | core/terrain.py:117-142 | One update changes only position and liveness: an organism off the shelters is untouched, and a primary on a shelter is never moved. |
| TerrainEffects.UpdateSheltersFrom | core/terrain.py:116-142 | The fold over the roster keeps its length and only touches the shelter counters of the terrain. |
| TerrainEffects.UpdateShelters | core/terrain.py:116-142 | Every organism of the roster gets the one-organism outcome, judged against the map at the start of the call. |
| TerrainEffects.ShelterFoldCounters | core/terrain.py:131-142 | With distinct ids, each organism's counters after the whole fold are those its own iteration produced. |
| Behavior.Distance | logic/behavior.py:5-6 | The distance is zero exactly for co-located organisms. |
| Behavior.DistanceSymmetric | logic/behavior.py:5-6 | `distance(a, b) == distance(b, a)`. |
| Behavior.Flee | logic/behavior.py:52-71 | Corrected flee. With no living threat within distance 3, nothing changes. Otherwise only the position changes, by at most one tile per axis, within `0..19`, onto an enterable tile. The scaled distance to the threats' centroid never shrinks on either axis. |
| Behavior.FleeMovesAway | logic/behavior.py:62-67 | The corrected flee really moves: without terrain, on each axis where the organism is off the threats' centroid and the clamp does not cut the step, its scaled distance to the centroid grows by exactly one tile. |
| Behavior.FleeAsWritten | logic/behavior.py:52-71 | Flee with the source's signs. With no living threat within distance 3, nothing changes. Otherwise only the position changes, by at most one tile per axis from `0..19`, into `0..19`, onto an enterable tile, and on no axis away from the threats' centroid. |
| Behavior.FleeAsWrittenMovesToward | logic/behavior.py:62-67 | The source's flee moves towards the threats: without terrain, on each axis where the organism is off the centroid and the clamp does not cut the step, a scaled distance `d` becomes `|d - n|`. It shrinks by a whole tile, or the step overshoots a centroid less than a tile away. |
| Behavior.TowardStepOvershoots | logic/behavior.py:62-66 | With a centroid at 9.67 (three threats, x-sum 29), an organism at x = 10 steps to 9: its scaled distance to the centroid grows from 1 to 2. |
| Behavior.FleeAsWrittenApproachesThreat | logic/behavior.py:64-65 | A Rabbit at (10,10) with a Fox at (8,10) steps to (9,10), closer to the Fox, under the source's rule. The corrected rule steps it to (11,10). |
| Behavior.NearestPrey | logic/behavior.py:32-41 | The target is a living prey within distance 3, not on a shelter, at least as close as every other candidate and strictly closer than the earlier ones, like Python's `min`. There is none only when no candidate exists. |
| Behavior.ChaseStep | logic/behavior.py:42-50 | A move towards a tile lands in `0..19` on an enterable tile and costs exactly 1 energy, or nothing changes. Without terrain it always moves. From `0..19` it moves at most one tile per axis, and towards a target in `0..19` it closes the gap by exactly one tile on each axis where they differ. |
| Behavior.Chase | logic/behavior.py:28-50 | A dead or sated (energy > 40) animal, or one without a target, is unchanged. A move lands in `0..19` on an enterable tile and costs exactly 1 energy. From `0..19` it moves at most one tile per axis, and towards the nearest prey its distance shrinks by the number of axes on which they differ. |
| Behavior.EatFrom | logic/behavior.py:74-78 | The eat loop from roster index `j` on kills exactly the living co-located prey from `j` on. Others are untouched except their liveness. |
| Behavior.Eat | logic/behavior.py:73-78 | Exactly the living co-located prey die. The predator gains 20 per kill, capped at its maximum. Nothing else changes. |
| Behavior.MoveAttempt | logic/behavior.py:17-20 | An attempt lands on the grid, at most `step` from the start per axis. |
| Behavior.Attempts | logic/behavior.py:15-20 | There are 10 attempts, each on the grid and at most `step` from the start per axis. |
| Behavior.FirstEnterable | logic/behavior.py:15-26 | The accepted tile is the first one that is neither tree nor water: every tile before it is blocked. There is none only when all are blocked. With no terrain, the first tile is accepted. |
| Behavior.RandomMove | logic/behavior.py:8-26 | A dead animal is unchanged. Otherwise only the position changes, by at most `speed` (1 on a hill) per axis, onto the grid and onto a tile that is neither tree nor water. The animal moves to the first enterable of its 10 attempts, and stays put when all 10 fail. |
| Behavior.ConsumerStep | core/organism.py:125-150 | Flee, with the source's signs, then chase, eat and wander. A dead consumer changes nothing. Otherwise other organisms can only die, and the consumer keeps its identity and never revives. With energy within its cap, it ends between 2 below its start and 1 below the cap, and it is alive only with positive energy. On a grid above 19 tiles it stays on the grid. |
| Reproduction.Cooldown | logic/reproduction.py:5-11 | Every breeding cooldown, default included, is at least 2 steps. |
| Reproduction.Ratio | logic/reproduction.py:21-24 | Every required prey ratio, default included, lies in `1..2`. |
| Reproduction.ReadyPairHasFood | logic/reproduction.py:118-122 | A pair that passes `prey > 2 * population` always has food for its ratio, so the `random() > 0.7` skip never applies to it. |
| Reproduction.Born | logic/reproduction.py:96 | A birth becomes the constructor's fresh producer or consumer at the birth tile. |
| Reproduction.Food | logic/reproduction.py:34-42 | A species with no living member has no recorded food. |
| Reproduction.ProducerNames | logic/reproduction.py:46 | The listed species are exactly the species of the roster's producers, dead or alive: each producer's species is listed, and nothing else is. |
| Reproduction.ReseedNames | logic/reproduction.py:46 | The reseeded species are those of the producers, each once, as the source's `set(...)`. |
| Reproduction.ReseedTile | logic/reproduction.py:51-52 | A reseed try's tile is two `randint(0, grid_size - 1)` draws, so it lies on the grid. |
| Reproduction.ReseedTries | logic/reproduction.py:50-58 | At most 3 reseeds for one species, all producers of that species, on in-grid tiles with no living organism and no tree. Every try whose drawn tile has no living organism and no tree gives a producer there. |
| Reproduction.Reseed | logic/reproduction.py:49-58 | Every reseed is a producer of a listed species, on an in-grid tile with no living organism and no tree. Every try of every listed species whose tile is free and tree-less gives its producer. |
| Reproduction.ReseedAtMostThree | logic/reproduction.py:49-58 | Over distinct species, each species gets at most 3 reseeds. |
| Reproduction.CloneTile | logic/reproduction.py:62-64 | The drawn clone tile is on the grid, at most one step from an in-grid parent. |
| Reproduction.CloneFrom | logic/reproduction.py:59-72 | At most one clone per living producer, of its species, on a clamped cardinal neighbour with no living organism and no tree, water or shelter. Every living producer whose drawn neighbour meets those conditions clones onto it. |
| Reproduction.Respawn | logic/reproduction.py:44-72 | Nothing off every 30th step. Without a living producer, at most 3 per producer species, and every free tree-less drawn tile of every producer species gets its producer. Otherwise at most one clone per living producer, on a free non-tree, non-water, non-shelter neighbour, and every living producer whose drawn neighbour is such a tile clones there. Every birth is an in-grid producer on a free non-tree tile. |
| Reproduction.BreedRecorded | logic/reproduction.py:93-97 | After a breed, its (species, tile) key reads the current step, every key that bred this call is distinct, and every other key reads as before. |
| Reproduction.LivePositionsLiving | logic/reproduction.py:30-32 | Every grouped tile holds a living organism. |
| Reproduction.Members | logic/reproduction.py:75-79 | A group holds only living consumers of its species standing on its tile. |
| Reproduction.GroupsOnTiles | logic/reproduction.py:75-79 | Every group sits on one of the grouped tiles. |
| Reproduction.GroupsCover | logic/reproduction.py:74-79 | Every tile and species with a living consumer there is a group the same-tile loop visits. |
| Reproduction.SameTileFrom | logic/reproduction.py:74-97 | The same-tile loop only appends: the births it started with stay in place, in order. Every visited group that is ready, with its cooldown elapsed when the loop starts, breeds. |
| Reproduction.SameTileBirths | logic/reproduction.py:74-97 | Each appended same-tile birth comes from a visited group with at least 2 members, each at or above its level's energy threshold, with enough prey. It sits on the group's tile with the first member's level. |
| Reproduction.GroupBredWitness | logic/reproduction.py:77-97 | A birth attributed to the group loop names one visited, ready group whose offspring it is. |
| Reproduction.SameTileRecorded | logic/reproduction.py:93-97 | Same-tile births respect the cooldown from the call's start, use distinct keys, and record the step under exactly those keys. |
| Reproduction.ConsumerIndices | logic/reproduction.py:101 | The pairing candidates are exactly the consumer indices, every one of them, in increasing roster order. |
| Reproduction.TryPairBreeds | logic/reproduction.py:104-130 | One pairing iteration breeds, recording the pair and its midpoint birth, iff neither consumer is paired, the pair is ready and its midpoint cooldown has elapsed, whatever the shortage coin; otherwise it changes nothing. |
| Reproduction.PairsComplete | logic/reproduction.py:102-130 | For every ready pair of consumers whose midpoint cooldown has elapsed when the phase starts, one of the two ends up paired, or its species already bred at that midpoint in this phase. |
| Reproduction.TryPairOk | logic/reproduction.py:104-130 | One pairing iteration keeps the invariant: births match ready pairs, and no index is in two pairs. |
| Reproduction.PairWithOk | logic/reproduction.py:103-130 | The inner pairing loop keeps the invariant. |
| Reproduction.PairFromOk | logic/reproduction.py:102-130 | The outer pairing loop keeps the invariant. |
| Reproduction.TryPairRecorded | logic/reproduction.py:124-128 | A pair birth respects the midpoint key's cooldown and records the step there. |
| Reproduction.ProximityRecorded | logic/reproduction.py:124-128 | All pair births keep the cooldown bookkeeping of the call. |
| Reproduction.Proximity | logic/reproduction.py:99-130 | Every pair birth comes from two same-species consumers at Manhattan distance exactly 2, both with energy at least 40. The birth sits at their floored midpoint, which is neither tree nor water, with prey above twice the population. No consumer is in two successful pairs. Earlier births are kept. Every ready pair whose midpoint cooldown has elapsed is settled, as `PairsComplete` states. |
| Reproduction.FirstShelter | logic/reproduction.py:140-141 | The rescue tile is the first shelter entry in map order. There is none only without shelters. |
| Reproduction.RescueFrom | logic/reproduction.py:132-144 | Each rescue is a primary consumer of a listed species on the first shelter tile. The breeding cooldowns are untouched. |
| Reproduction.RescueOutcome | logic/reproduction.py:135-144 | A species is rescued, exactly once, iff it has exactly one living member, is primary, its last rescue is at least 2 steps old, and a shelter exists. Its rescue step then reads the current step. |
| Reproduction.BredSound | logic/reproduction.py:74-130 | Both breeding phases together yield births that come from ready groups or ready pairs, with elapsed cooldowns and distinct keys, and the cooldown map records exactly them. |
| Reproduction.Reproduce | logic/reproduction.py:26-146 | Producers appear only on every 30th step, in grid, on free non-tree tiles, and every producer birth the phase owes happens. Consumer births satisfy the breeding bookkeeping above. Every ready same-tile group whose cooldown has elapsed breeds. A species gets exactly one rescue iff it is due one and a shelter exists, and only rescued species' rescue steps change. The roster itself is an input and is not returned. |
| Reproduction.ReproduceComplete | logic/reproduction.py:74-146 | Every ready group with an elapsed cooldown breeds, and each species is rescued exactly when due and a shelter exists. |
| Reproduction.GroupBreeds | logic/reproduction.py:74-97 | A ready group whose cooldown has elapsed at the call's start has its birth among the call's consumer births. |
| Reproduction.RescueComplete | logic/reproduction.py:132-144 | Over the live species, a species is rescued exactly once iff it is due one and a shelter exists, otherwise never. |
| Reproduction.LiveSpeciesHas | logic/reproduction.py:34 | A species with a living member is a key of the live counts. |
| Engine.PlaceCount | simulation/engine.py:35-60 | Placing the quotas in order gives each species exactly its quota of living organisms. |
| Engine.QuotaOfSpecies | simulation/engine.py:35-52 | A listed species' quota is its initial count; an unlisted species has none. |
| Engine.Setup | simulation/engine.py:26-60 | The initial roster has one fresh organism per chosen tile, numbered 0, 1, …, each of its species' kind. Each species has 4 producers, or `initial_count` or the level default (5/2/1/3/1, else 1) consumers. |
| Engine.MinRate | simulation/engine.py:66-73 | The result is the least decomposition rate among the decomposers, or none when there are none. |
| Engine.DecompositionInterval | simulation/engine.py:65-73 | The interval is 20 without decomposers, else the least decomposer rate, attained by some decomposer. |
| EngineStep.Bump | simulation/engine.py:90-91 | The heatmap gains exactly one visit at the organism's cell when it is on the grid, and nothing elsewhere. |
| EngineStep.Act | simulation/engine.py:81-85 | A producer's turn changes nothing. A dead actor changes nothing. Others can only die. The actor changes only position, energy and liveness, never revives, and stays within its energy cap. |
| EngineStep.ActOne | simulation/engine.py:81-91 | One organism's turn changes only the roster, the water counters and the heatmap. Counters stay capped. Others can only die. The heatmap gains one visit at the actor's final cell. |
| EngineStep.LivingIndices | simulation/engine.py:79 | The acting indices are exactly those alive at the start of the step, in roster order. |
| EngineStep.PassFrom | simulation/engine.py:81-91 | The behaviour pass keeps the roster length. Organisms dead at its start are untouched. No one revives or changes identity. Each heatmap cell gains at most one visit per actor. |
| EngineStep.Behave | simulation/engine.py:79-91 | The whole behaviour pass touches only the roster, water counters and heatmap, and keeps energy caps and, on grids above 19, positions on the grid. |
| EngineStep.ShelterPhase | simulation/engine.py:93-94 | The shelter phase touches only the roster and shelter counters, keeps every identity and energy, revives no one, and keeps in-grid organisms in grid. |
| EngineStep.ShelterKeepsInv | simulation/engine.py:93-94 | Per organism, a shelter update keeps identity and energy and keeps an in-grid organism in grid. |
| EngineStep.Newborns | simulation/engine.py:100-101 | Offspring get consecutive fresh ids and are alive with energy 100 and maximum 120, with the species, tile and kind of their births. |
| EngineStep.BirthsInGrid | simulation/engine.py:100-101 | With every organism on the grid, every birth of `reproduce` is on the grid too. |
| EngineStep.NewbornsKeepInv | simulation/engine.py:101 | Appending offspring keeps ids fresh and distinct, energies capped and positions in grid. |
| EngineStep.BirthPhase | simulation/engine.py:100-101 | Offspring are appended after the existing roster, which is unchanged. They take the next ids and are as constructed, so none has acted. |
| EngineStep.RecordPopulation | simulation/engine.py:103-109 | Each listed species' history gains exactly one entry, its living count; other histories are unchanged. |
| EngineStep.RecordPhase | simulation/engine.py:103-109 | Every food-web species' history gains its living count after reproduction. Nothing else changes. |
| EngineStep.FirstDead | simulation/engine.py:113-114 | The corpse found is the first dead organism in roster order. There is none only when all are alive. |
| EngineStep.RemoveFirstDead | simulation/engine.py:112-117 | Without a corpse, the roster is unchanged. With one, exactly the organism at the first dead index leaves: the organisms before it keep their indices, and those after it move up by one. |
| EngineStep.RemoveFirstDeadKeepsLiving | simulation/engine.py:112-117 | Removing the corpse keeps the living organisms, in order, so every living count is unchanged. |
| EngineStep.RemoveKeepsInv | simulation/engine.py:112-117 | Removing the corpse keeps ids fresh, energies capped and positions in grid. |
| EngineStep.DecomposePhase | simulation/engine.py:111-117 | Off-interval steps and step 0 remove nothing. Otherwise exactly the first corpse, if any, is removed. Living organisms are never removed. |
| EngineStep.Step | simulation/engine.py:76-117 | A step keeps grid, food web, interval and tiles. Each food-web species' history gains its living count. The roster grows by the offspring count, less one removed corpse at most on due steps. Organisms with the new ids are the unacted offspring. |
| EngineStep.NewbornsUnborn | simulation/engine.py:93-101 | Organisms with ids from the step's first fresh id on are exactly as constructed after the whole step. |
| EngineStep.StepPreservesInv | simulation/engine.py:76-117 | Each step keeps the invariant: a valid terrain, capped water counters, fresh distinct ids, capped energies, and, on grids above 19, every organism on the grid. |
| EngineStep.Init | simulation/engine.py:26-73 | Setup gives a roster with ids `0..n-1`, empty histories and a world meeting the invariant. |
| EngineStep.GuardedStep | simulation/engine.py:76-117 | One step, seen from the run loop, keeps the invariant, the food web and the interval, and adds one history entry to every food-web species. |
| EngineStep.RunFrom | simulation/engine.py:76-117 | The remaining steps of a run keep the invariant and append one history entry per step to every species. |
| EngineStep.Run | simulation/engine.py:76-117 | A run of `steps` steps keeps the invariant and grows every species' history by exactly `steps` entries. |

## Left out

- Rendering and charting (`plot_organisms`, heatmap and population exports, the matplotlib block) and
  the `print` logging of a step: output only.
- JSON loading in `Terrain.load_from_config` and `FoodWeb.__init__`. The parsed terrain objects and
  food-web maps are inputs.
- The entry points, `docs/conf.py` and the tests.
- The `random` module. Every draw is an oracle argument, so all properties hold for every draw sequence.
- numpy heatmap arrays. A heatmap is a map from `(species, y, x)` to a count; only in-grid cells are
  counted, as in the source.
- Floats. The flee centroid comparison uses `x * n` against the coordinate sum, and the prey ratio test
  `prey / ratio < current` uses `prey < current * ratio`. Both are exact for the source's integer inputs.
- `Engine.Setup`: the unbounded redraw loops of `setup` are replaced by a chosen-tile precondition.
  Each placement gets a distinct, in-grid tile that is neither water nor tree (`Engine.SetupTiles`).
  Termination of the redraws is not modelled.
- The engine without a terrain. `main.py` always installs one. Without one, `reproduce` would fail on
  `reproduce._terrain.is_blocked`.
- `reproduce` without a food web. `setup` always installs one, so food counts and rescues are always
  computed.
- `Reproduction.ProducerNames`: the source iterates over a Python `set` of producer species, whose
  order is unspecified. The model uses first-appearance order in the roster. Only which tiles the draws
  give to which species depends on this choice.
- `Terrain.is_in_shelter` is the same test as `is_shelter` and is not modelled separately. Neither is
  `Organism.__repr__`.
- `Behavior.ConsumerStep`: its contract states the consequences of the flee, chase, eat, wander chain
  (frame, energy window, no revival, grid bound), not the call order itself, which is the body. Flee
  runs with the source's signs (towards the threats). Flee and chase run without a terrain, as the
  source's `Consumer.step` passes none.
- `Behavior.ConsumerStep`: no lower bound on energy is claimed. Chase's −1 followed by the step's −1
  can take an organism with energy 1 to −1.
- `EngineStep.Inv`: positions are claimed to stay on the grid only for grids above 19 tiles per side.
  Flee and chase clamp to the fixed bound 19, so on a smaller grid an organism can walk off it.
- `TerrainGen.GenerateWater`, `TerrainGen.GenerateRandom`: require a grid of at least 5 tiles. On a
  smaller grid `random.randint(2, grid_size - 3)` raises `ValueError`, since at least one water patch
  is always drawn. That error path is not modelled.
- `TerrainGen.Patch`, `TerrainGen.Patches`, `TerrainGen.Placements`: their own contracts state the frame
  only. That the patches are written is stated by `TerrainGen.PatchWrites`, `TerrainGen.PatchesWrite`
  and `TerrainGen.PlacementsWriteFirst`, and carried into the `generate_*` contracts.
- `TerrainGen.GenerateTrees`, `TerrainGen.GenerateShelters`: only the first placement is stated to land.
  Each later placement picks its tile on the terrain as the earlier ones left it.
- `TerrainGen.GenerateRandom`: states that the water patches survive. The trees, hills and shelters are
  drawn on the terrain as the earlier passes left it, and their writes are not restated.
- `TerrainGen.GenerateHills`: requires a grid of at least 5 tiles, or one so small that no hill patch is
  drawn. On a grid of 4 tiles the source raises `ValueError` from `randint(2, 1)`, and that error path
  is not modelled.
- `EngineStep.Step`: requires a nonzero decomposition interval from step 1 on. With a zero interval
  the source's `step % self.decomposition_interval` raises `ZeroDivisionError`.
- `EngineStep.Step`: history growth is stated for food webs with distinct species names
  (`FoodWebs.Valid`), which a parsed JSON object always has.
- `Reproduction.Reproduce`: the completeness of pair breeding is stated on `Reproduction.Proximity` and
  `Reproduction.PairsComplete`, not in this contract, because the result does not carry the set of paired
  consumers that the statement needs.
- `Reproduction.Reproduce`: the cooldown and rescue maps are function attributes of `reproduce` in the
  source. They are the explicit `ReproState` here, threaded by the engine.

## Findings

| source | as written | input that shows it | evidently intended | confidence | as-written member | corrected member |
|---|---|---|---|---|---|---|
| logic/behavior.py:64-65 | `dx = -1 if animal.x > avg_x else 1 if animal.x < avg_x else 0` moves the animal towards the centroid of its predators | a Rabbit at (10,10) with its predator, a Fox, at (8,10): flee moves the Rabbit to (9,10), next to the Fox | a step away from the predators, so `dx = 1` when `animal.x > avg_x`: the function is named `flee`, and the docstring of `Consumer.step` (core/organism.py:128) calls this phase "fleeing from threats" | high (derived by proof, not executed) | Behavior.FleeAsWritten, Behavior.FleeAsWrittenMovesToward, Behavior.FleeAsWrittenApproachesThreat | Behavior.Flee, Behavior.FleeMovesAway |

=== FILE: behavior.dfy ===
/** Consumer behaviour: the flee, chase, eat and wander rules, and the Consumer step that chains them.
    Each rule works on the whole roster and the index `i` of the acting consumer, so that a change made
    by one organism is what the next one sees. */
module Behavior {
  import opened Wrappers
  import opened Grid
  import opened FoodWebs
  import opened Terrains
  import opened Organisms

  const SENSE_RADIUS := 3
  const HUNGER_LIMIT := 40
  /** The fixed upper clamp of flee and chase, independent of the grid size. */
  const FIXED_BOUND := 19
  const FOOD_GAIN := 20
  const MOVE_TRIES := 10

  /** `distance(a, b)`: the Manhattan distance between two organisms. */
  function Distance(a: Organism, b: Organism): (d: nat)
    ensures d == 0 <==> a.Pos() == b.Pos()
  {
    Manhattan(a.Pos(), b.Pos())
  }

  lemma DistanceSymmetric(a: Organism, b: Organism)
    ensures Distance(a, b) == Distance(b, a)
  {
  }

  predicate InFixedBound(o: Organism) {
    0 <= o.x <= FIXED_BOUND && 0 <= o.y <= FIXED_BOUND
  }

  /** A tile a move may end on: anything without a terrain, otherwise neither tree nor water. */
  predicate Enterable(terrain: Option<Terrain>, p: Pos) {
    terrain.None? || (!IsBlocked(terrain.value, p.0, p.1) && !IsWater(terrain.value, p.0, p.1))
  }

  // ---------------------------------------------------------------- flee

  /** Organism `j` threatens organism `i`: another living organism, within distance 3, of a species that
      has `i`'s species as prey. */
  predicate IsThreat(roster: seq<Organism>, i: nat, fw: FoodWeb, j: nat)
    requires i < |roster| && j < |roster|
  {
    IsPrey(fw, roster[j].species, roster[i].species) && roster[j].alive && j != i
    && Distance(roster[i], roster[j]) <= SENSE_RADIUS
  }

  /** The number of threats among the first `n` organisms and the sums of their coordinates. */
  function ThreatStats(roster: seq<Organism>, i: nat, fw: FoodWeb, n: nat): (nat, int, int)
    requires i < |roster| && n <= |roster|
  {
    if n == 0 then (0, 0, 0)
    else
      var s := ThreatStats(roster, i, fw, n - 1);
      if IsThreat(roster, i, fw, n - 1) then (s.0 + 1, s.1 + roster[n - 1].x, s.2 + roster[n - 1].y) else s
  }

  /** The side of the centroid `sum / n` a coordinate `v` lies on, without division: `Sign(v * n - sum)`. */
  function CentroidSide(v: int, n: nat, sum: int): int {
    Sign(v * n - sum)
  }

  /** The flee rule with the per-axis step `dir * CentroidSide(...)`: `dir` is +1 for a step away from the
      centroid of the threats, −1 for a step towards it. */
  function FleeWithDir(roster: seq<Organism>, i: nat, fw: FoodWeb, terrain: Option<Terrain>, dir: int): (a: Organism)
    requires i < |roster|
  {
    var o := roster[i];
    var (n, sx, sy) := ThreatStats(roster, i, fw, |roster|);
    if n == 0 then o
    else
      var nx := Clamp(o.x + dir * CentroidSide(o.x, n, sx), FIXED_BOUND);
      var ny := Clamp(o.y + dir * CentroidSide(o.y, n, sy), FIXED_BOUND);
      if !Enterable(terrain, (nx, ny)) then o else o.(x := nx, y := ny)
  }

  /** `flee`, with the direction it evidently intends: with no living threat within distance 3 nothing
      changes; otherwise the organism steps at most one tile per axis, never towards the centroid of the
      threats (its scaled distance to it does not shrink on either axis), clamped to `0..19`, and stays
      put when the target tile is tree or water. Only the position changes. */
  function Flee(roster: seq<Organism>, i: nat, fw: FoodWeb, terrain: Option<Terrain>): (a: Organism)
    requires i < |roster|
    ensures a == roster[i].(x := a.x, y := a.y)
    ensures ThreatStats(roster, i, fw, |roster|).0 == 0 ==> a == roster[i]
    ensures a == roster[i] || (InFixedBound(a) && Enterable(terrain, a.Pos()))
    ensures InFixedBound(roster[i]) ==> Abs(a.x - roster[i].x) <= 1 && Abs(a.y - roster[i].y) <= 1
    ensures var (n, sx, sy) := ThreatStats(roster, i, fw, |roster|);
      InFixedBound(roster[i]) && n > 0 ==>
        Abs(a.x * n - sx) >= Abs(roster[i].x * n - sx) && Abs(a.y * n - sy) >= Abs(roster[i].y * n - sy)
  {
    var o := roster[i];
    var (n, sx, sy) := ThreatStats(roster, i, fw, |roster|);
    var a := FleeWithDir(roster, i, fw, terrain, 1);
    AwayStep(o.x, n, sx);
    AwayStep(o.y, n, sy);
    a
  }

  /** One clamped step away from the centroid never brings a coordinate in `0..19` closer to it. */
  lemma AwayStep(v: int, n: nat, sum: int)
    ensures n > 0 && 0 <= v <= FIXED_BOUND ==>
      var w := Clamp(v + CentroidSide(v, n, sum), FIXED_BOUND);
      Abs(w * n - sum) >= Abs(v * n - sum) && Abs(w - v) <= 1
  {
    var w := Clamp(v + CentroidSide(v, n, sum), FIXED_BOUND);
    if n > 0 && 0 <= v <= FIXED_BOUND {
      if v * n - sum > 0 {
        assert w == v || w == v + 1;
        assert w * n - sum >= v * n - sum by {
          if w == v + 1 { assert w * n == v * n + n; }
        }
      } else if v * n - sum < 0 {
        assert w == v || w == v - 1;
        assert w * n - sum <= v * n - sum by {
          if w == v - 1 { assert w * n == v * n - n; }
        }
      }
    }
  }

  /** A clamped step away from the centroid, when the clamp does not cut it, moves a coordinate off the
      centroid by exactly one more tile: its scaled distance grows by `n`. */
  lemma AwayStepExact(v: int, n: nat, sum: int)
    ensures n > 0 && v * n != sum && 0 <= v + CentroidSide(v, n, sum) <= FIXED_BOUND ==>
      Abs(Clamp(v + CentroidSide(v, n, sum), FIXED_BOUND) * n - sum) == Abs(v * n - sum) + n
  {
    if n > 0 && v * n != sum && 0 <= v + CentroidSide(v, n, sum) <= FIXED_BOUND {
      var w := v + CentroidSide(v, n, sum);
      if v * n > sum {
        assert w * n == v * n + n;
      } else {
        assert w * n == v * n - n;
      }
    }
  }

  /** The source's step, `-CentroidSide`, from a coordinate in `0..19`: at most one tile, and never away
      from the centroid. When the clamp does not cut it, the scaled distance to the centroid becomes
      `| d - n |` for a scaled distance `d`: it shrinks by a whole tile, or the step overshoots a centroid
      less than one tile away. */
  lemma TowardStep(v: int, n: nat, sum: int)
    ensures n > 0 && 0 <= v <= FIXED_BOUND ==>
      var w := Clamp(v + -1 * CentroidSide(v, n, sum), FIXED_BOUND);
      Abs(w - v) <= 1 && (v * n > sum ==> w <= v) && (v * n < sum ==> w >= v)
    ensures n > 0 && v * n != sum && 0 <= v - CentroidSide(v, n, sum) <= FIXED_BOUND ==>
      Abs(Clamp(v + -1 * CentroidSide(v, n, sum), FIXED_BOUND) * n - sum) == Abs(Abs(v * n - sum) - n)
  {
    var w := Clamp(v + -1 * CentroidSide(v, n, sum), FIXED_BOUND);
    if n > 0 && 0 <= v <= FIXED_BOUND {
      if v * n > sum {
        assert w == v || w == v - 1;
      } else if v * n < sum {
        assert w == v || w == v + 1;
      }
    }
    if n > 0 && v * n != sum && 0 <= v - CentroidSide(v, n, sum) <= FIXED_BOUND {
      if v * n > sum {
        assert w == v - 1;
        assert w * n - sum == (v * n - sum) - n;
      } else {
        assert w == v + 1;
        assert w * n - sum == (v * n - sum) + n;
      }
    }
  }

  /** `flee` as the source writes it: `dx = -1 if animal.x > avg_x else 1 if animal.x < avg_x`, a step
      towards the centroid of the threats. With no threat nothing changes; otherwise only the position
      changes, by at most one tile per axis, clamped to `0..19`, onto an enterable tile, and on neither
      axis away from the centroid. */
  function FleeAsWritten(roster: seq<Organism>, i: nat, fw: FoodWeb, terrain: Option<Terrain>): (a: Organism)
    requires i < |roster|
    ensures ThreatStats(roster, i, fw, |roster|).0 == 0 ==> a == roster[i]
    ensures a == roster[i].(x := a.x, y := a.y)
    ensures a == roster[i] || (InFixedBound(a) && Enterable(terrain, a.Pos()))
    ensures InFixedBound(roster[i]) ==> Abs(a.x - roster[i].x) <= 1 && Abs(a.y - roster[i].y) <= 1
    ensures var (n, sx, sy) := ThreatStats(roster, i, fw, |roster|);
      InFixedBound(roster[i]) && n > 0 ==>
        && (roster[i].x * n > sx ==> a.x <= roster[i].x) && (roster[i].x * n < sx ==> a.x >= roster[i].x)
        && (roster[i].y * n > sy ==> a.y <= roster[i].y) && (roster[i].y * n < sy ==> a.y >= roster[i].y)
  {
    var o := roster[i];
    var (n, sx, sy) := ThreatStats(roster, i, fw, |roster|);
    TowardStep(o.x, n, sx);
    TowardStep(o.y, n, sy);
    FleeWithDir(roster, i, fw, terrain, -1)
  }

  /** The corrected flee, without terrain as the engine calls it, really moves away: on every axis where
      the organism is off the threats' centroid and the clamp to `0..19` does not cut the step, its
      scaled distance to the centroid grows by exactly one tile. */
  lemma FleeMovesAway(roster: seq<Organism>, i: nat, fw: FoodWeb)
    requires i < |roster|
    ensures var (n, sx, sy) := ThreatStats(roster, i, fw, |roster|);
      var o, a := roster[i], Flee(roster, i, fw, None);
      n > 0 && InFixedBound(o) ==>
        && (o.x * n != sx && 0 <= o.x + CentroidSide(o.x, n, sx) <= FIXED_BOUND ==> Abs(a.x * n - sx) == Abs(o.x * n - sx) + n)
        && (o.y * n != sy && 0 <= o.y + CentroidSide(o.y, n, sy) <= FIXED_BOUND ==> Abs(a.y * n - sy) == Abs(o.y * n - sy) + n)
  {
    var (n, sx, sy) := ThreatStats(roster, i, fw, |roster|);
    var o := roster[i];
    AwayStepExact(o.x, n, sx);
    AwayStepExact(o.y, n, sy);
  }

  /** The source's flee, without terrain as the engine calls it, moves towards the threats: on every axis
      where the organism is off their centroid and the clamp does not cut the step, the scaled distance
      `d` becomes `| d - n |`, a whole tile less, unless the centroid was less than a tile away and the
      step overshoots it. */
  lemma FleeAsWrittenMovesToward(roster: seq<Organism>, i: nat, fw: FoodWeb)
    requires i < |roster|
    ensures var (n, sx, sy) := ThreatStats(roster, i, fw, |roster|);
      var o, a := roster[i], FleeAsWritten(roster, i, fw, None);
      n > 0 && InFixedBound(o) ==>
        && (o.x * n != sx && 0 <= o.x - CentroidSide(o.x, n, sx) <= FIXED_BOUND ==> Abs(a.x * n - sx) == Abs(Abs(o.x * n - sx) - n))
        && (o.y * n != sy && 0 <= o.y - CentroidSide(o.y, n, sy) <= FIXED_BOUND ==> Abs(a.y * n - sy) == Abs(Abs(o.y * n - sy) - n))
  {
    var (n, sx, sy) := ThreatStats(roster, i, fw, |roster|);
    var o := roster[i];
    TowardStep(o.x, n, sx);
    TowardStep(o.y, n, sy);
  }

  /** The overshoot case of `FleeAsWrittenMovesToward`: with three threats whose x-coordinates sum to 29
      (centroid 9.67), an organism at x = 10 steps to 9 and ends farther from the centroid, so the
      source's flee does not always bring the organism closer to the centroid either. */
  lemma TowardStepOvershoots()
    ensures Abs(Clamp(10 + -1 * CentroidSide(10, 3, 29), FIXED_BOUND) * 3 - 29) == 2
    ensures Abs(10 * 3 - 29) == 1
  {
  }

  /** A Rabbit at (10, 10) with a Fox at (8, 10): the source's flee moves the Rabbit to (9, 10), one tile
      closer to the Fox, where the intended rule moves it to (11, 10). */
  lemma FleeAsWrittenApproachesThreat()
    ensures var fw := FoodWeb([], [("Fox", ["Rabbit"])]);
            var rabbit := NewConsumer(0, "Rabbit", 10, 10, PRIMARY);
            var fox := NewConsumer(1, "Fox", 8, 10, "secondary");
            var roster := [rabbit, fox];
            && FleeAsWritten(roster, 0, fw, None).Pos() == (9, 10)
            && Distance(FleeAsWritten(roster, 0, fw, None), fox) < Distance(rabbit, fox)
            && Flee(roster, 0, fw, None).Pos() == (11, 10)
            && Distance(Flee(roster, 0, fw, None), fox) > Distance(rabbit, fox)
  {
    var fw := FoodWeb([], [("Fox", ["Rabbit"])]);
    var rabbit := NewConsumer(0, "Rabbit", 10, 10, PRIMARY);
    var fox := NewConsumer(1, "Fox", 8, 10, "secondary");
    var roster := [rabbit, fox];
    assert IsPrey(fw, "Fox", "Rabbit");
    assert IsThreat(roster, 0, fw, 1);
    assert !IsThreat(roster, 0, fw, 0);
    assert ThreatStats(roster, 0, fw, 1) == (0, 0, 0);
    assert ThreatStats(roster, 0, fw, 2) == (1, 8, 10);
  }

  // ---------------------------------------------------------------- chase

  /** Organism `j` is prey `i` may chase: a living other organism of a prey species within distance 3,
      not standing on a shelter when a terrain is given. */
  predicate IsChaseTarget(roster: seq<Organism>, i: nat, fw: FoodWeb, terrain: Option<Terrain>, j: nat)
    requires i < |roster| && j < |roster|
  {
    && IsPrey(fw, roster[i].species, roster[j].species)
    && roster[j].alive && j != i
    && Distance(roster[i], roster[j]) <= SENSE_RADIUS
    && !(terrain.Some? && IsShelter(terrain.value, roster[j].x, roster[j].y))
  }

  /** `min(prey_candidates, key=distance)` over the indices from `j` on: a nearest target, the first one in
      roster order among equally near ones. */
  function NearestPrey(roster: seq<Organism>, i: nat, fw: FoodWeb, terrain: Option<Terrain>, j: nat): (b: Option<nat>)
    requires i < |roster| && j <= |roster|
    decreases |roster| - j
    ensures b.Some? ==> j <= b.value < |roster| && IsChaseTarget(roster, i, fw, terrain, b.value)
    ensures b.Some? ==> forall k :: j <= k < |roster| && IsChaseTarget(roster, i, fw, terrain, k) ==>
                          Distance(roster[i], roster[b.value]) <= Distance(roster[i], roster[k])
    ensures b.Some? ==> forall k :: j <= k < b.value && IsChaseTarget(roster, i, fw, terrain, k) ==>
                          Distance(roster[i], roster[b.value]) < Distance(roster[i], roster[k])
    ensures b.None? ==> forall k :: j <= k < |roster| ==> !IsChaseTarget(roster, i, fw, terrain, k)
  {
    if j == |roster| then None
    else
      var rest := NearestPrey(roster, i, fw, terrain, j + 1);
      if !IsChaseTarget(roster, i, fw, terrain, j) then rest
      else if rest.None? || Distance(roster[i], roster[j]) <= Distance(roster[i], roster[rest.value]) then Some(j)
      else rest
  }

  /** `chase`: a dead or well-fed (energy above 40) organism, or one with no target, is left alone.
      Otherwise it steps one tile per axis towards its nearest target (none on an axis where they are
      aligned), clamped to `0..19`, and pays exactly one unit of energy, unless the tile is tree or water
      when a terrain is given. From `0..19` the step is at most one tile per axis; when the target lies
      there too, it closes the gap by one tile on each axis where they differ, which pins the step to the
      sign of the delta. */
  function Chase(roster: seq<Organism>, i: nat, fw: FoodWeb, terrain: Option<Terrain>): (a: Organism)
    requires i < |roster|
    ensures !roster[i].alive || roster[i].energy > HUNGER_LIMIT ==> a == roster[i]
    ensures NearestPrey(roster, i, fw, terrain, 0).None? ==> a == roster[i]
    ensures a == roster[i] || a == roster[i].(x := a.x, y := a.y, energy := roster[i].energy - 1)
    ensures a == roster[i] || (InFixedBound(a) && Enterable(terrain, a.Pos()))
    ensures terrain.None? && roster[i].alive && roster[i].energy <= HUNGER_LIMIT && NearestPrey(roster, i, fw, terrain, 0).Some? ==>
              a.energy == roster[i].energy - 1
    ensures a != roster[i] && InFixedBound(roster[i]) ==> Abs(a.x - roster[i].x) <= 1 && Abs(a.y - roster[i].y) <= 1
    ensures a != roster[i] ==>
      var target := roster[NearestPrey(roster, i, fw, terrain, 0).value];
      InFixedBound(roster[i]) && InFixedBound(target) ==>
        Distance(a, target) == Distance(roster[i], target)
          - (if target.x != roster[i].x then 1 else 0) - (if target.y != roster[i].y then 1 else 0)
  {
    var o := roster[i];
    if !o.alive || o.energy > HUNGER_LIMIT then o
    else
      match NearestPrey(roster, i, fw, terrain, 0)
      case None => o
      case Some(b) => ChaseStep(o, roster[b].Pos(), terrain)
  }

  /** The move of `chase` towards a target tile `t`: one step per axis along the sign of the delta,
      clamped to `0..19`, paying one unit of energy, unless the tile is tree or water. From `0..19` the
      step is at most one tile per axis, and towards a target in `0..19` it closes the gap by exactly one
      tile on each axis where they differ. */
  function ChaseStep(o: Organism, t: Pos, terrain: Option<Terrain>): (a: Organism)
    ensures a == o || (a == o.(x := a.x, y := a.y, energy := o.energy - 1) && InFixedBound(a) && Enterable(terrain, a.Pos()))
    ensures terrain.None? ==> a == o.(x := a.x, y := a.y, energy := o.energy - 1)
    ensures a != o && InFixedBound(o) ==> Abs(a.x - o.x) <= 1 && Abs(a.y - o.y) <= 1
    ensures a != o && InFixedBound(o) && 0 <= t.0 <= FIXED_BOUND && 0 <= t.1 <= FIXED_BOUND ==>
      && Abs(a.x - t.0) == Abs(o.x - t.0) - (if t.0 != o.x then 1 else 0)
      && Abs(a.y - t.1) == Abs(o.y - t.1) - (if t.1 != o.y then 1 else 0)
  {
    ChaseAxis(o.x, t.0);
    ChaseAxis(o.y, t.1);
    var nx := Clamp(o.x + Sign(t.0 - o.x), FIXED_BOUND);
    var ny := Clamp(o.y + Sign(t.1 - o.y), FIXED_BOUND);
    if !Enterable(terrain, (nx, ny)) then o
    else o.(x := nx, y := ny, energy := o.energy - 1)
  }

  /** One chase step on one axis, from `v` in `0..19`: at most one tile, and onto a target `t` in `0..19`
      it closes the gap by exactly one tile unless they are already aligned. */
  lemma ChaseAxis(v: int, t: int)
    ensures 0 <= v <= FIXED_BOUND ==> Abs(Clamp(v + Sign(t - v), FIXED_BOUND) - v) <= 1
    ensures 0 <= v <= FIXED_BOUND && 0 <= t <= FIXED_BOUND ==>
      Abs(Clamp(v + Sign(t - v), FIXED_BOUND) - t) == Abs(v - t) - (if t != v then 1 else 0)
  {
  }

  // ---------------------------------------------------------------- eat

  /** Organism `j` is eaten by organism `i`: alive, on `i`'s tile, and of a prey species of `i`. The source
      does not exclude `i` itself, so a species that is its own prey eats itself. */
  predicate IsVictim(roster: seq<Organism>, i: nat, fw: FoodWeb, j: nat)
    requires i < |roster| && j < |roster|
  {
    roster[j].alive && roster[j].Pos() == roster[i].Pos() && IsPrey(fw, roster[i].species, roster[j].species)
  }

  /** The number of victims among the indices from `j` on. */
  function VictimCount(roster: seq<Organism>, i: nat, fw: FoodWeb, j: nat): nat
    requires i < |roster| && j <= |roster|
    decreases |roster| - j
  {
    if j == |roster| then 0
    else (if IsVictim(roster, i, fw, j) then 1 else 0) + VictimCount(roster, i, fw, j + 1)
  }

  /** The energy after `kills` meals of 20, each capped at `cap`. */
  function Fed(energy: int, cap: int, kills: nat): int {
    if kills == 0 then energy else Min(cap, energy + FOOD_GAIN * kills)
  }

  lemma FedStep(energy: int, cap: int, kills: nat)
    ensures Fed(Min(cap, energy + FOOD_GAIN), cap, kills) == Fed(energy, cap, kills + 1)
  {
  }

  /** Victims from `j` on are the same in two rosters that agree on liveness, tiles and species from `j` on
      and on the eater's tile and species. */
  lemma {:induction false} VictimCountAgrees(r1: seq<Organism>, r2: seq<Organism>, i: nat, fw: FoodWeb, j: nat)
    requires |r1| == |r2| && i < |r1| && j <= |r1|
    requires r1[i].Pos() == r2[i].Pos() && r1[i].species == r2[i].species
    requires forall k :: j <= k < |r1| ==> r1[k].alive == r2[k].alive && r1[k].Pos() == r2[k].Pos() && r1[k].species == r2[k].species
    decreases |r1| - j
    ensures VictimCount(r1, i, fw, j) == VictimCount(r2, i, fw, j)
  {
    if j < |r1| {
      VictimCountAgrees(r1, r2, i, fw, j + 1);
    }
  }

  /** One meal: `j` dies, then the eater gains 20, capped. */
  function Devour(roster: seq<Organism>, i: nat, j: nat): seq<Organism>
    requires i < |roster| && j < |roster|
  {
    var r := roster[j := roster[j].(alive := false)];
    r[i := r[i].(energy := Min(r[i].maxEnergy, r[i].energy + FOOD_GAIN))]
  }

  /** The loop of `eat_if_possible` from index `j` on. */
  function EatFrom(roster: seq<Organism>, i: nat, fw: FoodWeb, j: nat): (r: seq<Organism>)
    requires i < |roster| && j <= |roster|
    decreases |roster| - j
    ensures |r| == |roster|
    ensures forall k :: 0 <= k < |roster| && k != i ==>
              r[k] == roster[k].(alive := roster[k].alive && !(k >= j && IsVictim(roster, i, fw, k)))
    ensures r[i] == roster[i].(alive := roster[i].alive && !(i >= j && IsVictim(roster, i, fw, i)),
                               energy := Fed(roster[i].energy, roster[i].maxEnergy, VictimCount(roster, i, fw, j)))
  {
    if j == |roster| then roster
    else if IsVictim(roster, i, fw, j) then
      var r1 := Devour(roster, i, j);
      VictimCountAgrees(r1, roster, i, fw, j + 1);
      FedStep(roster[i].energy, roster[i].maxEnergy, VictimCount(roster, i, fw, j + 1));
      EatFrom(r1, i, fw, j + 1)
    else
      EatFrom(roster, i, fw, j + 1)
  }

  /** `eat_if_possible`: exactly the living organisms on the eater's tile whose species it preys on die,
      the eater gains 20 energy per kill with the total capped at its maximum, and nothing else changes. */
  function Eat(roster: seq<Organism>, i: nat, fw: FoodWeb): (r: seq<Organism>)
    requires i < |roster|
    ensures |r| == |roster|
    ensures forall k :: 0 <= k < |roster| ==> r[k].alive == (roster[k].alive && !IsVictim(roster, i, fw, k))
    ensures forall k :: 0 <= k < |roster| && k != i ==> r[k] == roster[k].(alive := r[k].alive)
    ensures r[i] == roster[i].(alive := r[i].alive, energy := Fed(roster[i].energy, roster[i].maxEnergy, VictimCount(roster, i, fw, 0)))
  {
    EatFrom(roster, i, fw, 0)
  }

  // ---------------------------------------------------------------- random move

  /** The step size: the speed, or 1 when standing on a hill. */
  function StepSize(o: Organism, terrain: Option<Terrain>): nat
    requires o.kind.Consumer?
  {
    if terrain.Some? && Terrains.GetType(terrain.value, o.x, o.y) == HILL then 1 else o.kind.speed
  }

  /** The tile the `k`-th attempt of `random_move` proposes. */
  function MoveAttempt(o: Organism, gridSize: int, step: nat, draw: nat -> (nat, nat), k: nat): (p: Pos)
    ensures gridSize >= 1 ==> InGrid(p, gridSize)
    ensures InGrid(o.Pos(), gridSize) ==> Abs(p.0 - o.x) <= step && Abs(p.1 - o.y) <= step
  {
    var s: int := step;
    ClampNoFarther(o.x, RandInt(-s, s, draw(k).0), gridSize - 1);
    ClampNoFarther(o.y, RandInt(-s, s, draw(k).1), gridSize - 1);
    (Clamp(o.x + RandInt(-s, s, draw(k).0), gridSize - 1), Clamp(o.y + RandInt(-s, s, draw(k).1), gridSize - 1))
  }

  /** The 10 tiles `random_move` tries, in order. */
  function Attempts(o: Organism, gridSize: int, step: nat, draw: nat -> (nat, nat)): (ps: seq<Pos>)
    ensures |ps| == MOVE_TRIES
    ensures forall j :: 0 <= j < MOVE_TRIES ==> ps[j] == MoveAttempt(o, gridSize, step, draw, j)
    ensures gridSize >= 1 ==> forall j :: 0 <= j < MOVE_TRIES ==> InGrid(ps[j], gridSize)
    ensures InGrid(o.Pos(), gridSize) ==> forall j :: 0 <= j < MOVE_TRIES ==> Abs(ps[j].0 - o.x) <= step && Abs(ps[j].1 - o.y) <= step
  {
    seq(MOVE_TRIES, (j: int) requires 0 <= j => MoveAttempt(o, gridSize, step, draw, j))
  }

  /** The first tile of `ps` from `k` on that is neither tree nor water: the one at the least such index,
      and none when every tile from `k` on is blocked. */
  function FirstEnterable(terrain: Option<Terrain>, ps: seq<Pos>, k: nat): (p: Option<Pos>)
    decreases |ps| - k
    ensures p.Some? ==> exists j :: k <= j < |ps| && p.value == ps[j] && Enterable(terrain, ps[j])
                                   && forall m :: k <= m < j ==> !Enterable(terrain, ps[m])
    ensures p.None? ==> forall j :: k <= j < |ps| ==> !Enterable(terrain, ps[j])
    ensures terrain.None? && k < |ps| ==> p == Some(ps[k])
  {
    if k >= |ps| then None
    else if Enterable(terrain, ps[k]) then Some(ps[k])
    else FirstEnterable(terrain, ps, k + 1)
  }

  /** `random_move`: a dead organism is left alone. Otherwise it takes the first of 10 random attempts
      that is neither tree nor water (the first attempt when there is no terrain), each axis moving by at
      most its speed (1 on a hill) and clamped to the grid; when all 10 attempts fail it stays put. Only
      the position changes; the energy is not touched. */
  function RandomMove(o: Organism, gridSize: int, terrain: Option<Terrain>, draw: nat -> (nat, nat)): (a: Organism)
    requires o.kind.Consumer?
    ensures !o.alive ==> a == o
    ensures a == o.(x := a.x, y := a.y)
    ensures a.Pos() == o.Pos() || (Enterable(terrain, a.Pos()) && (gridSize >= 1 ==> InGrid(a.Pos(), gridSize)))
    ensures InGrid(o.Pos(), gridSize) ==> Abs(a.x - o.x) <= StepSize(o, terrain) && Abs(a.y - o.y) <= StepSize(o, terrain)
    ensures o.alive && FirstEnterable(terrain, Attempts(o, gridSize, StepSize(o, terrain), draw), 0).Some? ==>
              a.Pos() == FirstEnterable(terrain, Attempts(o, gridSize, StepSize(o, terrain), draw), 0).value
    ensures var ps := Attempts(o, gridSize, StepSize(o, terrain), draw);
      o.alive ==>
        && ((forall j :: 0 <= j < MOVE_TRIES ==> !Enterable(terrain, ps[j])) ==> a == o)
        && ((exists j :: 0 <= j < MOVE_TRIES && Enterable(terrain, ps[j])) ==>
              exists j :: 0 <= j < MOVE_TRIES && a.Pos() == ps[j] && Enterable(terrain, ps[j])
                          && forall m :: 0 <= m < j ==> !Enterable(terrain, ps[m]))
  {
    if !o.alive then o
    else
      match FirstEnterable(terrain, Attempts(o, gridSize, StepSize(o, terrain), draw), 0)
      case None => o
      case Some(p) => o.(x := p.0, y := p.1)
  }

  // ---------------------------------------------------------------- the consumer step

  /** `Consumer.step` as the engine calls it: a dead consumer does nothing; a living one flees (with the
      source's own signs, `FleeAsWritten`), chases
      (both without terrain, as the engine passes none), eats, wanders with the terrain, and then pays one
      unit of energy, dying at zero. Other organisms can only die (eaten), never move or revive; the
      consumer keeps its identity, never revives, and with energy within its cap ends between two below
      its start and one below the cap. With a grid of at least 20 tiles it stays on the grid. */
  function ConsumerStep(roster: seq<Organism>, i: nat, gridSize: int, fw: FoodWeb, terrain: Terrain, draw: nat -> (nat, nat)): (r: seq<Organism>)
    requires i < |roster| && roster[i].kind.Consumer?
    ensures |r| == |roster|
    ensures !roster[i].alive ==> r == roster
    ensures forall k :: 0 <= k < |roster| && k != i ==> r[k] == roster[k].(alive := r[k].alive) && (r[k].alive ==> roster[k].alive)
    ensures r[i] == roster[i].(x := r[i].x, y := r[i].y, energy := r[i].energy, alive := r[i].alive)
    ensures r[i].alive ==> roster[i].alive && r[i].energy > 0
    ensures roster[i].alive && EnergyCapped(roster[i]) ==> roster[i].energy - 2 <= r[i].energy <= roster[i].maxEnergy - 1
    ensures gridSize > FIXED_BOUND && InGrid(roster[i].Pos(), gridSize) ==> InGrid(r[i].Pos(), gridSize)
  {
    if !roster[i].alive then roster
    else
      var r1 := roster[i := FleeAsWritten(roster, i, fw, None)];
      var r2 := r1[i := Chase(r1, i, fw, None)];
      var r3 := Eat(r2, i, fw);
      var r4 := r3[i := RandomMove(r3[i], gridSize, Some(terrain), draw)];
      var o := r4[i];
      r4[i := o.(energy := o.energy - 1, alive := o.alive && o.energy - 1 > 0)]
  }
}

=== FILE: engine.dfy ===
/** The simulation engine: the initial roster of `setup`, the decomposition interval, and one step of
    `run` as a fold over the organisms alive when the step starts. */
module Engine {
  import opened Wrappers
  import opened Grid
  import opened Seqs
  import opened FoodWebs
  import opened Organisms
  import opened Terrains
  import opened TerrainEffects
  import opened Behavior
  import opened Reproduction

  const PRODUCER_TYPE := "Producer"
  const CONSUMER_TYPE := "Consumer"
  const DECOMPOSER_TYPE := "Decomposer"
  const PRODUCERS_PER_SPECIES := 4
  const DEFAULT_INTERVAL := 20

  // ---------------------------------------------------------------- setup

  /** `level_counts.get(level, 1)`: the default number of consumers per trophic level. */
  function LevelCount(level: string): int {
    if level == "primary" then 5
    else if level == "secondary" then 2
    else if level == "tertiary" then 1
    else if level == "omnivore" then 3
    else if level == "unknown" then 1
    else 1
  }

  /** How many organisms `setup` places for a species: 4 producers, the configured (or level default)
      number of consumers, none for any other type; a negative count places none. */
  function InitialCount(fw: FoodWeb, s: string): nat {
    if FoodWebs.GetType(fw, s) == PRODUCER_TYPE then PRODUCERS_PER_SPECIES
    else if FoodWebs.GetType(fw, s) == CONSUMER_TYPE then
      var fallback := LevelCount(GetTrophicLevel(fw, s));
      var c := match Info(fw, s) case Some(info) => info.initialCount.GetOr(fallback) case None => fallback;
      if c < 0 then 0 else c
    else 0
  }

  /** The kind of the organisms `setup` places for a species. */
  function InitialKind(fw: FoodWeb, s: string): Kind {
    if FoodWebs.GetType(fw, s) == PRODUCER_TYPE then Producer else Consumer(GetTrophicLevel(fw, s), DEFAULT_SPEED)
  }

  /** How many organisms of which species and kind `setup` places, species by species. */
  datatype Quota = Quota(species: string, count: nat, kind: Kind)

  function Quotas(fw: FoodWeb, names: seq<string>): (qs: seq<Quota>)
    ensures |qs| == |names|
    ensures forall k :: 0 <= k < |names| ==> qs[k] == Quota(names[k], InitialCount(fw, names[k]), InitialKind(fw, names[k]))
  {
    seq(|names|, k requires 0 <= k < |names| => Quota(names[k], InitialCount(fw, names[k]), InitialKind(fw, names[k])))
  }

  function TotalCount(qs: seq<Quota>): nat {
    if |qs| == 0 then 0 else qs[0].count + TotalCount(qs[1..])
  }

  /** The number of organisms the quotas give species `s`. */
  function QuotaOf(qs: seq<Quota>, s: string): nat {
    if |qs| == 0 then 0 else (if qs[0].species == s then qs[0].count else 0) + QuotaOf(qs[1..], s)
  }

  /** One species' organisms, on `tiles`, numbered from `firstId`. */
  function Batch(q: Quota, tiles: seq<Pos>, firstId: int): (b: seq<Organism>)
    ensures |b| == |tiles|
    ensures forall k :: 0 <= k < |b| ==> b[k] == Organism(firstId + k, q.species, tiles[k].0, tiles[k].1, INITIAL_ENERGY, MAX_ENERGY, true, q.kind)
  {
    seq(|tiles|, k requires 0 <= k < |tiles| => Organism(firstId + k, q.species, tiles[k].0, tiles[k].1, INITIAL_ENERGY, MAX_ENERGY, true, q.kind))
  }

  lemma {:induction false} BatchCount(q: Quota, tiles: seq<Pos>, firstId: int, s: string)
    decreases |tiles|
    ensures LiveCount(Batch(q, tiles, firstId), s) == if q.species == s then |tiles| else 0
  {
    if |tiles| > 0 {
      BatchCount(q, tiles[1..], firstId + 1, s);
      assert Batch(q, tiles, firstId)[1..] == Batch(q, tiles[1..], firstId + 1);
    }
  }

  /** The placement loop of `setup`, quota by quota, taking the tiles in order. */
  function Place(qs: seq<Quota>, tiles: seq<Pos>, firstId: int): (r: seq<Organism>)
    requires |tiles| == TotalCount(qs)
    decreases |qs|
    ensures |r| == |tiles|
  {
    if |qs| == 0 then []
    else Batch(qs[0], tiles[..qs[0].count], firstId) + Place(qs[1..], tiles[qs[0].count..], firstId + qs[0].count)
  }

  /** Every placed organism is fresh, on its tile, with the next identity, and of the species and kind of
      some quota. */
  lemma {:induction false} PlaceShape(qs: seq<Quota>, tiles: seq<Pos>, firstId: int, r: seq<Organism>)
    requires |tiles| == TotalCount(qs) && r == Place(qs, tiles, firstId)
    decreases |qs|
    ensures forall k :: 0 <= k < |r| ==>
              && r[k].id == firstId + k && r[k].Pos() == tiles[k]
              && r[k].alive && r[k].energy == INITIAL_ENERGY && r[k].maxEnergy == MAX_ENERGY
              && exists q :: q in qs && q.species == r[k].species && q.kind == r[k].kind
  {
    if |qs| > 0 {
      var n := qs[0].count;
      var first := Batch(qs[0], tiles[..n], firstId);
      var rest := Place(qs[1..], tiles[n..], firstId + n);
      PlaceShape(qs[1..], tiles[n..], firstId + n, rest);
      assert r == first + rest;
      forall k | 0 <= k < |r|
        ensures r[k].id == firstId + k && r[k].Pos() == tiles[k]
        ensures r[k].alive && r[k].energy == INITIAL_ENERGY && r[k].maxEnergy == MAX_ENERGY
        ensures exists q :: q in qs && q.species == r[k].species && q.kind == r[k].kind
      {
        if k < n {
          assert r[k] == first[k] && qs[0] in qs;
        } else {
          assert r[k] == rest[k - n] && tiles[n..][k - n] == tiles[k];
          var q :| q in qs[1..] && q.species == rest[k - n].species && q.kind == rest[k - n].kind;
          assert q in qs;
        }
      }
    }
  }

  lemma {:induction false} PlaceCount(qs: seq<Quota>, tiles: seq<Pos>, firstId: int, s: string)
    requires |tiles| == TotalCount(qs)
    decreases |qs|
    ensures LiveCount(Place(qs, tiles, firstId), s) == QuotaOf(qs, s)
  {
    if |qs| > 0 {
      var n := qs[0].count;
      var first := Batch(qs[0], tiles[..n], firstId);
      var rest := Place(qs[1..], tiles[n..], firstId + n);
      LiveCountAppend(first, rest, s);
      BatchCount(qs[0], tiles[..n], firstId, s);
      PlaceCount(qs[1..], tiles[n..], firstId + n, s);
    }
  }

  /** Over distinct species, the quotas give each listed species its initial count and nothing else. */
  lemma {:induction false} QuotaOfSpecies(fw: FoodWeb, names: seq<string>, s: string)
    requires NoDup(names)
    decreases |names|
    ensures QuotaOf(Quotas(fw, names), s) == if s in names then InitialCount(fw, s) else 0
  {
    if |names| > 0 {
      NoDupTail(names);
      QuotaOfSpecies(fw, names[1..], s);
      assert Quotas(fw, names)[1..] == Quotas(fw, names[1..]);
      assert s in names <==> s == names[0] || s in names[1..];
    }
  }

  /** The tiles `setup` may choose: one per organism, pairwise distinct, on the grid, and neither water
      nor tree. The source redraws until it finds such a tile. */
  predicate SetupTiles(gridSize: int, fw: FoodWeb, t: Terrain, tiles: seq<Pos>) {
    && |tiles| == TotalCount(Quotas(fw, AllSpecies(fw)))
    && NoDup(tiles)
    && forall k :: 0 <= k < |tiles| ==> InGrid(tiles[k], gridSize) && !IsWater(t, tiles[k].0, tiles[k].1) && !IsBlocked(t, tiles[k].0, tiles[k].1)
  }

  /** `setup`'s roster: the species in food-web order, each with its initial count of fresh organisms of
      its kind, numbered 0, 1, … and placed on the chosen tiles. */
  function Setup(gridSize: int, fw: FoodWeb, t: Terrain, tiles: seq<Pos>): (r: seq<Organism>)
    requires SetupTiles(gridSize, fw, t, tiles)
    ensures |r| == |tiles|
    ensures forall k :: 0 <= k < |r| ==>
              && r[k].id == k && r[k].Pos() == tiles[k] && r[k].alive
              && r[k].energy == INITIAL_ENERGY && r[k].maxEnergy == MAX_ENERGY
              && r[k].kind == InitialKind(fw, r[k].species)
    ensures FoodWebs.Valid(fw) ==> forall s :: LiveCount(r, s) == if s in AllSpecies(fw) then InitialCount(fw, s) else 0
  {
    var r := Place(Quotas(fw, AllSpecies(fw)), tiles, 0);
    SetupShape(fw, tiles, r);
    SetupCounts(fw, tiles);
    r
  }

  lemma SetupShape(fw: FoodWeb, tiles: seq<Pos>, r: seq<Organism>)
    requires |tiles| == TotalCount(Quotas(fw, AllSpecies(fw))) && r == Place(Quotas(fw, AllSpecies(fw)), tiles, 0)
    ensures forall k :: 0 <= k < |r| ==>
              && r[k].id == k && r[k].Pos() == tiles[k] && r[k].alive
              && r[k].energy == INITIAL_ENERGY && r[k].maxEnergy == MAX_ENERGY
              && r[k].kind == InitialKind(fw, r[k].species)
  {
    var qs := Quotas(fw, AllSpecies(fw));
    PlaceShape(qs, tiles, 0, r);
    forall k | 0 <= k < |r| ensures r[k].kind == InitialKind(fw, r[k].species) {
      var q :| q in qs && q.species == r[k].species && q.kind == r[k].kind;
    }
  }

  lemma SetupCounts(fw: FoodWeb, tiles: seq<Pos>)
    requires |tiles| == TotalCount(Quotas(fw, AllSpecies(fw)))
    ensures FoodWebs.Valid(fw) ==> forall s :: LiveCount(Place(Quotas(fw, AllSpecies(fw)), tiles, 0), s) == if s in AllSpecies(fw) then InitialCount(fw, s) else 0
  {
    if FoodWebs.Valid(fw) {
      forall s ensures LiveCount(Place(Quotas(fw, AllSpecies(fw)), tiles, 0), s) == if s in AllSpecies(fw) then InitialCount(fw, s) else 0 {
        PlaceCount(Quotas(fw, AllSpecies(fw)), tiles, 0, s);
        QuotaOfSpecies(fw, AllSpecies(fw), s);
      }
    }
  }

  // ---------------------------------------------------------------- decomposition interval

  predicate IsDecomposer(fw: FoodWeb, s: string) {
    FoodWebs.GetType(fw, s) == DECOMPOSER_TYPE
  }

  /** The least decomposition rate among the decomposers of `names`, if there is one. */
  function MinRate(fw: FoodWeb, names: seq<string>): (r: Option<int>)
    ensures r.None? <==> forall s :: s in names ==> !IsDecomposer(fw, s)
    ensures r.Some? ==> exists s :: s in names && IsDecomposer(fw, s) && GetDecompositionRate(fw, s) == r.value
    ensures r.Some? ==> forall s :: s in names && IsDecomposer(fw, s) ==> r.value <= GetDecompositionRate(fw, s)
  {
    if |names| == 0 then None
    else
      var rest := MinRate(fw, names[1..]);
      assert forall s :: s in names <==> s == names[0] || s in names[1..];
      if !IsDecomposer(fw, names[0]) then rest
      else if rest.None? || GetDecompositionRate(fw, names[0]) <= rest.value then Some(GetDecompositionRate(fw, names[0]))
      else rest
  }

  /** `decomposition_interval`: the least decomposition rate over the Decomposer species, 20 without any. */
  function DecompositionInterval(fw: FoodWeb): (d: int)
    ensures (forall s :: s in AllSpecies(fw) ==> !IsDecomposer(fw, s)) ==> d == DEFAULT_INTERVAL
    ensures (exists s :: s in AllSpecies(fw) && IsDecomposer(fw, s)) ==>
              (exists s :: s in AllSpecies(fw) && IsDecomposer(fw, s) && GetDecompositionRate(fw, s) == d)
              && forall s :: s in AllSpecies(fw) && IsDecomposer(fw, s) ==> d <= GetDecompositionRate(fw, s)
  {
    MinRate(fw, AllSpecies(fw)).GetOr(DEFAULT_INTERVAL)
  }
}

=== FILE: engine_step.dfy ===
/** One step of the simulation loop (`SimulationEngine.run`): the behaviour pass over the organisms alive
    when the step starts, each followed by its water effect and heatmap visit; the shelter update; the
    offspring appended at the end of the roster; one population-history entry per species; and the
    periodic removal of one corpse. */
module EngineStep {
  import opened Wrappers
  import opened Grid
  import opened Seqs
  import opened FoodWebs
  import opened Organisms
  import opened Terrains
  import opened TerrainEffects
  import opened Behavior
  import opened Reproduction
  import opened Engine

  /** Visits per (species, row, column); a missing key reads 0, as in a fresh numpy array. */
  type Heatmap = map<(string, int, int), nat>

  /** The engine's state between steps. `repro` is the cooldown state `reproduce` keeps between calls,
      `nextId` the identity the next newborn receives. */
  datatype World = World(
    gridSize: int,
    fw: FoodWeb,
    terrain: Terrain,
    roster: seq<Organism>,
    repro: ReproState,
    heatmap: Heatmap,
    history: map<string, seq<nat>>,
    interval: int,
    nextId: int)

  /** The random draws of one step: per acting roster index and attempt, a move draw; per roster index and
      attempt, an eviction draw; and the draws of `reproduce`. */
  datatype StepDice = StepDice(moves: (nat, nat) -> (nat, nat), evictions: (nat, nat) -> (nat, nat), repro: Dice)

  function Heat(h: Heatmap, key: (string, int, int)): nat {
    if key in h then h[key] else 0
  }

  /** The heatmap cell of an organism: its species, then row `y`, then column `x`. */
  function Cell(o: Organism): (string, int, int) {
    (o.species, o.y, o.x)
  }

  /** The heatmap increment after an organism's turn: its cell gains one visit when it is on the grid, and
      no other cell changes. */
  function Bump(h: Heatmap, o: Organism, gridSize: int): (r: Heatmap)
    ensures forall key :: Heat(r, key) == Heat(h, key) + (if key == Cell(o) && InGrid(o.Pos(), gridSize) then 1 else 0)
  {
    if InGrid(o.Pos(), gridSize) then h[Cell(o) := Heat(h, Cell(o)) + 1] else h
  }

  function Hist(h: map<string, seq<nat>>, s: string): seq<nat> {
    if s in h then h[s] else []
  }

  // ---------------------------------------------------------------- roster invariants

  /** `after` is `before` with at most its position, energy and liveness changed, and not revived. */
  predicate Kept(before: Organism, after: Organism) {
    && after == before.(x := after.x, y := after.y, energy := after.energy, alive := after.alive)
    && (after.alive ==> before.alive)
  }

  /** Index by index, every organism of `after` is its counterpart of `before`, kept. */
  predicate Evolved(before: seq<Organism>, after: seq<Organism>) {
    |after| == |before| && forall k :: 0 <= k < |before| ==> Kept(before[k], after[k])
  }

  predicate Capped(roster: seq<Organism>) {
    forall k :: 0 <= k < |roster| ==> EnergyCapped(roster[k])
  }

  predicate AllInGrid(roster: seq<Organism>, gridSize: int) {
    forall k :: 0 <= k < |roster| ==> InGrid(roster[k].Pos(), gridSize)
  }

  /** Every identity is below `nextId`, and no two organisms share one. */
  predicate IdsFresh(roster: seq<Organism>, nextId: int) {
    DistinctIds(roster) && forall k :: 0 <= k < |roster| ==> 0 <= roster[k].id < nextId
  }

  lemma {:induction false} EvolvedTrans(a: seq<Organism>, b: seq<Organism>, c: seq<Organism>)
    requires Evolved(a, b) && Evolved(b, c)
    ensures Evolved(a, c)
  {
    forall k | 0 <= k < |a| ensures Kept(a[k], c[k]) {
      assert Kept(a[k], b[k]) && Kept(b[k], c[k]);
    }
  }

  lemma EvolvedIds(a: seq<Organism>, b: seq<Organism>, nextId: int)
    requires Evolved(a, b)
    ensures IdsFresh(a, nextId) ==> IdsFresh(b, nextId)
  {
    assert forall k :: 0 <= k < |a| ==> a[k].id == b[k].id by {
      forall k | 0 <= k < |a| ensures a[k].id == b[k].id {
        assert Kept(a[k], b[k]);
      }
    }
  }

  // ---------------------------------------------------------------- the behaviour pass

  /** The organism's own step: `Consumer.step` for a consumer, `Producer.step` (nothing) for a producer. */
  function Act(roster: seq<Organism>, i: nat, gridSize: int, fw: FoodWeb, terrain: Terrain, draw: nat -> (nat, nat)): (r: seq<Organism>)
    requires i < |roster|
    ensures |r| == |roster|
    ensures !roster[i].alive ==> r == roster
    ensures forall k :: 0 <= k < |roster| && k != i ==> r[k] == roster[k].(alive := r[k].alive) && (r[k].alive ==> roster[k].alive)
    ensures Kept(roster[i], r[i])
    ensures roster[i].kind.Producer? ==> r == roster
    ensures EnergyCapped(roster[i]) ==> EnergyCapped(r[i])
    ensures gridSize > FIXED_BOUND && InGrid(roster[i].Pos(), gridSize) ==> InGrid(r[i].Pos(), gridSize)
  {
    match roster[i].kind
    case Producer => roster[i := ProducerStep(roster[i])]
    case Consumer(_, _) => ConsumerStep(roster, i, gridSize, fw, terrain, draw)
  }

  /** One turn of the pass for roster index `i`: its own step, then the water effect on it, then its
      heatmap visit. Only the roster, the water counters and the heatmap change; the actor alone can move
      or gain energy, everybody else can at most die; a dead actor changes nothing but the heatmap. */
  function ActOne(w: World, i: nat, step: nat, dice: StepDice): (r: World)
    requires i < |w.roster|
    ensures r == w.(roster := r.roster, terrain := r.terrain, heatmap := r.heatmap)
    ensures r.terrain == w.terrain.(waterCounters := r.terrain.waterCounters)
    ensures WaterCountersCapped(w.terrain) ==> WaterCountersCapped(r.terrain)
    ensures Evolved(w.roster, r.roster)
    ensures forall k :: 0 <= k < |w.roster| && k != i ==> r.roster[k] == w.roster[k].(alive := r.roster[k].alive)
    ensures !w.roster[i].alive ==> r.roster == w.roster
    ensures Capped(w.roster) ==> Capped(r.roster)
    ensures w.gridSize > FIXED_BOUND && AllInGrid(w.roster, w.gridSize) ==> AllInGrid(r.roster, w.gridSize)
    ensures forall key :: Heat(r.heatmap, key) == Heat(w.heatmap, key) + (if key == Cell(r.roster[i]) && InGrid(r.roster[i].Pos(), w.gridSize) then 1 else 0)
  {
    var r1 := Act(w.roster, i, w.gridSize, w.fw, w.terrain, k => dice.moves(i, k));
    var (t2, o2) := ApplyWaterEffect(w.terrain, r1[i], step);
    var r2 := r1[i := o2];
    w.(roster := r2, terrain := t2, heatmap := Bump(w.heatmap, o2, w.gridSize))
  }

  /** The indices from `k` on of the organisms alive in `roster`, in roster order. */
  function LivingFrom(roster: seq<Organism>, k: nat): (idx: seq<nat>)
    requires k <= |roster|
    decreases |roster| - k
    ensures forall m :: 0 <= m < |idx| ==> k <= idx[m] < |roster| && roster[idx[m]].alive
    ensures forall j :: k <= j < |roster| && roster[j].alive ==> j in idx
    ensures forall a, b :: 0 <= a < b < |idx| ==> idx[a] < idx[b]
  {
    if k == |roster| then []
    else (if roster[k].alive then [k] else []) + LivingFrom(roster, k + 1)
  }

  /** `living = [org for org in organisms if org.alive]`: the indices of the living, in roster order. */
  function LivingIndices(roster: seq<Organism>): (idx: seq<nat>)
    ensures forall m :: 0 <= m < |idx| ==> idx[m] < |roster| && roster[idx[m]].alive
    ensures forall j :: 0 <= j < |roster| && roster[j].alive ==> j in idx
    ensures forall a, b :: 0 <= a < b < |idx| ==> idx[a] < idx[b]
  {
    LivingFrom(roster, 0)
  }

  /** The turns of the roster indices `idx`, in order, each seeing what the earlier ones did. An organism
      dead when the pass starts ends it unchanged, and every cell gains at most one visit per turn. */
  function PassFrom(w: World, idx: seq<nat>, step: nat, dice: StepDice): (r: World)
    requires forall m :: 0 <= m < |idx| ==> idx[m] < |w.roster|
    decreases |idx|
    ensures r == w.(roster := r.roster, terrain := r.terrain, heatmap := r.heatmap)
    ensures r.terrain == w.terrain.(waterCounters := r.terrain.waterCounters)
    ensures WaterCountersCapped(w.terrain) ==> WaterCountersCapped(r.terrain)
    ensures Evolved(w.roster, r.roster)
    ensures forall k :: 0 <= k < |w.roster| && !w.roster[k].alive ==> r.roster[k] == w.roster[k]
    ensures Capped(w.roster) ==> Capped(r.roster)
    ensures w.gridSize > FIXED_BOUND && AllInGrid(w.roster, w.gridSize) ==> AllInGrid(r.roster, w.gridSize)
    ensures forall key :: Heat(w.heatmap, key) <= Heat(r.heatmap, key) <= Heat(w.heatmap, key) + |idx|
  {
    if |idx| == 0 then w
    else
      var w1 := ActOne(w, idx[0], step, dice);
      var r := PassFrom(w1, idx[1..], step, dice);
      EvolvedTrans(w.roster, w1.roster, r.roster);
      r
  }

  // ---------------------------------------------------------------- births, history, decomposition

  /** The new organisms of one `reproduce` call, numbered from `firstId` in the order returned. */
  function Newborns(bs: seq<Birth>, firstId: int): (r: seq<Organism>)
    ensures |r| == |bs|
    ensures forall k :: 0 <= k < |r| ==>
              && r[k].id == firstId + k && r[k].alive && r[k].energy == INITIAL_ENERGY && r[k].maxEnergy == MAX_ENERGY
              && r[k].species == bs[k].species && r[k].Pos() == bs[k].pos && r[k].kind == bs[k].kind
  {
    seq(|bs|, k requires 0 <= k < |bs| => Born(bs[k], firstId + k))
  }

  /** One history entry per listed species, its living count in `roster`; other species are untouched. */
  function RecordPopulation(h: map<string, seq<nat>>, names: seq<string>, roster: seq<Organism>): (r: map<string, seq<nat>>)
    decreases |names|
    ensures forall s :: s !in names ==> Hist(r, s) == Hist(h, s)
    ensures NoDup(names) ==> forall s :: s in names ==> Hist(r, s) == Hist(h, s) + [LiveCount(roster, s)]
  {
    if |names| == 0 then h
    else
      var s0 := names[0];
      NoDupTail(names);
      assert forall s :: s in names <==> s == s0 || s in names[1..];
      RecordPopulation(h[s0 := Hist(h, s0) + [LiveCount(roster, s0)]], names[1..], roster)
  }

  /** The index of the first dead organism, if any. */
  function FirstDead(roster: seq<Organism>): (k: Option<nat>)
    ensures k.None? <==> forall j :: 0 <= j < |roster| ==> roster[j].alive
    ensures k.Some? ==> k.value < |roster| && !roster[k.value].alive && forall j :: 0 <= j < k.value ==> roster[j].alive
  {
    if |roster| == 0 then None
    else if !roster[0].alive then Some(0)
    else
      match FirstDead(roster[1..])
      case None => None
      case Some(j) => Some(j + 1)
  }

  /** The corpse loop: the first dead organism in roster order leaves the roster, if there is one.
      Everything before it keeps its index, everything after it moves up by one. */
  function RemoveFirstDead(roster: seq<Organism>): (r: seq<Organism>)
    ensures FirstDead(roster).None? ==> r == roster
    ensures FirstDead(roster).Some? ==> |r| == |roster| - 1
    ensures FirstDead(roster).Some? ==>
      && (forall k :: 0 <= k < FirstDead(roster).value ==> r[k] == roster[k])
      && (forall k :: FirstDead(roster).value <= k < |r| ==> r[k] == roster[k + 1])
    ensures forall o :: o in r ==> o in roster
  {
    match FirstDead(roster)
    case None => roster
    case Some(j) => roster[..j] + roster[j + 1..]
  }

  /** Removing the corpse keeps every living organism, in order, so no living count changes. */
  lemma RemoveFirstDeadKeepsLiving(roster: seq<Organism>)
    ensures Filter(RemoveFirstDead(roster), (o: Organism) => o.alive) == Filter(roster, (o: Organism) => o.alive)
    ensures forall s :: LiveCount(RemoveFirstDead(roster), s) == LiveCount(roster, s)
  {
    match FirstDead(roster)
    case None =>
    case Some(j) =>
      var a, b := roster[..j], roster[j + 1..];
      assert roster == (a + [roster[j]]) + b;
      assert RemoveFirstDead(roster) == a + b;
      DropDeadFilter(a, roster[j], b);
      forall s ensures LiveCount(a + b, s) == LiveCount((a + [roster[j]]) + b, s) {
        DropDeadCount(a, roster[j], b, s);
      }
  }

  lemma DropDeadFilter(a: seq<Organism>, d: Organism, b: seq<Organism>)
    requires !d.alive
    ensures Filter(a + b, (o: Organism) => o.alive) == Filter((a + [d]) + b, (o: Organism) => o.alive)
  {
    FilterSkip(a, d, b, (o: Organism) => o.alive);
  }

  lemma DropDeadCount(a: seq<Organism>, d: Organism, b: seq<Organism>, s: string)
    requires !d.alive
    ensures LiveCount(a + b, s) == LiveCount((a + [d]) + b, s)
  {
    LiveCountAppend(a + [d], b, s);
    LiveCountAppend(a, [d], s);
    LiveCountAppend(a, b, s);
    assert LiveCount([d], s) == 0;
  }

  /** Decomposition is due on every `interval`-th step after the first. */
  predicate DecomposeDue(step: nat, interval: int)
    requires step > 0 ==> interval != 0
  {
    step > 0 && step % interval == 0
  }

  // ---------------------------------------------------------------- the invariant

  /** What every step keeps: a consistent grid and terrain, water counters within their cap, fresh distinct
      identities, energies within their maximum, and, when the grid is larger than the hard-coded bound of
      chase and flee, every organism on the grid. */
  predicate Inv(w: World) {
    && w.gridSize >= 1 && w.terrain.gridSize == w.gridSize && w.nextId >= 0
    && Terrains.Valid(w.terrain) && WaterCountersCapped(w.terrain)
    && IdsFresh(w.roster, w.nextId)
    && Capped(w.roster)
    && (w.gridSize > FIXED_BOUND ==> AllInGrid(w.roster, w.gridSize))
  }

  /** An organism as its constructor left it: alive, with the initial energy and maximum. */
  predicate Unborn(o: Organism) {
    o.alive && o.energy == INITIAL_ENERGY && o.maxEnergy == MAX_ENERGY
  }

  lemma MidpointInGrid(a: Organism, b: Organism, n: int)
    ensures InGrid(a.Pos(), n) && InGrid(b.Pos(), n) ==> InGrid(Midpoint(a, b), n)
  {
  }

  /** The tile a rescue uses is one of the stored tiles, and so on the grid. */
  lemma ShelterTileInGrid(t: Terrain, p: Pos)
    requires Terrains.Valid(t) && Some(p) == FirstShelter(t.tiles)
    ensures InGrid(p, t.gridSize)
  {
    var k :| 0 <= k < |t.tiles| && t.tiles[k] == (p, SHELTER) && forall m :: 0 <= m < k ==> t.tiles[m].1 != SHELTER;
    assert t.tiles[k].0 == p;
  }

  /** Every birth of `reproduce` on a roster on the grid is on the grid: producers by their own rule,
      same-tile offspring on a living organism's tile, pair offspring at the midpoint of two organisms,
      and rescues on a stored shelter tile. */
  lemma BirthsInGrid(roster: seq<Organism>, gridSize: int, fw: FoodWeb, t: Terrain, st: ReproState, step: int, dice: Dice)
    requires gridSize >= 1
    ensures t.gridSize == gridSize && Terrains.Valid(t) && AllInGrid(roster, gridSize) ==>
              forall b :: b in Reproduce(roster, gridSize, fw, t, st, step, dice).All() ==> InGrid(b.pos, gridSize)
  {
    var off := Reproduce(roster, gridSize, fw, t, st, step, dice);
    if t.gridSize == gridSize && Terrains.Valid(t) && AllInGrid(roster, gridSize) {
      forall b | b in off.All() ensures InGrid(b.pos, gridSize) {
        assert b in off.producers || b in off.bred || b in off.rescued;
        if b in off.bred {
          if FromGroup(roster, fw, b) {
            GroupBredWitness(roster, fw, Groups(roster, LivePositions(roster)), b);
            var g :| g in Groups(roster, LivePositions(roster)) && GroupReady(roster, fw, g.0, g.1) && b == GroupBirth(roster, g.0, g.1);
            GroupsOnTiles(roster, LivePositions(roster), g);
            LivePositionsLiving(roster, g.0);
            var o :| o in roster && o.alive && o.Pos() == g.0;
            var k :| 0 <= k < |roster| && roster[k] == o;
          } else {
            assert FromPair(roster, fw, t, b);
            var i, j :| 0 <= i < j < |roster| && PairReady(roster, fw, t, i, j) && b == PairBirth(roster, i, j);
            MidpointInGrid(roster[i], roster[j], gridSize);
          }
        } else if b in off.rescued {
          ShelterTileInGrid(t, b.pos);
        }
      }
    }
  }

  /** The shelter update keeps identities and energies and leaves everybody on the grid. */
  lemma ShelterKeepsInv(t: Terrain, roster: seq<Organism>, draws: (nat, nat) -> (nat, nat))
    requires t.gridSize >= 1
    ensures var r := UpdateShelters(t, roster, draws).1;
      && Evolved(roster, r)
      && (Capped(roster) ==> Capped(r))
      && (AllInGrid(roster, t.gridSize) ==> AllInGrid(r, t.gridSize))
  {
    var r := UpdateShelters(t, roster, draws).1;
    forall k | 0 <= k < |roster|
      ensures Kept(roster[k], r[k]) && r[k].energy == roster[k].energy
      ensures InGrid(roster[k].Pos(), t.gridSize) ==> InGrid(r[k].Pos(), t.gridSize)
    {
      assert ShelterOutcome(t, roster[k], r[k]);
    }
  }

  /** Appending newborns numbered from `nextId` keeps identities fresh and energies capped. */
  lemma NewbornsKeepInv(roster: seq<Organism>, bs: seq<Birth>, nextId: int, gridSize: int)
    ensures nextId >= 0 && IdsFresh(roster, nextId) ==> IdsFresh(roster + Newborns(bs, nextId), nextId + |bs|)
    ensures Capped(roster) ==> Capped(roster + Newborns(bs, nextId))
    ensures AllInGrid(roster, gridSize) && (forall b :: b in bs ==> InGrid(b.pos, gridSize)) ==>
              AllInGrid(roster + Newborns(bs, nextId), gridSize)
  {
    var born := Newborns(bs, nextId);
    var r := roster + born;
    forall k | |roster| <= k < |r| ensures r[k] == born[k - |roster|] && bs[k - |roster|] in bs {
    }
  }

  /** The roster without index `j`, element by element. */
  lemma RemoveAt(roster: seq<Organism>, j: nat)
    requires j < |roster|
    ensures var r := roster[..j] + roster[j + 1..];
      |r| == |roster| - 1 && forall a :: 0 <= a < |r| ==> r[a] == roster[if a < j then a else a + 1]
  {
  }

  /** Removing one organism keeps the remaining identities distinct. */
  lemma RemoveAtDistinct(roster: seq<Organism>, j: nat)
    requires j < |roster| && DistinctIds(roster)
    ensures DistinctIds(roster[..j] + roster[j + 1..])
  {
    RemoveAt(roster, j);
    var r := roster[..j] + roster[j + 1..];
    forall a, b | 0 <= a < b < |r| ensures r[a].id != r[b].id {
      var a' := if a < j then a else a + 1;
      var b' := if b < j then b else b + 1;
      assert r[a] == roster[a'] && r[b] == roster[b'] && a' < b';
    }
  }

  /** Removing a corpse keeps identities fresh, energies capped and everybody on the grid. */
  lemma RemoveKeepsInv(roster: seq<Organism>, nextId: int, gridSize: int)
    ensures IdsFresh(roster, nextId) ==> IdsFresh(RemoveFirstDead(roster), nextId)
    ensures Capped(roster) ==> Capped(RemoveFirstDead(roster))
    ensures AllInGrid(roster, gridSize) ==> AllInGrid(RemoveFirstDead(roster), gridSize)
  {
    match FirstDead(roster)
    case None =>
    case Some(j) =>
      RemoveAt(roster, j);
      if DistinctIds(roster) {
        RemoveAtDistinct(roster, j);
      }
  }

  // ---------------------------------------------------------------- the phases of one step

  /** The behaviour pass: one turn for every organism alive when the step starts, in roster order. */
  function Behave(w: World, step: nat, dice: StepDice): (r: World)
    ensures r == w.(roster := r.roster, terrain := r.terrain, heatmap := r.heatmap)
    ensures r.terrain == w.terrain.(waterCounters := r.terrain.waterCounters)
    ensures WaterCountersCapped(w.terrain) ==> WaterCountersCapped(r.terrain)
    ensures Evolved(w.roster, r.roster)
    ensures forall k :: 0 <= k < |w.roster| && !w.roster[k].alive ==> r.roster[k] == w.roster[k]
    ensures Capped(w.roster) ==> Capped(r.roster)
    ensures w.gridSize > FIXED_BOUND && AllInGrid(w.roster, w.gridSize) ==> AllInGrid(r.roster, w.gridSize)
  {
    PassFrom(w, LivingIndices(w.roster), step, dice)
  }

  /** `update_shelters` on the roster: only the shelter counters and the roster change; identities and
      energies stay, and nobody leaves the grid. */
  function ShelterPhase(w: World, dice: StepDice): (r: World)
    requires w.terrain.gridSize >= 1
    ensures r == w.(roster := r.roster, terrain := r.terrain)
    ensures r.terrain == w.terrain.(shelterCounters := r.terrain.shelterCounters)
    ensures Evolved(w.roster, r.roster)
    ensures Capped(w.roster) ==> Capped(r.roster)
    ensures AllInGrid(w.roster, w.terrain.gridSize) ==> AllInGrid(r.roster, w.terrain.gridSize)
  {
    ShelterKeepsInv(w.terrain, w.roster, dice.evictions);
    var res := UpdateShelters(w.terrain, w.roster, dice.evictions);
    w.(terrain := res.0, roster := res.1)
  }

  /** `organisms.extend(reproduce(...))`: the roster keeps its organisms and gains the newborns at its end,
      numbered from `nextId`, fresh from their constructors. */
  function BirthPhase(w: World, step: nat, dice: StepDice): (r: World)
    requires w.gridSize >= 1
    ensures r == w.(roster := r.roster, repro := r.repro, nextId := r.nextId)
    ensures r.nextId >= w.nextId && |r.roster| == |w.roster| + (r.nextId - w.nextId)
    ensures r.roster[..|w.roster|] == w.roster
    ensures forall k :: |w.roster| <= k < |r.roster| ==> r.roster[k].id == w.nextId + (k - |w.roster|) && Unborn(r.roster[k])
    ensures w.nextId >= 0 && IdsFresh(w.roster, w.nextId) ==> IdsFresh(r.roster, r.nextId)
    ensures Capped(w.roster) ==> Capped(r.roster)
    ensures w.terrain.gridSize == w.gridSize && Terrains.Valid(w.terrain) && AllInGrid(w.roster, w.gridSize) ==>
              AllInGrid(r.roster, w.gridSize)
  {
    var off := Reproduce(w.roster, w.gridSize, w.fw, w.terrain, w.repro, step, dice.repro);
    BirthsInGrid(w.roster, w.gridSize, w.fw, w.terrain, w.repro, step, dice.repro);
    NewbornsKeepInv(w.roster, off.All(), w.nextId, w.gridSize);
    w.(roster := w.roster + Newborns(off.All(), w.nextId), repro := off.st, nextId := w.nextId + |off.All()|)
  }

  /** The population history: one entry per food-web species, its living count. */
  function RecordPhase(w: World): (r: World)
    ensures r == w.(history := r.history)
    ensures FoodWebs.Valid(w.fw) ==>
              forall s :: s in AllSpecies(w.fw) ==> Hist(r.history, s) == Hist(w.history, s) + [LiveCount(w.roster, s)]
    ensures forall s :: s !in AllSpecies(w.fw) ==> Hist(r.history, s) == Hist(w.history, s)
  {
    w.(history := RecordPopulation(w.history, AllSpecies(w.fw), w.roster))
  }

  /** The global decomposition: on a due step the first corpse leaves the roster; no living organism is
      ever removed, and on any other step nothing is. */
  function DecomposePhase(w: World, step: nat): (r: World)
    requires step > 0 ==> w.interval != 0
    ensures r == w.(roster := r.roster)
    ensures !DecomposeDue(step, w.interval) ==> r.roster == w.roster
    ensures DecomposeDue(step, w.interval) ==> r.roster == RemoveFirstDead(w.roster)
    ensures Filter(r.roster, (o: Organism) => o.alive) == Filter(w.roster, (o: Organism) => o.alive)
    ensures forall s :: LiveCount(r.roster, s) == LiveCount(w.roster, s)
    ensures forall o :: o in r.roster ==> o in w.roster
    ensures |w.roster| - 1 <= |r.roster| <= |w.roster|
    ensures IdsFresh(w.roster, w.nextId) ==> IdsFresh(r.roster, w.nextId)
    ensures Capped(w.roster) ==> Capped(r.roster)
    ensures AllInGrid(w.roster, w.gridSize) ==> AllInGrid(r.roster, w.gridSize)
  {
    RemoveFirstDeadKeepsLiving(w.roster);
    RemoveKeepsInv(w.roster, w.nextId, w.gridSize);
    if DecomposeDue(step, w.interval) then w.(roster := RemoveFirstDead(w.roster)) else w
  }

  // ---------------------------------------------------------------- one step

  /** One step of `run`, its phases in the source's order. */
  function StepPhases(w: World, step: nat, dice: StepDice): World
    requires w.gridSize >= 1 && w.terrain.gridSize >= 1
    requires step > 0 ==> w.interval != 0
  {
    DecomposePhase(RecordPhase(BirthPhase(ShelterPhase(Behave(w, step, dice), dice), step, dice)), step)
  }

  /** One step of `run`. The grid, food web, tile types and interval never change; every species of the
      food web gains exactly one history entry, its living count in the new roster, and no other species
      gains any; newborns receive the identities from `nextId` on and have not acted: they are alive with
      their initial energy. The roster grows by the births and shrinks by at most the one corpse
      removed on a due step. */
  function Step(w: World, step: nat, dice: StepDice): (r: World)
    requires w.gridSize >= 1 && w.terrain.gridSize >= 1
    requires step > 0 ==> w.interval != 0
    ensures r.gridSize == w.gridSize && r.fw == w.fw && r.interval == w.interval
    ensures r.terrain.gridSize == w.terrain.gridSize && r.terrain.tiles == w.terrain.tiles
    ensures r.nextId >= w.nextId
    ensures FoodWebs.Valid(w.fw) ==>
              forall s :: s in AllSpecies(w.fw) ==> Hist(r.history, s) == Hist(w.history, s) + [LiveCount(r.roster, s)]
    ensures forall s :: s !in AllSpecies(w.fw) ==> Hist(r.history, s) == Hist(w.history, s)
    ensures IdsFresh(w.roster, w.nextId) ==>
              forall o :: o in r.roster && o.id >= w.nextId ==> o.id < r.nextId && Unborn(o)
    ensures !DecomposeDue(step, w.interval) ==> |r.roster| == |w.roster| + (r.nextId - w.nextId)
    ensures DecomposeDue(step, w.interval) ==> |r.roster| == |w.roster| + (r.nextId - w.nextId) - 1 || |r.roster| == |w.roster| + (r.nextId - w.nextId)
  {
    NewbornsUnborn(w, step, dice);
    StepPhases(w, step, dice)
  }

  /** Every organism of `roster` with an identity from `lo` on has one below `hi` and has not acted. */
  predicate NewOnesUnborn(roster: seq<Organism>, lo: int, hi: int) {
    forall o :: o in roster && o.id >= lo ==> o.id < hi && Unborn(o)
  }

  /** A roster extended by organisms numbered from `lo` on, which have not acted, has those as its only
      organisms numbered from `lo` on, when the old ones were all numbered below `lo`. */
  lemma AppendedNewOnes(before: seq<Organism>, after: seq<Organism>, lo: int)
    requires IdsFresh(before, lo)
    requires |before| <= |after| && after[..|before|] == before
    requires forall k :: |before| <= k < |after| ==> after[k].id == lo + (k - |before|) && Unborn(after[k])
    ensures NewOnesUnborn(after, lo, lo + (|after| - |before|))
  {
    forall k | 0 <= k < |before| ensures after[k].id < lo {
      assert after[k] == after[..|before|][k];
    }
    forall o | o in after && o.id >= lo ensures o.id < lo + (|after| - |before|) && Unborn(o) {
      var k :| 0 <= k < |after| && after[k] == o;
    }
  }

  /** The organisms with identities from `nextId` on at the end of a step are the newborns. */
  lemma NewbornsUnborn(w: World, step: nat, dice: StepDice)
    requires w.gridSize >= 1 && w.terrain.gridSize >= 1
    requires step > 0 ==> w.interval != 0
    ensures IdsFresh(w.roster, w.nextId) ==>
              var r := StepPhases(w, step, dice);
              forall o :: o in r.roster && o.id >= w.nextId ==> o.id < r.nextId && Unborn(o)
  {
    var w1 := Behave(w, step, dice);
    var w2 := ShelterPhase(w1, dice);
    var w3 := BirthPhase(w2, step, dice);
    var w4 := RecordPhase(w3);
    var w5 := DecomposePhase(w4, step);
    assert w5 == StepPhases(w, step, dice);
    if IdsFresh(w.roster, w.nextId) {
      EvolvedIds(w.roster, w1.roster, w.nextId);
      EvolvedIds(w1.roster, w2.roster, w.nextId);
      AppendedNewOnes(w2.roster, w3.roster, w.nextId);
      assert NewOnesUnborn(w4.roster, w.nextId, w4.nextId);
    }
  }

  /** Every step keeps the invariant. */
  lemma StepPreservesInv(w: World, step: nat, dice: StepDice)
    requires Inv(w) && (step > 0 ==> w.interval != 0)
    ensures Inv(Step(w, step, dice))
  {
    var w1 := Behave(w, step, dice);
    EvolvedIds(w.roster, w1.roster, w.nextId);
    var w2 := ShelterPhase(w1, dice);
    EvolvedIds(w1.roster, w2.roster, w.nextId);
    var w3 := BirthPhase(w2, step, dice);
  }

  // ---------------------------------------------------------------- setup and the run loop

  /** The engine after `setup`: the placed roster, fresh cooldown state, empty heatmaps and history, and the
      decomposition interval. On a valid terrain of the same size it satisfies the invariant. */
  function Init(gridSize: int, fw: FoodWeb, t: Terrain, tiles: seq<Pos>): (w: World)
    requires SetupTiles(gridSize, fw, t, tiles)
    ensures |w.roster| == |tiles| && w.nextId == |tiles|
    ensures forall s :: Hist(w.history, s) == []
    ensures gridSize >= 1 && t.gridSize == gridSize && Terrains.Valid(t) && WaterCountersCapped(t) ==> Inv(w)
  {
    World(gridSize, fw, t, Setup(gridSize, fw, t, tiles), INITIAL_STATE, map[], map[], DecompositionInterval(fw), |tiles|)
  }

  /** One step seen from the run loop: it keeps the invariant, the food web and the interval, and every
      food-web species' history gains one entry. */
  function GuardedStep(w: World, step: nat, dice: StepDice): (r: World)
    requires Inv(w) && (step > 0 ==> w.interval != 0)
    ensures Inv(r) && r.fw == w.fw && r.interval == w.interval
    ensures FoodWebs.Valid(w.fw) ==> forall s :: s in AllSpecies(w.fw) ==> |Hist(r.history, s)| == |Hist(w.history, s)| + 1
  {
    StepPreservesInv(w, step, dice);
    var r := Step(w, step, dice);
    assert FoodWebs.Valid(w.fw) ==> forall s :: s in AllSpecies(w.fw) ==> |Hist(r.history, s)| == |Hist(w.history, s)| + 1;
    r
  }

  /** Steps `step`, `step + 1`, … up to `steps - 1`. The invariant holds throughout, and every food-web
      species gains exactly one history entry per step. */
  function RunFrom(w: World, step: nat, steps: nat, dice: nat -> StepDice): (r: World)
    requires Inv(w) && (w.interval != 0 || steps <= 1) && step <= steps
    decreases steps - step
    ensures Inv(r) && r.fw == w.fw && r.interval == w.interval
    ensures FoodWebs.Valid(w.fw) ==>
              forall s :: s in AllSpecies(w.fw) ==> |Hist(r.history, s)| == |Hist(w.history, s)| + (steps - step)
  {
    if step == steps then w
    else
      RunFrom(GuardedStep(w, step, dice(step)), step + 1, steps, dice)
  }

  /** `run`: `steps` steps from step 0. */
  function Run(w: World, steps: nat, dice: nat -> StepDice): (r: World)
    requires Inv(w) && (w.interval != 0 || steps <= 1)
    ensures Inv(r)
    ensures FoodWebs.Valid(w.fw) ==> forall s :: s in AllSpecies(w.fw) ==> |Hist(r.history, s)| == |Hist(w.history, s)| + steps
  {
    RunFrom(w, 0, steps, dice)
  }
}

=== FILE: foodweb.dfy ===
/** The food web: species metadata and the predation relation, answered as read-only lookups with
    documented defaults for missing entries. The JSON loading that fills it is not modelled. */
module FoodWebs {
  import opened Wrappers
  import opened OrderedMap
  import opened Seqs

  /** The metadata of one species as parsed; every field may be absent. */
  datatype SpeciesInfo = SpeciesInfo(
    kind: Option<string>,
    trophicLevel: Option<string>,
    color: Option<string>,
    decompositionRate: Option<int>,
    initialCount: Option<int>)

  /** `organisms`: species name to metadata; `predation`: predator name to its ordered prey list. */
  datatype FoodWeb = FoodWeb(organisms: Dict<string, SpeciesInfo>, predation: Dict<string, seq<string>>)

  /** What a parsed JSON object guarantees: neither mapping repeats a key. */
  predicate Valid(fw: FoodWeb) {
    DistinctKeys(fw.organisms) && DistinctKeys(fw.predation)
  }

  const UNKNOWN_TYPE := "Unknown"
  const UNKNOWN_LEVEL := "unknown"
  const DEFAULT_COLOR := "#000000"
  const DEFAULT_DECOMPOSITION_RATE := 20

  /** `get_prey`: the prey list of `predator`, empty for a predator without an entry. */
  function GetPrey(fw: FoodWeb, predator: string): (prey: seq<string>)
    ensures !HasKey(fw.predation, predator) ==> prey == []
    ensures Valid(fw) ==> forall l :: (predator, l) in fw.predation ==> prey == l
  {
    Get(fw.predation, predator).GetOr([])
  }

  /** The predators of `species` among the entries of `web`, in entry order. */
  function PredatorsIn(web: Dict<string, seq<string>>, species: string): (preds: seq<string>)
    ensures forall p :: p in preds <==> exists i :: 0 <= i < |web| && web[i].0 == p && species in web[i].1
  {
    if |web| == 0 then []
    else
      var rest := PredatorsIn(web[1..], species);
      assert forall i :: 1 <= i < |web| ==> web[i] == web[1..][i - 1];
      (if species in web[0].1 then [web[0].0] else []) + rest
  }

  /** `get_predators`: every predator whose prey list names `species`. */
  function GetPredators(fw: FoodWeb, species: string): seq<string> {
    PredatorsIn(fw.predation, species)
  }

  /** The two queries are mirror images: `p` preys on `s` exactly when `s` is among `p`'s prey. */
  lemma PredatorsMirrorPrey(fw: FoodWeb, species: string, p: string)
    requires Valid(fw)
    ensures p in GetPredators(fw, species) <==> species in GetPrey(fw, p)
  {
    if p in GetPredators(fw, species) {
      var i :| 0 <= i < |fw.predation| && fw.predation[i].0 == p && species in fw.predation[i].1;
      assert (p, fw.predation[i].1) in fw.predation;
    }
    if species in GetPrey(fw, p) {
      var r := Get(fw.predation, p);
      var i :| 0 <= i < |fw.predation| && fw.predation[i] == (p, r.value);
      assert fw.predation[i].0 == p && species in fw.predation[i].1;
    }
  }

  /** `is_prey(predator, prey)`. */
  predicate IsPrey(fw: FoodWeb, predator: string, prey: string) {
    prey in GetPrey(fw, predator)
  }

  /** `is_predator(prey, predator)`: defined in the source by delegating to `is_prey`. */
  predicate IsPredator(fw: FoodWeb, prey: string, predator: string) {
    IsPrey(fw, predator, prey)
  }

  lemma IsPredatorMirrorsIsPrey(fw: FoodWeb, a: string, b: string)
    ensures IsPredator(fw, a, b) <==> IsPrey(fw, b, a)
  {
  }

  /** `all_species`: the keys of the organisms mapping, in their order; a name is listed exactly when
      a metadata lookup for it succeeds. */
  function AllSpecies(fw: FoodWeb): (names: seq<string>)
    ensures |names| == |fw.organisms|
    ensures forall s :: s in names <==> Get(fw.organisms, s).Some?
    ensures Valid(fw) ==> NoDup(names)
  {
    var names := Keys(fw.organisms);
    assert forall s :: s in names <==> HasKey(fw.organisms, s) by {
      forall s ensures s in names <==> HasKey(fw.organisms, s) {
        if HasKey(fw.organisms, s) {
          var i :| 0 <= i < |fw.organisms| && fw.organisms[i].0 == s;
          assert names[i] == s;
        }
      }
    }
    names
  }

  function Info(fw: FoodWeb, species: string): Option<SpeciesInfo> {
    Get(fw.organisms, species)
  }

  /** `get_type`: the declared type, or "Unknown" for an unknown species or a missing field. */
  function GetType(fw: FoodWeb, species: string): (t: string)
    ensures species !in AllSpecies(fw) ==> t == UNKNOWN_TYPE
    ensures species in AllSpecies(fw) && Info(fw, species).value.kind.Some? ==> t == Info(fw, species).value.kind.value
    ensures species in AllSpecies(fw) && Info(fw, species).value.kind.None? ==> t == UNKNOWN_TYPE
  {
    match Info(fw, species)
    case None => UNKNOWN_TYPE
    case Some(info) => info.kind.GetOr(UNKNOWN_TYPE)
  }

  /** `get_trophic_level`: the declared level, or "unknown". */
  function GetTrophicLevel(fw: FoodWeb, species: string): (level: string)
    ensures species !in AllSpecies(fw) ==> level == UNKNOWN_LEVEL
    ensures species in AllSpecies(fw) && Info(fw, species).value.trophicLevel.Some? ==> level == Info(fw, species).value.trophicLevel.value
    ensures species in AllSpecies(fw) && Info(fw, species).value.trophicLevel.None? ==> level == UNKNOWN_LEVEL
  {
    match Info(fw, species)
    case None => UNKNOWN_LEVEL
    case Some(info) => info.trophicLevel.GetOr(UNKNOWN_LEVEL)
  }

  /** `get_color`: the declared colour, or black. */
  function GetColor(fw: FoodWeb, species: string): (color: string)
    ensures species !in AllSpecies(fw) ==> color == DEFAULT_COLOR
    ensures species in AllSpecies(fw) && Info(fw, species).value.color.Some? ==> color == Info(fw, species).value.color.value
    ensures species in AllSpecies(fw) && Info(fw, species).value.color.None? ==> color == DEFAULT_COLOR
  {
    match Info(fw, species)
    case None => DEFAULT_COLOR
    case Some(info) => info.color.GetOr(DEFAULT_COLOR)
  }

  /** `get_decomposition_rate`: the declared rate, or 20. */
  function GetDecompositionRate(fw: FoodWeb, species: string): (rate: int)
    ensures species !in AllSpecies(fw) ==> rate == DEFAULT_DECOMPOSITION_RATE
    ensures species in AllSpecies(fw) && Info(fw, species).value.decompositionRate.Some? ==> rate == Info(fw, species).value.decompositionRate.value
    ensures species in AllSpecies(fw) && Info(fw, species).value.decompositionRate.None? ==> rate == DEFAULT_DECOMPOSITION_RATE
  {
    match Info(fw, species)
    case None => DEFAULT_DECOMPOSITION_RATE
    case Some(info) => info.decompositionRate.GetOr(DEFAULT_DECOMPOSITION_RATE)
  }
}

=== FILE: grid.dfy ===
/** Integer grid geometry and the random-draw convention shared by every component. */
module Grid {

  /** A tile `(x, y)`. */
  type Pos = (int, int)

  function Min(a: int, b: int): int { if a <= b then a else b }

  function Max(a: int, b: int): int { if a >= b then a else b }

  function Abs(n: int): nat { if n < 0 then -n else n }

  /** `max(0, min(v, hi))`, the clamp applied to every move. */
  function Clamp(v: int, hi: int): (r: int)
    ensures 0 <= hi ==> 0 <= r <= hi
    ensures 0 <= v <= hi ==> r == v
  {
    Max(0, Min(v, hi))
  }

  /** Clamping never moves a value further from a point `x` inside the range: a move of `d` from an
      in-range start changes the coordinate by at most `|d|`. */
  lemma ClampNoFarther(x: int, d: int, hi: int)
    ensures 0 <= x <= hi ==> Abs(Clamp(x + d, hi) - x) <= Abs(d)
  {
  }

  /** The sign of `n`: `copysign(1, n)` for non-zero `n`, and 0 for 0. */
  function Sign(n: int): (r: int)
    ensures -1 <= r <= 1
    ensures r == 0 <==> n == 0
    ensures r * n == Abs(n)
  {
    if n > 0 then 1 else if n < 0 then -1 else 0
  }

  predicate InGrid(p: Pos, size: int) {
    0 <= p.0 < size && 0 <= p.1 < size
  }

  /** Manhattan distance between two tiles. */
  function Manhattan(a: Pos, b: Pos): (d: nat)
    ensures d == 0 <==> a == b
  {
    Abs(a.0 - b.0) + Abs(a.1 - b.1)
  }

  lemma ManhattanSymmetric(a: Pos, b: Pos)
    ensures Manhattan(a, b) == Manhattan(b, a)
  {
  }

  /** `random.randint(lo, hi)` driven by an arbitrary raw draw `r`: every draw gives a value of the range. */
  function RandInt(lo: int, hi: int, r: nat): (v: int)
    requires lo <= hi
    ensures lo <= v <= hi
  {
    lo + r % (hi - lo + 1)
  }

  /** Conversely every value of the range is the outcome of some draw, so a property proved for all draws
      holds for every outcome `randint` can produce. */
  lemma RandIntCovers(lo: int, hi: int, v: int)
    requires lo <= v <= hi
    ensures exists r: nat :: RandInt(lo, hi, r) == v
  {
    assert RandInt(lo, hi, v - lo) == v;
  }
}

=== FILE: ordered_map.dfy ===
/** An insertion-ordered dictionary, as Python's `dict` is: a list of entries with distinct keys.
    Overwriting a key keeps its position, a new key goes at the end, and iteration follows the list. */
module OrderedMap {
  import opened Wrappers

  type Dict<K, V> = seq<(K, V)>

  predicate HasKey<K(==), V>(d: Dict<K, V>, k: K) {
    exists i :: 0 <= i < |d| && d[i].0 == k
  }

  predicate DistinctKeys<K(==), V>(d: Dict<K, V>) {
    forall i, j :: 0 <= i < j < |d| ==> d[i].0 != d[j].0
  }

  /** The keys in iteration order (`list(d.keys())`). */
  function Keys<K, V>(d: Dict<K, V>): (ks: seq<K>)
    ensures |ks| == |d|
    ensures forall i :: 0 <= i < |d| ==> ks[i] == d[i].0
  {
    seq(|d|, i requires 0 <= i < |d| => d[i].0)
  }

  /** `d.get(k)`: the value stored under `k`, if any. */
  function Get<K(==), V(!new)>(d: Dict<K, V>, k: K): (r: Option<V>)
    ensures r.Some? <==> HasKey(d, k)
    ensures r.Some? ==> (k, r.value) in d
    ensures DistinctKeys(d) ==> forall v :: (k, v) in d ==> r == Some(v)
  {
    if |d| == 0 then None
    else if d[0].0 == k then Some(d[0].1)
    else
      var r := Get(d[1..], k);
      assert r.Some? ==> d[1..][0] == d[1];
      assert forall e :: e in d && e != d[0] ==> e in d[1..];
      r
  }

  /** `d[k] = v`: only the entry for `k` changes, an existing key keeps its place and a new one is
      appended, and the keys stay distinct. */
  function Put<K(==,!new), V(!new)>(d: Dict<K, V>, k: K, v: V): (r: Dict<K, V>)
    ensures Get(r, k) == Some(v)
    ensures forall k' :: k' != k ==> Get(r, k') == Get(d, k')
    ensures HasKey(d, k) ==> |r| == |d|
    ensures !HasKey(d, k) ==> r == d + [(k, v)]
    ensures forall i :: 0 <= i < |d| ==> r[i].0 == d[i].0
    ensures DistinctKeys(d) ==> DistinctKeys(r)
  {
    var r := Assign(d, k, v);
    AssignGet(d, k, v);
    forall k' | k' != k ensures Get(r, k') == Get(d, k') {
      AssignOther(d, k, v, k');
    }
    AssignShape(d, k, v);
    r
  }

  /** The entry-by-entry assignment behind `Put`. */
  function Assign<K(==), V>(d: Dict<K, V>, k: K, v: V): Dict<K, V> {
    if |d| == 0 then [(k, v)]
    else if d[0].0 == k then [(k, v)] + d[1..]
    else [d[0]] + Assign(d[1..], k, v)
  }

  lemma HasKeyCons<K, V>(d: Dict<K, V>, k: K)
    requires |d| > 0
    ensures HasKey(d, k) <==> d[0].0 == k || HasKey(d[1..], k)
  {
    if HasKey(d[1..], k) {
      var i :| 0 <= i < |d[1..]| && d[1..][i].0 == k;
      assert d[i + 1].0 == k;
    }
    if HasKey(d, k) && d[0].0 != k {
      var i :| 0 <= i < |d| && d[i].0 == k;
      assert d[1..][i - 1].0 == k;
    }
  }

  lemma {:induction false} AssignGet<K, V(!new)>(d: Dict<K, V>, k: K, v: V)
    ensures Get(Assign(d, k, v), k) == Some(v)
  {
    if |d| > 0 && d[0].0 != k {
      var r := Assign(d, k, v);
      assert r[0] == d[0] && r[1..] == Assign(d[1..], k, v);
      AssignGet(d[1..], k, v);
    }
  }

  lemma {:induction false} AssignOther<K, V(!new)>(d: Dict<K, V>, k: K, v: V, k': K)
    requires k' != k
    ensures Get(Assign(d, k, v), k') == Get(d, k')
  {
    var r := Assign(d, k, v);
    if |d| == 0 {
      assert r[1..] == [];
    } else if d[0].0 == k {
      assert r[1..] == d[1..];
    } else {
      assert r[0] == d[0] && r[1..] == Assign(d[1..], k, v);
      AssignOther(d[1..], k, v, k');
    }
  }

  lemma {:induction false} AssignShape<K, V>(d: Dict<K, V>, k: K, v: V)
    ensures var r := Assign(d, k, v);
      && (HasKey(d, k) ==> |r| == |d|)
      && (!HasKey(d, k) ==> r == d + [(k, v)])
      && (forall i :: 0 <= i < |d| ==> r[i].0 == d[i].0)
      && (DistinctKeys(d) ==> DistinctKeys(r))
  {
    var r := Assign(d, k, v);
    if |d| > 0 {
      HasKeyCons(d, k);
      if d[0].0 != k {
        AssignShape(d[1..], k, v);
        var rest := Assign(d[1..], k, v);
        assert r == [d[0]] + rest;
        if !HasKey(d, k) {
          assert d == [d[0]] + d[1..];
        }
      }
    }
    if DistinctKeys(d) && !HasKey(d, k) {
      forall i, j | 0 <= i < j < |r| ensures r[i].0 != r[j].0 {
        if j == |d| {
          assert r[i].0 == d[i].0;
        }
      }
    }
  }
}

=== FILE: organism.dfy ===
/** Organisms: the Producer / Consumer variants, their constructors and their own step rules. */
module Organisms {
  import opened Grid

  /** The class of an organism: a stationary, edible Producer, or a mobile Consumer with a trophic level
      and a speed. */
  datatype Kind = Producer | Consumer(trophicLevel: string, speed: nat)

  /** One organism. `id` is the stable identity the source takes from the object's address. */
  datatype Organism = Organism(
    id: int,
    species: string,
    x: int,
    y: int,
    energy: int,
    maxEnergy: int,
    alive: bool,
    kind: Kind)
  {
    function Pos(): Pos {
      (x, y)
    }

    /** `getattr(org, "trophic_level", None) == "primary"`: false for every Producer. */
    predicate IsPrimary() {
      kind.Consumer? && kind.trophicLevel == PRIMARY
    }
  }

  const PRIMARY := "primary"
  const INITIAL_ENERGY := 100
  const MAX_ENERGY := 120
  const DEFAULT_SPEED := 1

  /** `Producer(species, x, y)`. */
  function NewProducer(id: int, species: string, x: int, y: int): (o: Organism)
    ensures o.alive && o.energy == INITIAL_ENERGY && o.maxEnergy == MAX_ENERGY && o.kind.Producer?
    ensures o.id == id && o.species == species && o.Pos() == (x, y)
  {
    Organism(id, species, x, y, INITIAL_ENERGY, MAX_ENERGY, true, Producer)
  }

  /** `Consumer(species, x, y, trophic_level=level)`, with the default speed. */
  function NewConsumer(id: int, species: string, x: int, y: int, level: string): (o: Organism)
    ensures o.alive && o.energy == INITIAL_ENERGY && o.maxEnergy == MAX_ENERGY
    ensures o.kind == Consumer(level, DEFAULT_SPEED)
    ensures o.id == id && o.species == species && o.Pos() == (x, y)
  {
    Organism(id, species, x, y, INITIAL_ENERGY, MAX_ENERGY, true, Consumer(level, DEFAULT_SPEED))
  }

  /** The energy bound every energy gain in the source keeps with `min(max_energy, ...)`. */
  predicate EnergyCapped(o: Organism) {
    o.energy <= o.maxEnergy
  }

  /** `Organism.step`, the base rule: a dead organism is left alone; a living one loses exactly one unit
      of energy and dies when that leaves it at or below zero. Nothing else changes. */
  function DecayStep(o: Organism): (r: Organism)
    ensures !o.alive ==> r == o
    ensures o.alive ==> r.energy == o.energy - 1 && (r.alive <==> r.energy > 0)
    ensures r.(energy := o.energy, alive := o.alive) == o
  {
    if !o.alive then o
    else
      var e := o.energy - 1;
      o.(energy := e, alive := e > 0)
  }

  /** `Producer.step`: producers do nothing on their own step. */
  function ProducerStep(o: Organism): Organism {
    o
  }

  /** `Consumer.move`: one random step of at most `speed` per axis, clamped to the grid. Only the position
      changes. */
  function ConsumerMove(o: Organism, gridSize: int, draw: (nat, nat)): (r: Organism)
    requires o.kind.Consumer?
    ensures gridSize >= 1 ==> InGrid(r.Pos(), gridSize)
    ensures InGrid(o.Pos(), gridSize) ==> Abs(r.x - o.x) <= o.kind.speed && Abs(r.y - o.y) <= o.kind.speed
    ensures r == o.(x := r.x, y := r.y)
  {
    var s: int := o.kind.speed;
    var dx := RandInt(-s, s, draw.0);
    var dy := RandInt(-s, s, draw.1);
    ClampNoFarther(o.x, dx, gridSize - 1);
    ClampNoFarther(o.y, dy, gridSize - 1);
    o.(x := Clamp(o.x + dx, gridSize - 1), y := Clamp(o.y + dy, gridSize - 1))
  }

  /** The number of living organisms of `species`: the source's `Counter` of living species. */
  function LiveCount(roster: seq<Organism>, species: string): nat
  {
    if |roster| == 0 then 0
    else (if roster[0].alive && roster[0].species == species then 1 else 0) + LiveCount(roster[1..], species)
  }

  lemma {:induction false} LiveCountAppend(a: seq<Organism>, b: seq<Organism>, species: string)
    ensures LiveCount(a + b, species) == LiveCount(a, species) + LiveCount(b, species)
  {
    if |a| > 0 {
      assert (a + b)[1..] == a[1..] + b;
      LiveCountAppend(a[1..], b, species);
    } else {
      assert a + b == b;
    }
  }

  /** Distinct organisms have distinct identities. */
  predicate DistinctIds(roster: seq<Organism>) {
    forall i, j :: 0 <= i < j < |roster| ==> roster[i].id != roster[j].id
  }

  /** No organism dead in `before` is alive in `after`: the source only ever sets `alive` to False. */
  predicate NoResurrection(before: seq<Organism>, after: seq<Organism>)
    requires |before| == |after|
  {
    forall i :: 0 <= i < |before| && !before[i].alive ==> !after[i].alive
  }
}

=== FILE: reproduction.dfy ===
/** Reproduction: the four phases of `reproduce` (producer respawn or cloning, same-tile breeding,
    distance-2 pair breeding, last-primary rescue). The source keeps its cooldown maps as attributes of
    the function object; here they are an explicit `ReproState` passed in and returned. The roster is
    only read: the result is the list of births and the new state. */
module Reproduction {
  import opened Wrappers
  import opened Grid
  import opened OrderedMap
  import opened Seqs
  import opened FoodWebs
  import opened Organisms
  import opened Terrains

  const RESPAWN_PERIOD := 30
  const RESPAWN_TRIES := 3
  const PAIR_DISTANCE := 2
  const PAIR_ENERGY := 40
  const RESCUE_COOLDOWN := 2
  /** The step a missing cooldown entry stands for. */
  const NEVER := -999

  /** `REPRO_COOLDOWN_BY_LEVEL.get(level, 5)`. */
  function Cooldown(level: string): (c: nat)
    ensures c >= 2
  {
    if level == "primary" then 2
    else if level == "secondary" then 6
    else if level == "tertiary" then 8
    else if level == "omnivore" then 5
    else if level == "unknown" then 5
    else 5
  }

  /** `REPRO_ENERGY_THRESHOLD_BY_LEVEL.get(level, 70)`. */
  function Threshold(level: string): int {
    if level == "primary" then 60
    else if level == "secondary" then 80
    else if level == "tertiary" then 90
    else if level == "omnivore" then 70
    else if level == "unknown" then 80
    else 70
  }

  /** `REPRO_RATIOS.get(species, 1)`: prey individuals needed per individual. */
  function Ratio(species: string): (r: nat)
    ensures 1 <= r <= 2
  {
    if species == "Rabbit" then 2 else if species == "Fox" then 1 else 1
  }

  /** The trophic level of a consumer; anything else reads as unknown. */
  function Level(o: Organism): string {
    if o.kind.Consumer? then o.kind.trophicLevel else UNKNOWN_LEVEL
  }

  /** The two cooldown maps: per (species, tile) the step of the last birth, per species the step of
      the last rescue. */
  datatype ReproState = ReproState(lastRepro: map<(string, Pos), int>, lastRescue: map<string, int>)

  const INITIAL_STATE := ReproState(map[], map[])

  function LastRepro(st: ReproState, species: string, p: Pos): int {
    if (species, p) in st.lastRepro then st.lastRepro[(species, p)] else NEVER
  }

  function LastRescue(st: ReproState, species: string): int {
    if species in st.lastRescue then st.lastRescue[species] else NEVER
  }

  /** A newborn before it receives an identity. */
  datatype Birth = Birth(species: string, pos: Pos, kind: Kind)

  function ProducerBirth(species: string, p: Pos): Birth {
    Birth(species, p, Producer)
  }

  function ConsumerBirth(species: string, p: Pos, level: string): Birth {
    Birth(species, p, Consumer(level, DEFAULT_SPEED))
  }

  /** The organism a birth becomes under identity `id`: the source's constructors. */
  function Born(b: Birth, id: int): (o: Organism)
    ensures b.kind.Producer? ==> o == NewProducer(id, b.species, b.pos.0, b.pos.1)
    ensures b.kind.Consumer? && b.kind.speed == DEFAULT_SPEED ==> o == NewConsumer(id, b.species, b.pos.0, b.pos.1, b.kind.trophicLevel)
  {
    Organism(id, b.species, b.pos.0, b.pos.1, INITIAL_ENERGY, MAX_ENERGY, true, b.kind)
  }

  function Key(b: Birth): (string, Pos) {
    (b.species, b.pos)
  }

  /** A living organism stands on `p`. */
  predicate Occupied(roster: seq<Organism>, p: Pos) {
    exists k :: 0 <= k < |roster| && roster[k].alive && roster[k].Pos() == p
  }

  // ---------------------------------------------------------------- food

  /** The living individuals of the listed species, a species listed twice counting twice. */
  function LiveTotal(roster: seq<Organism>, species: seq<string>): nat {
    if |species| == 0 then 0 else LiveCount(roster, species[0]) + LiveTotal(roster, species[1..])
  }

  /** `food_sources.get(species, 0)`: the living prey of a species that has living members, else 0. */
  function Food(roster: seq<Organism>, fw: FoodWeb, species: string): (f: nat)
    ensures LiveCount(roster, species) == 0 ==> f == 0
  {
    if LiveCount(roster, species) > 0 then LiveTotal(roster, GetPrey(fw, species)) else 0
  }

  /** `prey_available / required_ratio >= current`, in integers. */
  predicate FoodSuffices(roster: seq<Organism>, fw: FoodWeb, species: string) {
    Food(roster, fw, species) >= LiveCount(roster, species) * Ratio(species)
  }

  // ---------------------------------------------------------------- producer respawn

  /** The species of the producers, dead or alive, in roster order: every producer's species is listed,
      and nothing else is. */
  function ProducerNames(roster: seq<Organism>): (names: seq<string>)
    ensures forall s :: s in names ==> exists k :: 0 <= k < |roster| && roster[k].kind.Producer? && roster[k].species == s
    ensures forall k :: 0 <= k < |roster| && roster[k].kind.Producer? ==> roster[k].species in names
  {
    if |roster| == 0 then []
    else
      var rest := ProducerNames(roster[1..]);
      assert forall k :: 1 <= k < |roster| ==> roster[k] == roster[1..][k - 1];
      (if roster[0].kind.Producer? then [roster[0].species] else []) + rest
  }

  /** The producer species the reseeding loop visits, each once: the source's `set(...)`. */
  function ReseedNames(roster: seq<Organism>): (names: seq<string>)
    ensures NoDup(names)
    ensures forall s :: s in names <==> exists k :: 0 <= k < |roster| && roster[k].kind.Producer? && roster[k].species == s
  {
    Dedup(ProducerNames(roster))
  }

  predicate LiveProducer(o: Organism) {
    o.kind.Producer? && o.alive
  }

  predicate AnyLiveProducer(roster: seq<Organism>) {
    exists k :: 0 <= k < |roster| && LiveProducer(roster[k])
  }

  /** The number of births of `species`. */
  function CountOf(bs: seq<Birth>, species: string): nat {
    if |bs| == 0 then 0 else (if bs[0].species == species then 1 else 0) + CountOf(bs[1..], species)
  }

  lemma {:induction false} CountOfAppend(a: seq<Birth>, b: seq<Birth>, species: string)
    ensures CountOf(a + b, species) == CountOf(a, species) + CountOf(b, species)
  {
    if |a| > 0 {
      assert (a + b)[1..] == a[1..] + b;
      CountOfAppend(a[1..], b, species);
    } else {
      assert a + b == b;
    }
  }

  /** A tile a reseeded producer may take: no living organism and no tree. */
  predicate ReseedSpot(roster: seq<Organism>, t: Terrain, p: Pos) {
    !Occupied(roster, p) && !IsBlocked(t, p.0, p.1)
  }

  /** The tile of try `k` for the `si`-th producer species: two `randint(0, grid_size - 1)` draws. */
  function ReseedTile(gridSize: int, draws: (nat, nat) -> (nat, nat), si: nat, k: nat): (p: Pos)
    requires gridSize >= 1
    ensures InGrid(p, gridSize)
  {
    (RandInt(0, gridSize - 1, draws(si, k).0), RandInt(0, gridSize - 1, draws(si, k).1))
  }

  /** The tries `k..2` of reseeding one producer species, the `si`-th: every try whose tile is free and
      tree-less gives a producer there, and no other birth happens. */
  function ReseedTries(roster: seq<Organism>, gridSize: int, t: Terrain, species: string, si: nat,
                       draws: (nat, nat) -> (nat, nat), k: nat): (bs: seq<Birth>)
    requires gridSize >= 1 && k <= RESPAWN_TRIES
    decreases RESPAWN_TRIES - k
    ensures |bs| <= RESPAWN_TRIES - k
    ensures forall b :: b in bs ==> b == ProducerBirth(species, b.pos) && InGrid(b.pos, gridSize) && ReseedSpot(roster, t, b.pos)
    ensures CountOf(bs, species) == |bs|
    ensures forall s :: s != species ==> CountOf(bs, s) == 0
    ensures forall m :: k <= m < RESPAWN_TRIES && ReseedSpot(roster, t, ReseedTile(gridSize, draws, si, m)) ==>
              ProducerBirth(species, ReseedTile(gridSize, draws, si, m)) in bs
  {
    if k == RESPAWN_TRIES then []
    else
      var p := ReseedTile(gridSize, draws, si, k);
      var rest := ReseedTries(roster, gridSize, t, species, si, draws, k + 1);
      if !ReseedSpot(roster, t, p) then rest
      else
        var b := [ProducerBirth(species, p)];
        CountOfAppend(b, rest, species);
        assert forall s :: CountOf(b + rest, s) == CountOf(b, s) + CountOf(rest, s) by {
          forall s { CountOfAppend(b, rest, s); }
        }
        b + rest
  }

  /** Reseeding the producer species `names[a..]`; the `n`-th species draws its tiles with index `n`.
      Every try of every listed species that lands on a free, tree-less tile gives a producer there. */
  function Reseed(roster: seq<Organism>, gridSize: int, t: Terrain, names: seq<string>,
                  draws: (nat, nat) -> (nat, nat), a: nat): (bs: seq<Birth>)
    requires gridSize >= 1 && a <= |names|
    decreases |names| - a
    ensures forall b :: b in bs ==> b.kind.Producer? && b.species in names[a..] && InGrid(b.pos, gridSize) && ReseedSpot(roster, t, b.pos)
    ensures forall n, m :: a <= n < |names| && 0 <= m < RESPAWN_TRIES && ReseedSpot(roster, t, ReseedTile(gridSize, draws, n, m)) ==>
              ProducerBirth(names[n], ReseedTile(gridSize, draws, n, m)) in bs
  {
    if a == |names| then []
    else
      var now := ReseedTries(roster, gridSize, t, names[a], a, draws, 0);
      var rest := Reseed(roster, gridSize, t, names, draws, a + 1);
      assert forall x :: x in names[a + 1..] ==> x in names[a..];
      now + rest
  }

  /** Reseeding a list of distinct species spawns at most 3 of each. */
  lemma {:induction false} ReseedAtMostThree(roster: seq<Organism>, gridSize: int, t: Terrain, names: seq<string>,
                                             draws: (nat, nat) -> (nat, nat), a: nat, s: string)
    requires gridSize >= 1 && a <= |names| && NoDup(names)
    decreases |names| - a
    ensures CountOf(Reseed(roster, gridSize, t, names, draws, a), s) <= RESPAWN_TRIES
  {
    if a < |names| {
      var now := ReseedTries(roster, gridSize, t, names[a], a, draws, 0);
      var rest := Reseed(roster, gridSize, t, names, draws, a + 1);
      assert Reseed(roster, gridSize, t, names, draws, a) == now + rest;
      if s != names[a] {
        ReseedAtMostThree(roster, gridSize, t, names, draws, a + 1, s);
      }
      ReseedCountStep(names, a, now, rest, s);
    }
  }

  /** The counting step of `ReseedAtMostThree`: the tries of `names[a]` give at most 3 of that species and
      none of any other, and the later species are all different from it. */
  lemma ReseedCountStep(names: seq<string>, a: nat, now: seq<Birth>, rest: seq<Birth>, s: string)
    requires a < |names| && NoDup(names)
    requires |now| <= RESPAWN_TRIES && CountOf(now, names[a]) == |now| && forall s' :: s' != names[a] ==> CountOf(now, s') == 0
    requires forall b :: b in rest ==> b.species in names[a + 1..]
    requires s != names[a] ==> CountOf(rest, s) <= RESPAWN_TRIES
    ensures CountOf(now + rest, s) <= RESPAWN_TRIES
  {
    CountOfAppend(now, rest, s);
    if s == names[a] {
      forall b | b in rest ensures b.species != s {
        var n :| 0 <= n < |names[a + 1..]| && names[a + 1..][n] == b.species;
        assert names[a + 1 + n] == b.species;
      }
      CountOfAbsent(rest, s);
    }
  }

  lemma {:induction false} CountOfAbsent(bs: seq<Birth>, s: string)
    requires forall b :: b in bs ==> b.species != s
    ensures CountOf(bs, s) == 0
  {
    if |bs| > 0 {
      assert bs[0] in bs;
      assert forall b :: b in bs[1..] ==> b in bs;
      CountOfAbsent(bs[1..], s);
    }
  }

  /** The cardinal directions `random.choice` picks from, in the source's order. */
  const CLONE_DIRECTIONS: seq<(int, int)> := [(1, 0), (-1, 0), (0, 1), (0, -1)]

  /** A tile a clone may take: no living organism, and neither tree, water nor shelter. */
  predicate CloneSpot(roster: seq<Organism>, t: Terrain, p: Pos) {
    !Occupied(roster, p) && !IsBlocked(t, p.0, p.1) && !IsWater(t, p.0, p.1) && !IsShelter(t, p.0, p.1)
  }

  /** The tile a producer at `o` clones onto when `random.choice` draws `c`: a cardinal neighbour,
      clamped to the grid. */
  function CloneTile(o: Organism, gridSize: int, c: nat): (p: Pos)
    ensures gridSize >= 1 ==> InGrid(p, gridSize)
    ensures InGrid(o.Pos(), gridSize) ==> Manhattan(p, o.Pos()) <= 1
  {
    var d := CLONE_DIRECTIONS[c % 4];
    ClampNoFarther(o.x, d.0, gridSize - 1);
    ClampNoFarther(o.y, d.1, gridSize - 1);
    (Min(gridSize - 1, Max(0, o.x + d.0)), Min(gridSize - 1, Max(0, o.y + d.1)))
  }

  /** The number of living producers from index `k` on. */
  function LiveProducerCount(roster: seq<Organism>, k: nat): nat
    requires k <= |roster|
    decreases |roster| - k
  {
    if k == |roster| then 0 else (if LiveProducer(roster[k]) then 1 else 0) + LiveProducerCount(roster, k + 1)
  }

  /** Cloning the living producers from index `k` on; the `k`-th draws its direction with `choice(k)`.
      Every living producer whose drawn tile is a clone spot clones there. */
  function CloneFrom(roster: seq<Organism>, gridSize: int, t: Terrain, choice: nat -> nat, k: nat): (bs: seq<Birth>)
    requires k <= |roster|
    decreases |roster| - k
    ensures |bs| <= LiveProducerCount(roster, k)
    ensures forall b :: b in bs ==> b.kind.Producer? && CloneSpot(roster, t, b.pos) && (gridSize >= 1 ==> InGrid(b.pos, gridSize))
    ensures forall b :: b in bs ==>
              exists j :: k <= j < |roster| && LiveProducer(roster[j]) && b.species == roster[j].species
                && (InGrid(roster[j].Pos(), gridSize) ==> Manhattan(b.pos, roster[j].Pos()) <= 1)
    ensures forall j :: k <= j < |roster| && LiveProducer(roster[j]) && CloneSpot(roster, t, CloneTile(roster[j], gridSize, choice(j))) ==>
              ProducerBirth(roster[j].species, CloneTile(roster[j], gridSize, choice(j))) in bs
  {
    if k == |roster| then []
    else
      var rest := CloneFrom(roster, gridSize, t, choice, k + 1);
      var o := roster[k];
      if !LiveProducer(o) then rest
      else
        var p := CloneTile(o, gridSize, choice(k));
        if !CloneSpot(roster, t, p) then rest
        else [ProducerBirth(o.species, p)] + rest
  }

  /** The random draws of one `reproduce` call: a tile per (producer species, try) for reseeding, a
      direction per roster index for cloning, and per consumer pair whether the 30% chance of skipping
      a short-of-food pair strikes. */
  datatype Dice = Dice(reseed: (nat, nat) -> (nat, nat), clone: nat -> nat, skipShort: (nat, nat) -> bool)

  /** The births the producer phase owes on a multiple of 30 are all in `bs`. With no living producer,
      that is a reseed on each free, tree-less drawn tile of each producer species. Otherwise it is a
      clone on the drawn neighbour of each living producer, when that neighbour is free and neither
      tree, water nor shelter. */
  predicate ProducersComplete(roster: seq<Organism>, gridSize: int, t: Terrain, step: int, dice: Dice, bs: seq<Birth>)
    requires gridSize >= 1
  {
    && (step % RESPAWN_PERIOD == 0 && !AnyLiveProducer(roster) ==>
          forall n, m ::
            0 <= n < |ReseedNames(roster)| && 0 <= m < RESPAWN_TRIES && ReseedSpot(roster, t, ReseedTile(gridSize, dice.reseed, n, m)) ==>
            ProducerBirth(ReseedNames(roster)[n], ReseedTile(gridSize, dice.reseed, n, m)) in bs)
    && (step % RESPAWN_PERIOD == 0 && AnyLiveProducer(roster) ==>
          forall j :: 0 <= j < |roster| && LiveProducer(roster[j]) && CloneSpot(roster, t, CloneTile(roster[j], gridSize, dice.clone(j))) ==>
            ProducerBirth(roster[j].species, CloneTile(roster[j], gridSize, dice.clone(j))) in bs)
  }

  /** The producer phase: nothing unless `step` is a multiple of 30. Without any living producer, each
      producer species gets a producer on every one of its 3 drawn tiles that is free and tree-less, and
      nothing else; otherwise every living producer clones onto its drawn cardinal neighbour when that
      is free and neither tree, water nor shelter, and nothing else is born. */
  function Respawn(roster: seq<Organism>, gridSize: int, t: Terrain, step: int, dice: Dice): (bs: seq<Birth>)
    requires gridSize >= 1
    ensures step % RESPAWN_PERIOD != 0 ==> bs == []
    ensures forall b :: b in bs ==> b.kind.Producer? && InGrid(b.pos, gridSize) && !Occupied(roster, b.pos) && !IsBlocked(t, b.pos.0, b.pos.1)
    ensures forall b :: b in bs ==> exists k :: 0 <= k < |roster| && roster[k].kind.Producer? && roster[k].species == b.species
    ensures !AnyLiveProducer(roster) ==> forall s :: CountOf(bs, s) <= RESPAWN_TRIES
    ensures AnyLiveProducer(roster) ==> |bs| <= LiveProducerCount(roster, 0)
    ensures AnyLiveProducer(roster) ==> forall b :: b in bs ==> CloneSpot(roster, t, b.pos)
    ensures AnyLiveProducer(roster) ==> forall b :: b in bs ==>
              exists j :: 0 <= j < |roster| && LiveProducer(roster[j]) && b.species == roster[j].species
                && (InGrid(roster[j].Pos(), gridSize) ==> Manhattan(b.pos, roster[j].Pos()) <= 1)
    ensures ProducersComplete(roster, gridSize, t, step, dice, bs)
  {
    if step % RESPAWN_PERIOD != 0 then []
    else if !AnyLiveProducer(roster) then
      var names := ReseedNames(roster);
      assert forall s :: CountOf(Reseed(roster, gridSize, t, names, dice.reseed, 0), s) <= RESPAWN_TRIES by {
        forall s { ReseedAtMostThree(roster, gridSize, t, names, dice.reseed, 0, s); }
      }
      Reseed(roster, gridSize, t, names, dice.reseed, 0)
    else
      CloneFrom(roster, gridSize, t, dice.clone, 0)
  }

  // ---------------------------------------------------------------- consumer births and their cooldowns

  /** The consumer births of one call so far, and the state they left behind. */
  datatype Acc = Acc(st: ReproState, births: seq<Birth>)

  /** A birth at `Key(b)`, recorded as happening at `step`. */
  function Breed(acc: Acc, b: Birth, step: int): Acc {
    Acc(acc.st.(lastRepro := acc.st.lastRepro[Key(b) := step]), acc.births + [b])
  }

  function BirthKeys(bs: seq<Birth>): set<(string, Pos)> {
    set b | b in bs :: Key(b)
  }

  /** The cooldown bookkeeping relative to the state `st0` the call started from: every birth is a
      Consumer whose key now reads `step` and whose cooldown had elapsed in `st0`; no two births share a
      key; and every other key reads as in `st0`. */
  ghost predicate Recorded(st0: ReproState, acc: Acc, step: int) {
    && acc.st.lastRescue == st0.lastRescue
    && (forall k :: 0 <= k < |acc.births| ==> acc.births[k].kind.Consumer?)
    && (forall k :: 0 <= k < |acc.births| ==> LastRepro(acc.st, acc.births[k].species, acc.births[k].pos) == step)
    && (forall k :: 0 <= k < |acc.births| ==>
          step - LastRepro(st0, acc.births[k].species, acc.births[k].pos) >= Cooldown(acc.births[k].kind.trophicLevel))
    && (forall k1, k2 :: 0 <= k1 < k2 < |acc.births| ==> Key(acc.births[k1]) != Key(acc.births[k2]))
    && (forall s, p :: (s, p) !in BirthKeys(acc.births) ==> LastRepro(acc.st, s, p) == LastRepro(st0, s, p))
  }

  /** A birth whose cooldown has elapsed in the current state keeps the bookkeeping: since every cooldown
      is at least 2, a key that already bred at `step` cannot pass, so the new key is fresh and still
      reads as in `st0`. */
  lemma BreedRecorded(st0: ReproState, acc: Acc, b: Birth, step: int)
    requires Recorded(st0, acc, step)
    requires b.kind.Consumer? && step - LastRepro(acc.st, b.species, b.pos) >= Cooldown(b.kind.trophicLevel)
    ensures Recorded(st0, Breed(acc, b, step), step)
  {
    var r := Breed(acc, b, step);
    assert Key(b) !in BirthKeys(acc.births);
    assert BirthKeys(r.births) == BirthKeys(acc.births) + {Key(b)};
    forall k | 0 <= k < |r.births|
      ensures LastRepro(r.st, r.births[k].species, r.births[k].pos) == step
    {
      if k < |acc.births| {
        assert r.births[k] == acc.births[k];
      }
    }
    forall k1, k2 | 0 <= k1 < k2 < |r.births| ensures Key(r.births[k1]) != Key(r.births[k2]) {
      if k2 == |acc.births| {
        assert r.births[k1] == acc.births[k1] && acc.births[k1] in acc.births;
      } else {
        assert r.births[k1] == acc.births[k1] && r.births[k2] == acc.births[k2];
      }
    }
  }

  // ---------------------------------------------------------------- same-tile breeding

  /** The tiles of the living organisms, producers included, in order of first appearance. */
  function LivePositions(roster: seq<Organism>): seq<Pos> {
    var living := Filter(roster, (o: Organism) => o.alive);
    Dedup(seq(|living|, k requires 0 <= k < |living| => living[k].Pos()))
  }

  /** Every listed tile holds a living organism. */
  lemma LivePositionsLiving(roster: seq<Organism>, p: Pos)
    requires p in LivePositions(roster)
    ensures exists o :: o in roster && o.alive && o.Pos() == p
  {
    var living := Filter(roster, (o: Organism) => o.alive);
    var all := seq(|living|, k requires 0 <= k < |living| => living[k].Pos());
    var k :| 0 <= k < |all| && all[k] == p;
    assert living[k] in living;
  }

  /** The living consumers on tile `p`, in roster order. */
  function ConsumersAt(roster: seq<Organism>, p: Pos): seq<Organism> {
    Filter(roster, (o: Organism) => o.alive && o.kind.Consumer? && o.Pos() == p)
  }

  /** The species present among the living consumers on `p`, in order of first appearance. */
  function TileSpecies(roster: seq<Organism>, p: Pos): seq<string> {
    var cs := ConsumersAt(roster, p);
    Dedup(seq(|cs|, k requires 0 <= k < |cs| => cs[k].species))
  }

  /** The group of species `s` on tile `p`: its living consumers there, in roster order. */
  function Members(roster: seq<Organism>, p: Pos, s: string): (m: seq<Organism>)
    ensures forall o :: o in m ==> o in roster && o.alive && o.kind.Consumer? && o.Pos() == p && o.species == s
  {
    Filter(ConsumersAt(roster, p), (o: Organism) => o.species == s)
  }

  /** The (tile, species) groups in the order the source visits them. */
  function Groups(roster: seq<Organism>, ps: seq<Pos>): seq<(Pos, string)> {
    if |ps| == 0 then []
    else
      var ss := TileSpecies(roster, ps[0]);
      seq(|ss|, k requires 0 <= k < |ss| => (ps[0], ss[k])) + Groups(roster, ps[1..])
  }

  /** Every group stands on one of the listed tiles. */
  lemma {:induction false} GroupsOnTiles(roster: seq<Organism>, ps: seq<Pos>, g: (Pos, string))
    requires g in Groups(roster, ps)
    decreases |ps|
    ensures g.0 in ps
  {
    var ss := TileSpecies(roster, ps[0]);
    var head := seq(|ss|, k requires 0 <= k < |ss| => (ps[0], ss[k]));
    assert Groups(roster, ps) == head + Groups(roster, ps[1..]);
    if g !in head {
      GroupsOnTiles(roster, ps[1..], g);
    }
  }

  /** A listed tile contributes a group for each species among its living consumers. */
  lemma {:induction false} GroupsHave(roster: seq<Organism>, ps: seq<Pos>, p: Pos, s: string)
    requires p in ps && s in TileSpecies(roster, p)
    decreases |ps|
    ensures (p, s) in Groups(roster, ps)
  {
    var ss := TileSpecies(roster, ps[0]);
    var head := seq(|ss|, k requires 0 <= k < |ss| => (ps[0], ss[k]));
    assert Groups(roster, ps) == head + Groups(roster, ps[1..]);
    if ps[0] == p {
      var k :| 0 <= k < |ss| && ss[k] == s;
      assert head[k] == (p, s);
    } else {
      GroupsHave(roster, ps[1..], p, s);
    }
  }

  /** Every non-empty group of living consumers is visited by the same-tile loop. */
  lemma GroupsCover(roster: seq<Organism>, p: Pos, s: string)
    requires |Members(roster, p, s)| > 0
    ensures (p, s) in Groups(roster, LivePositions(roster))
  {
    var o := Members(roster, p, s)[0];
    assert o in Members(roster, p, s);
    var living := Filter(roster, (o: Organism) => o.alive);
    assert o in living;
    var k :| 0 <= k < |living| && living[k] == o;
    var all := seq(|living|, k requires 0 <= k < |living| => living[k].Pos());
    assert all[k] == p;
    assert p in LivePositions(roster);
    var cs := ConsumersAt(roster, p);
    assert o in cs;
    var m :| 0 <= m < |cs| && cs[m] == o;
    var names := seq(|cs|, k requires 0 <= k < |cs| => cs[k].species);
    assert names[m] == s;
    assert s in TileSpecies(roster, p);
    GroupsHave(roster, LivePositions(roster), p, s);
  }

  /** The trophic level of a group: that of its first member. */
  function GroupLevel(roster: seq<Organism>, p: Pos, s: string): string {
    var m := Members(roster, p, s);
    if |m| == 0 then UNKNOWN_LEVEL else Level(m[0])
  }

  /** A group may breed, cooldown aside: at least two members, each at or above its level's threshold,
      and enough prey for the species. */
  predicate GroupReady(roster: seq<Organism>, fw: FoodWeb, p: Pos, s: string) {
    var m := Members(roster, p, s);
    && |m| >= 2
    && (forall o :: o in m ==> o.energy >= Threshold(Level(o)))
    && FoodSuffices(roster, fw, s)
  }

  function GroupBirth(roster: seq<Organism>, p: Pos, s: string): Birth {
    ConsumerBirth(s, p, GroupLevel(roster, p, s))
  }

  /** The same-tile loop over `groups`, threading the births and the cooldown map. Births are only ever
      appended, and every visited group that is ready and whose cooldown has elapsed when the loop starts
      breeds. */
  function SameTileFrom(roster: seq<Organism>, fw: FoodWeb, groups: seq<(Pos, string)>, acc: Acc, step: int): (r: Acc)
    decreases |groups|
    ensures |r.births| >= |acc.births| && r.births[..|acc.births|] == acc.births
    ensures forall g ::
              (g in groups && GroupReady(roster, fw, g.0, g.1)
               && step - LastRepro(acc.st, g.1, g.0) >= Cooldown(GroupLevel(roster, g.0, g.1))) ==>
              GroupBirth(roster, g.0, g.1) in r.births
  {
    if |groups| == 0 then acc
    else
      var (p, s) := groups[0];
      var acc1 := if GroupReady(roster, fw, p, s) && step - LastRepro(acc.st, s, p) >= Cooldown(GroupLevel(roster, p, s))
                  then Breed(acc, GroupBirth(roster, p, s), step) else acc;
      var r := SameTileFrom(roster, fw, groups[1..], acc1, step);
      assert r.births[..|acc.births|] == r.births[..|acc1.births|][..|acc.births|];
      assert |acc1.births| > |acc.births| ==> r.births[|acc.births|] == r.births[..|acc1.births|][|acc.births|] == GroupBirth(roster, p, s);
      assert forall g :: g in groups && g != (p, s) ==> g in groups[1..] && LastRepro(acc1.st, g.1, g.0) == LastRepro(acc.st, g.1, g.0);
      r
  }

  /** `b` is the offspring of one of `groups` that is ready to breed. */
  predicate GroupBred(roster: seq<Organism>, fw: FoodWeb, groups: seq<(Pos, string)>, b: Birth)
    decreases |groups|
  {
    && |groups| > 0
    && ((GroupReady(roster, fw, groups[0].0, groups[0].1) && b == GroupBirth(roster, groups[0].0, groups[0].1))
        || GroupBred(roster, fw, groups[1..], b))
  }

  /** A group-bred birth names the group it comes from. */
  lemma {:induction false} GroupBredWitness(roster: seq<Organism>, fw: FoodWeb, groups: seq<(Pos, string)>, b: Birth)
    requires GroupBred(roster, fw, groups, b)
    decreases |groups|
    ensures exists g :: g in groups && GroupReady(roster, fw, g.0, g.1) && b == GroupBirth(roster, g.0, g.1)
  {
    if !(GroupReady(roster, fw, groups[0].0, groups[0].1) && b == GroupBirth(roster, groups[0].0, groups[0].1)) {
      GroupBredWitness(roster, fw, groups[1..], b);
      var g :| g in groups[1..] && GroupReady(roster, fw, g.0, g.1) && b == GroupBirth(roster, g.0, g.1);
      assert g in groups;
    } else {
      assert groups[0] in groups;
    }
  }

  /** Every birth the same-tile loop appends is the offspring of one of the visited groups that is ready
      to breed. */
  lemma {:induction false} SameTileBirths(roster: seq<Organism>, fw: FoodWeb, groups: seq<(Pos, string)>, acc: Acc, step: int)
    decreases |groups|
    ensures forall k :: |acc.births| <= k < |SameTileFrom(roster, fw, groups, acc, step).births| ==>
              GroupBred(roster, fw, groups, SameTileFrom(roster, fw, groups, acc, step).births[k])
  {
    if |groups| > 0 {
      var p, s := groups[0].0, groups[0].1;
      var r := SameTileFrom(roster, fw, groups, acc, step);
      var acc1 := if GroupReady(roster, fw, p, s) && step - LastRepro(acc.st, s, p) >= Cooldown(GroupLevel(roster, p, s))
                  then Breed(acc, GroupBirth(roster, p, s), step) else acc;
      assert r == SameTileFrom(roster, fw, groups[1..], acc1, step);
      SameTileBirths(roster, fw, groups[1..], acc1, step);
      forall k | |acc.births| <= k < |acc1.births| ensures GroupBred(roster, fw, groups, r.births[k]) {
        assert r.births[k] == r.births[..|acc1.births|][k] == GroupBirth(roster, p, s);
      }
    }
  }

  lemma {:induction false} SameTileRecorded(st0: ReproState, roster: seq<Organism>, fw: FoodWeb, groups: seq<(Pos, string)>, acc: Acc, step: int)
    requires Recorded(st0, acc, step)
    decreases |groups|
    ensures Recorded(st0, SameTileFrom(roster, fw, groups, acc, step), step)
  {
    if |groups| > 0 {
      var (p, s) := groups[0];
      if GroupReady(roster, fw, p, s) && step - LastRepro(acc.st, s, p) >= Cooldown(GroupLevel(roster, p, s)) {
        BreedRecorded(st0, acc, GroupBirth(roster, p, s), step);
        SameTileRecorded(st0, roster, fw, groups[1..], Breed(acc, GroupBirth(roster, p, s), step), step);
      } else {
        SameTileRecorded(st0, roster, fw, groups[1..], acc, step);
      }
    }
  }

  // ---------------------------------------------------------------- distance-2 pair breeding

  /** The roster indices of all consumers, dead ones included, in increasing order. */
  function ConsumerIndices(roster: seq<Organism>, k: nat): (cs: seq<nat>)
    requires k <= |roster|
    decreases |roster| - k
    ensures forall n :: 0 <= n < |cs| ==> k <= cs[n] < |roster| && roster[cs[n]].kind.Consumer?
    ensures forall n, m :: 0 <= n < m < |cs| ==> cs[n] < cs[m]
    ensures forall m :: k <= m < |roster| && roster[m].kind.Consumer? ==> m in cs
  {
    if k == |roster| then []
    else (if roster[k].kind.Consumer? then [k] else []) + ConsumerIndices(roster, k + 1)
  }

  /** The floored midpoint of two organisms, Python's `//` by 2. */
  function Midpoint(a: Organism, b: Organism): Pos {
    ((a.x + b.x) / 2, (a.y + b.y) / 2)
  }

  /** A pair may breed, cooldown and the shortage coin aside: same species, Manhattan distance exactly 2,
      both energies at least 40, a midpoint that is neither tree nor water, and strictly more prey than
      twice the species' population. */
  predicate PairReady(roster: seq<Organism>, fw: FoodWeb, t: Terrain, i: nat, j: nat)
    requires i < |roster| && j < |roster|
  {
    var mid := Midpoint(roster[i], roster[j]);
    && roster[i].species == roster[j].species
    && Manhattan(roster[i].Pos(), roster[j].Pos()) == PAIR_DISTANCE
    && roster[i].energy >= PAIR_ENERGY && roster[j].energy >= PAIR_ENERGY
    && !IsBlocked(t, mid.0, mid.1) && !IsWater(t, mid.0, mid.1)
    && Food(roster, fw, roster[i].species) > 2 * LiveCount(roster, roster[i].species)
  }

  /** A pair that passes the `prey > 2 * population` test always has food for its ratio, since no ratio
      exceeds 2: the short-of-food coin is never consulted for a ready pair. */
  lemma ReadyPairHasFood(roster: seq<Organism>, fw: FoodWeb, t: Terrain, i: nat, j: nat)
    requires i < |roster| && j < |roster|
    ensures PairReady(roster, fw, t, i, j) ==> FoodSuffices(roster, fw, roster[i].species)
  {
  }

  /** The offspring of a pair: at the midpoint, with the first partner's level. */
  function PairBirth(roster: seq<Organism>, i: nat, j: nat): Birth
    requires i < |roster| && j < |roster|
  {
    ConsumerBirth(roster[i].species, Midpoint(roster[i], roster[j]), Level(roster[i]))
  }

  /** The pairing loop's state: the births and cooldowns so far, the successful pairs, and the roster
      indices already paired (the source's set of `id`s). */
  datatype Pairing = Pairing(acc: Acc, pairs: seq<(nat, nat)>, paired: set<nat>)

  /** Whether the inner iteration for the consumers at roster indices `i` and `j` breeds: neither is
      paired yet, the pair is ready, the shortage coin (drawn only when prey is short) does not skip it,
      and the cooldown at the midpoint has elapsed. */
  predicate PairBreeds(roster: seq<Organism>, fw: FoodWeb, t: Terrain, dice: Dice, step: int, i: nat, j: nat, pr: Pairing)
    requires i < |roster| && j < |roster|
  {
    && roster[i].species == roster[j].species && i !in pr.paired && j !in pr.paired
    && PairReady(roster, fw, t, i, j)
    && !(!FoodSuffices(roster, fw, roster[i].species) && dice.skipShort(i, j))
    && step - LastRepro(pr.acc.st, roster[i].species, Midpoint(roster[i], roster[j])) >= Cooldown(Level(roster[i]))
  }

  /** One inner iteration of the pairing loop. */
  function TryPair(roster: seq<Organism>, fw: FoodWeb, t: Terrain, dice: Dice, step: int, i: nat, j: nat, pr: Pairing): Pairing
    requires i < |roster| && j < |roster|
  {
    if PairBreeds(roster, fw, t, dice, step, i, j, pr)
    then Pairing(Breed(pr.acc, PairBirth(roster, i, j), step), pr.pairs + [(i, j)], pr.paired + {i, j})
    else pr
  }

  predicate IndicesIn(roster: seq<Organism>, cs: seq<nat>) {
    forall n :: 0 <= n < |cs| ==> cs[n] < |roster|
  }

  /** `for o2 in consumers[a+1:]`, from position `b` on. */
  function PairWith(roster: seq<Organism>, fw: FoodWeb, t: Terrain, dice: Dice, step: int, cs: seq<nat>, a: nat, b: nat, pr: Pairing): Pairing
    requires IndicesIn(roster, cs) && a < b <= |cs|
    decreases |cs| - b
  {
    if b == |cs| then pr
    else PairWith(roster, fw, t, dice, step, cs, a, b + 1, TryPair(roster, fw, t, dice, step, cs[a], cs[b], pr))
  }

  /** `for i, o1 in enumerate(consumers)`, from position `a` on. */
  function PairFrom(roster: seq<Organism>, fw: FoodWeb, t: Terrain, dice: Dice, step: int, cs: seq<nat>, a: nat, pr: Pairing): Pairing
    requires IndicesIn(roster, cs) && a <= |cs|
    decreases |cs| - a
  {
    if a == |cs| then pr
    else PairFrom(roster, fw, t, dice, step, cs, a + 1, PairWith(roster, fw, t, dice, step, cs, a, a + 1, pr))
  }

  /** What the pairing loop keeps true, `base` being the number of births before it started: the births
      after `base` are exactly the offspring of the recorded pairs, every pair is ready and ordered, no
      index occurs in two pairs, and `paired` holds exactly the indices of the pairs. */
  ghost predicate PairsOk(roster: seq<Organism>, fw: FoodWeb, t: Terrain, base: nat, pr: Pairing) {
    PairsBorn(roster, fw, t, base, pr) && PairsDisjoint(pr.pairs) && PairedExactly(pr.paired, pr.pairs)
  }

  ghost predicate PairsBorn(roster: seq<Organism>, fw: FoodWeb, t: Terrain, base: nat, pr: Pairing) {
    && |pr.acc.births| == base + |pr.pairs|
    && (forall n :: 0 <= n < |pr.pairs| ==> pr.pairs[n].0 < pr.pairs[n].1 < |roster|)
    && (forall n :: 0 <= n < |pr.pairs| ==>
          (pr.pairs[n].0 < pr.pairs[n].1 < |roster|
           && PairReady(roster, fw, t, pr.pairs[n].0, pr.pairs[n].1)
           && pr.acc.births[base + n] == PairBirth(roster, pr.pairs[n].0, pr.pairs[n].1)))
  }

  predicate Disjoint(p: (nat, nat), q: (nat, nat)) {
    p.0 != q.0 && p.0 != q.1 && p.1 != q.0 && p.1 != q.1
  }

  ghost predicate PairsDisjoint(pairs: seq<(nat, nat)>) {
    forall n, m :: 0 <= n < m < |pairs| ==> Disjoint(pairs[n], pairs[m])
  }

  ghost predicate InPair(x: nat, pairs: seq<(nat, nat)>) {
    exists n :: 0 <= n < |pairs| && (pairs[n].0 == x || pairs[n].1 == x)
  }

  ghost predicate PairedExactly(paired: set<nat>, pairs: seq<(nat, nat)>) {
    forall x :: x in paired <==> InPair(x, pairs)
  }

  lemma InPairAppend(x: nat, pairs: seq<(nat, nat)>, i: nat, j: nat)
    ensures InPair(x, pairs + [(i, j)]) <==> InPair(x, pairs) || x == i || x == j
  {
    var r := pairs + [(i, j)];
    if InPair(x, pairs) {
      var n :| 0 <= n < |pairs| && (pairs[n].0 == x || pairs[n].1 == x);
      assert r[n] == pairs[n];
    }
    if x == i || x == j {
      assert r[|pairs|] == (i, j);
    }
    if InPair(x, r) {
      var n :| 0 <= n < |r| && (r[n].0 == x || r[n].1 == x);
      if n < |pairs| {
        assert r[n] == pairs[n];
      }
    }
  }

  lemma TryPairOk(roster: seq<Organism>, fw: FoodWeb, t: Terrain, dice: Dice, step: int, i: nat, j: nat, base: nat, pr: Pairing)
    requires i < j < |roster| && PairsOk(roster, fw, t, base, pr)
    ensures PairsOk(roster, fw, t, base, TryPair(roster, fw, t, dice, step, i, j, pr))
  {
    if PairBreeds(roster, fw, t, dice, step, i, j, pr) {
      var r := TryPair(roster, fw, t, dice, step, i, j, pr);
      assert r.pairs == pr.pairs + [(i, j)];
      PairBornStep(roster, fw, t, dice, step, i, j, base, pr);
      forall x ensures x in r.paired <==> InPair(x, r.pairs) {
        InPairAppend(x, pr.pairs, i, j);
      }
      forall n, m | 0 <= n < m < |r.pairs| ensures Disjoint(r.pairs[n], r.pairs[m]) {
        if m == |pr.pairs| {
          assert r.pairs[n] == pr.pairs[n];
          assert !InPair(i, pr.pairs) && !InPair(j, pr.pairs);
        } else {
          assert r.pairs[n] == pr.pairs[n] && r.pairs[m] == pr.pairs[m];
        }
      }
    }
  }

  lemma PairBornStep(roster: seq<Organism>, fw: FoodWeb, t: Terrain, dice: Dice, step: int, i: nat, j: nat, base: nat, pr: Pairing)
    requires i < j < |roster| && PairsBorn(roster, fw, t, base, pr) && PairBreeds(roster, fw, t, dice, step, i, j, pr)
    ensures PairsBorn(roster, fw, t, base, TryPair(roster, fw, t, dice, step, i, j, pr))
  {
    var r := TryPair(roster, fw, t, dice, step, i, j, pr);
    forall n | 0 <= n < |r.pairs|
      ensures r.pairs[n].0 < r.pairs[n].1 < |roster| && PairReady(roster, fw, t, r.pairs[n].0, r.pairs[n].1)
      ensures r.acc.births[base + n] == PairBirth(roster, r.pairs[n].0, r.pairs[n].1)
    {
      if n < |pr.pairs| {
        assert r.pairs[n] == pr.pairs[n] && r.acc.births[base + n] == pr.acc.births[base + n];
      }
    }
  }

  lemma TryPairRecorded(st0: ReproState, roster: seq<Organism>, fw: FoodWeb, t: Terrain, dice: Dice, step: int, i: nat, j: nat, pr: Pairing)
    requires i < |roster| && j < |roster| && roster[i].kind.Consumer? && Recorded(st0, pr.acc, step)
    ensures Recorded(st0, TryPair(roster, fw, t, dice, step, i, j, pr).acc, step)
  {
    var r := TryPair(roster, fw, t, dice, step, i, j, pr);
    if r != pr {
      BreedRecorded(st0, pr.acc, PairBirth(roster, i, j), step);
    }
  }

  /** The pairing loops keep the pair bookkeeping. */
  lemma {:induction false} PairWithOk(roster: seq<Organism>, fw: FoodWeb, t: Terrain, dice: Dice, step: int,
                                      cs: seq<nat>, a: nat, b: nat, base: nat, pr: Pairing)
    requires IndicesIn(roster, cs) && a < b <= |cs|
    requires forall n, m :: 0 <= n < m < |cs| ==> cs[n] < cs[m]
    requires PairsOk(roster, fw, t, base, pr)
    decreases |cs| - b
    ensures PairsOk(roster, fw, t, base, PairWith(roster, fw, t, dice, step, cs, a, b, pr))
  {
    if b < |cs| {
      TryPairOk(roster, fw, t, dice, step, cs[a], cs[b], base, pr);
      PairWithOk(roster, fw, t, dice, step, cs, a, b + 1, base, TryPair(roster, fw, t, dice, step, cs[a], cs[b], pr));
    }
  }

  lemma {:induction false} PairFromOk(roster: seq<Organism>, fw: FoodWeb, t: Terrain, dice: Dice, step: int,
                                      cs: seq<nat>, a: nat, base: nat, pr: Pairing)
    requires IndicesIn(roster, cs) && a <= |cs|
    requires forall n, m :: 0 <= n < m < |cs| ==> cs[n] < cs[m]
    requires PairsOk(roster, fw, t, base, pr)
    decreases |cs| - a
    ensures PairsOk(roster, fw, t, base, PairFrom(roster, fw, t, dice, step, cs, a, pr))
  {
    if a < |cs| {
      PairWithOk(roster, fw, t, dice, step, cs, a, a + 1, base, pr);
      PairFromOk(roster, fw, t, dice, step, cs, a + 1, base, PairWith(roster, fw, t, dice, step, cs, a, a + 1, pr));
    }
  }

  /** The pairing loops keep the cooldown bookkeeping. */
  lemma {:induction false} PairWithRecorded(st0: ReproState, roster: seq<Organism>, fw: FoodWeb, t: Terrain, dice: Dice, step: int,
                                            cs: seq<nat>, a: nat, b: nat, pr: Pairing)
    requires IndicesIn(roster, cs) && a < b <= |cs| && forall n :: 0 <= n < |cs| ==> roster[cs[n]].kind.Consumer?
    requires Recorded(st0, pr.acc, step)
    decreases |cs| - b
    ensures Recorded(st0, PairWith(roster, fw, t, dice, step, cs, a, b, pr).acc, step)
  {
    if b < |cs| {
      TryPairRecorded(st0, roster, fw, t, dice, step, cs[a], cs[b], pr);
      PairWithRecorded(st0, roster, fw, t, dice, step, cs, a, b + 1, TryPair(roster, fw, t, dice, step, cs[a], cs[b], pr));
    }
  }

  lemma {:induction false} PairFromRecorded(st0: ReproState, roster: seq<Organism>, fw: FoodWeb, t: Terrain, dice: Dice, step: int,
                                            cs: seq<nat>, a: nat, pr: Pairing)
    requires IndicesIn(roster, cs) && a <= |cs| && forall n :: 0 <= n < |cs| ==> roster[cs[n]].kind.Consumer?
    requires Recorded(st0, pr.acc, step)
    decreases |cs| - a
    ensures Recorded(st0, PairFrom(roster, fw, t, dice, step, cs, a, pr).acc, step)
  {
    if a < |cs| {
      PairWithRecorded(st0, roster, fw, t, dice, step, cs, a, a + 1, pr);
      PairFromRecorded(st0, roster, fw, t, dice, step, cs, a + 1, PairWith(roster, fw, t, dice, step, cs, a, a + 1, pr));
    }
  }

  /** One inner iteration breeds exactly when neither consumer is paired yet, the pair is ready and the
      cooldown at its midpoint has elapsed, whatever the shortage coin says; otherwise it changes
      nothing. */
  lemma TryPairBreeds(roster: seq<Organism>, fw: FoodWeb, t: Terrain, dice: Dice, step: int, i: nat, j: nat, pr: Pairing)
    requires i < |roster| && j < |roster|
    ensures var go := i !in pr.paired && j !in pr.paired && PairReady(roster, fw, t, i, j)
                      && step - LastRepro(pr.acc.st, roster[i].species, Midpoint(roster[i], roster[j])) >= Cooldown(Level(roster[i]));
            TryPair(roster, fw, t, dice, step, i, j, pr)
              == if go then Pairing(Breed(pr.acc, PairBirth(roster, i, j), step), pr.pairs + [(i, j)], pr.paired + {i, j}) else pr
  {
    ReadyPairHasFood(roster, fw, t, i, j);
  }

  /** `pr2` extends `pr`: no pairing is undone and the births of `pr` are kept in place. */
  ghost predicate Grown(pr: Pairing, pr2: Pairing) {
    pr.paired <= pr2.paired && |pr.acc.births| <= |pr2.acc.births| && pr2.acc.births[..|pr.acc.births|] == pr.acc.births
  }

  /** Relative to `acc0`: the births of `acc0` are kept in place, and only keys of births appended since
      read differently. */
  ghost predicate KeysSince(acc0: Acc, acc: Acc) {
    && |acc0.births| <= |acc.births| && acc.births[..|acc0.births|] == acc0.births
    && forall s, p :: (s, p) !in BirthKeys(acc.births[|acc0.births|..]) ==> LastRepro(acc.st, s, p) == LastRepro(acc0.st, s, p)
  }

  /** The pair `(i, j)` was dealt with by the pairing loop: one of the two is paired, or a pair of the same
      species already bred at their midpoint in this phase (the births after the first `base`). */
  ghost predicate PairSettled(roster: seq<Organism>, base: nat, pr: Pairing, i: nat, j: nat)
    requires i < |roster| && j < |roster|
  {
    i in pr.paired || j in pr.paired
    || (base <= |pr.acc.births| && Key(PairBirth(roster, i, j)) in BirthKeys(pr.acc.births[base..]))
  }

  lemma SettledGrown(roster: seq<Organism>, base: nat, pr: Pairing, pr2: Pairing, i: nat, j: nat)
    requires i < |roster| && j < |roster| && Grown(pr, pr2) && PairSettled(roster, base, pr, i, j)
    ensures PairSettled(roster, base, pr2, i, j)
  {
    if !(i in pr.paired || j in pr.paired) {
      var b :| b in pr.acc.births[base..] && Key(b) == Key(PairBirth(roster, i, j));
      var n :| 0 <= n < |pr.acc.births[base..]| && pr.acc.births[base..][n] == b;
      assert pr2.acc.births[base + n] == pr2.acc.births[..|pr.acc.births|][base + n] == b;
      assert pr2.acc.births[base..][n] == b;
    }
  }

  lemma GrownTrans(a: Pairing, b: Pairing, c: Pairing)
    requires Grown(a, b) && Grown(b, c)
    ensures Grown(a, c)
  {
    assert c.acc.births[..|a.acc.births|] == c.acc.births[..|b.acc.births|][..|a.acc.births|];
  }

  lemma TryPairSince(acc0: Acc, roster: seq<Organism>, fw: FoodWeb, t: Terrain, dice: Dice, step: int, i: nat, j: nat, pr: Pairing)
    requires i < |roster| && j < |roster| && KeysSince(acc0, pr.acc)
    ensures KeysSince(acc0, TryPair(roster, fw, t, dice, step, i, j, pr).acc)
    ensures Grown(pr, TryPair(roster, fw, t, dice, step, i, j, pr))
  {
    var r := TryPair(roster, fw, t, dice, step, i, j, pr);
    if r != pr {
      BreedSince(acc0, pr.acc, PairBirth(roster, i, j), step);
      assert r.acc.births[..|pr.acc.births|] == pr.acc.births;
    }
  }

  lemma BreedSince(acc0: Acc, acc: Acc, b: Birth, step: int)
    requires KeysSince(acc0, acc)
    ensures KeysSince(acc0, Breed(acc, b, step))
  {
    var r := Breed(acc, b, step);
    var base := |acc0.births|;
    assert r.births[..base] == acc.births[..base];
    assert r.births[base..] == acc.births[base..] + [b];
    assert BirthKeys(r.births[base..]) == BirthKeys(acc.births[base..]) + {Key(b)};
  }

  lemma {:induction false} PairWithSince(acc0: Acc, roster: seq<Organism>, fw: FoodWeb, t: Terrain, dice: Dice, step: int,
                                         cs: seq<nat>, a: nat, b: nat, pr: Pairing)
    requires IndicesIn(roster, cs) && a < b <= |cs| && KeysSince(acc0, pr.acc)
    decreases |cs| - b
    ensures KeysSince(acc0, PairWith(roster, fw, t, dice, step, cs, a, b, pr).acc)
    ensures Grown(pr, PairWith(roster, fw, t, dice, step, cs, a, b, pr))
  {
    if b < |cs| {
      var pr1 := TryPair(roster, fw, t, dice, step, cs[a], cs[b], pr);
      TryPairSince(acc0, roster, fw, t, dice, step, cs[a], cs[b], pr);
      PairWithSince(acc0, roster, fw, t, dice, step, cs, a, b + 1, pr1);
      GrownTrans(pr, pr1, PairWith(roster, fw, t, dice, step, cs, a, b + 1, pr1));
    }
  }

  lemma {:induction false} PairFromSince(acc0: Acc, roster: seq<Organism>, fw: FoodWeb, t: Terrain, dice: Dice, step: int,
                                         cs: seq<nat>, a: nat, pr: Pairing)
    requires IndicesIn(roster, cs) && a <= |cs| && KeysSince(acc0, pr.acc)
    decreases |cs| - a
    ensures KeysSince(acc0, PairFrom(roster, fw, t, dice, step, cs, a, pr).acc)
    ensures Grown(pr, PairFrom(roster, fw, t, dice, step, cs, a, pr))
  {
    if a < |cs| {
      var pr1 := PairWith(roster, fw, t, dice, step, cs, a, a + 1, pr);
      PairWithSince(acc0, roster, fw, t, dice, step, cs, a, a + 1, pr);
      PairFromSince(acc0, roster, fw, t, dice, step, cs, a + 1, pr1);
      GrownTrans(pr, pr1, PairFrom(roster, fw, t, dice, step, cs, a + 1, pr1));
    }
  }

  /** The iteration for a ready pair whose cooldown had elapsed when the phase started settles it. */
  lemma TryPairSettles(acc0: Acc, roster: seq<Organism>, fw: FoodWeb, t: Terrain, dice: Dice, step: int, i: nat, j: nat, pr: Pairing)
    requires i < |roster| && j < |roster| && KeysSince(acc0, pr.acc) && PairReady(roster, fw, t, i, j)
    requires step - LastRepro(acc0.st, roster[i].species, Midpoint(roster[i], roster[j])) >= Cooldown(Level(roster[i]))
    ensures PairSettled(roster, |acc0.births|, TryPair(roster, fw, t, dice, step, i, j, pr), i, j)
  {
    var r := TryPair(roster, fw, t, dice, step, i, j, pr);
    TryPairSince(acc0, roster, fw, t, dice, step, i, j, pr);
    TryPairBreeds(roster, fw, t, dice, step, i, j, pr);
    if PairSettled(roster, |acc0.births|, pr, i, j) {
      SettledGrown(roster, |acc0.births|, pr, r, i, j);
    } else {
      assert LastRepro(pr.acc.st, roster[i].species, Midpoint(roster[i], roster[j]))
          == LastRepro(acc0.st, roster[i].species, Midpoint(roster[i], roster[j]));
      assert i in r.paired;
    }
  }

  lemma {:induction false} PairWithSettles(acc0: Acc, roster: seq<Organism>, fw: FoodWeb, t: Terrain, dice: Dice, step: int,
                                           cs: seq<nat>, a: nat, b0: nat, b: nat, pr: Pairing)
    requires IndicesIn(roster, cs) && a < b0 <= b < |cs| && KeysSince(acc0, pr.acc)
    requires PairReady(roster, fw, t, cs[a], cs[b])
    requires step - LastRepro(acc0.st, roster[cs[a]].species, Midpoint(roster[cs[a]], roster[cs[b]])) >= Cooldown(Level(roster[cs[a]]))
    decreases |cs| - b0
    ensures PairSettled(roster, |acc0.births|, PairWith(roster, fw, t, dice, step, cs, a, b0, pr), cs[a], cs[b])
  {
    var pr1 := TryPair(roster, fw, t, dice, step, cs[a], cs[b0], pr);
    TryPairSince(acc0, roster, fw, t, dice, step, cs[a], cs[b0], pr);
    if b0 == b {
      TryPairSettles(acc0, roster, fw, t, dice, step, cs[a], cs[b], pr);
      PairWithSince(acc0, roster, fw, t, dice, step, cs, a, b0 + 1, pr1);
      SettledGrown(roster, |acc0.births|, pr1, PairWith(roster, fw, t, dice, step, cs, a, b0 + 1, pr1), cs[a], cs[b]);
    } else {
      PairWithSettles(acc0, roster, fw, t, dice, step, cs, a, b0 + 1, b, pr1);
    }
  }

  lemma {:induction false} PairFromSettles(acc0: Acc, roster: seq<Organism>, fw: FoodWeb, t: Terrain, dice: Dice, step: int,
                                           cs: seq<nat>, a0: nat, a: nat, b: nat, pr: Pairing)
    requires IndicesIn(roster, cs) && a0 <= a < b < |cs| && KeysSince(acc0, pr.acc)
    requires PairReady(roster, fw, t, cs[a], cs[b])
    requires step - LastRepro(acc0.st, roster[cs[a]].species, Midpoint(roster[cs[a]], roster[cs[b]])) >= Cooldown(Level(roster[cs[a]]))
    decreases |cs| - a0
    ensures PairSettled(roster, |acc0.births|, PairFrom(roster, fw, t, dice, step, cs, a0, pr), cs[a], cs[b])
  {
    var pr1 := PairWith(roster, fw, t, dice, step, cs, a0, a0 + 1, pr);
    PairWithSince(acc0, roster, fw, t, dice, step, cs, a0, a0 + 1, pr);
    if a0 == a {
      PairWithSettles(acc0, roster, fw, t, dice, step, cs, a, a + 1, b, pr);
      PairFromSince(acc0, roster, fw, t, dice, step, cs, a + 1, pr1);
      SettledGrown(roster, |acc0.births|, pr1, PairFrom(roster, fw, t, dice, step, cs, a + 1, pr1), cs[a], cs[b]);
    } else {
      PairFromSettles(acc0, roster, fw, t, dice, step, cs, a0 + 1, a, b, pr1);
    }
  }

  /** Every ready pair of consumers whose midpoint cooldown has elapsed when the pairing phase starts is
      settled by it: one of the two ends up paired, or its species already bred at that midpoint. */
  lemma PairsComplete(roster: seq<Organism>, fw: FoodWeb, t: Terrain, dice: Dice, step: int, acc: Acc, i: nat, j: nat)
    requires i < j < |roster| && roster[i].kind.Consumer? && roster[j].kind.Consumer? && PairReady(roster, fw, t, i, j)
    requires step - LastRepro(acc.st, roster[i].species, Midpoint(roster[i], roster[j])) >= Cooldown(Level(roster[i]))
    ensures PairSettled(roster, |acc.births|, PairFrom(roster, fw, t, dice, step, ConsumerIndices(roster, 0), 0, Pairing(acc, [], {})), i, j)
  {
    var cs := ConsumerIndices(roster, 0);
    var a :| 0 <= a < |cs| && cs[a] == i;
    var b :| 0 <= b < |cs| && cs[b] == j;
    assert a < b;
    assert KeysSince(acc, acc);
    PairFromSettles(acc, roster, fw, t, dice, step, cs, 0, a, b, Pairing(acc, [], {}));
  }

  /** The pairing phase over all consumers, starting from the same-tile result `acc`. */
  function Proximity(roster: seq<Organism>, fw: FoodWeb, t: Terrain, dice: Dice, step: int, acc: Acc): (r: Pairing)
    ensures PairsOk(roster, fw, t, |acc.births|, r)
    ensures r.acc.births[..|acc.births|] == acc.births
    ensures forall i, j ::
              (0 <= i < j < |roster| && roster[i].kind.Consumer? && roster[j].kind.Consumer? && PairReady(roster, fw, t, i, j)
               && step - LastRepro(acc.st, roster[i].species, Midpoint(roster[i], roster[j])) >= Cooldown(Level(roster[i]))) ==>
              PairSettled(roster, |acc.births|, r, i, j)
  {
    var cs := ConsumerIndices(roster, 0);
    var r := PairFrom(roster, fw, t, dice, step, cs, 0, Pairing(acc, [], {}));
    PairFromPrefix(roster, fw, t, dice, step, cs, 0, Pairing(acc, [], {}));
    PairFromOk(roster, fw, t, dice, step, cs, 0, |acc.births|, Pairing(acc, [], {}));
    assert forall i, j ::
             (0 <= i < j < |roster| && roster[i].kind.Consumer? && roster[j].kind.Consumer? && PairReady(roster, fw, t, i, j)
              && step - LastRepro(acc.st, roster[i].species, Midpoint(roster[i], roster[j])) >= Cooldown(Level(roster[i]))) ==>
             PairSettled(roster, |acc.births|, r, i, j) by {
      forall i, j | 0 <= i < j < |roster| && roster[i].kind.Consumer? && roster[j].kind.Consumer? && PairReady(roster, fw, t, i, j)
                    && step - LastRepro(acc.st, roster[i].species, Midpoint(roster[i], roster[j])) >= Cooldown(Level(roster[i])) {
        PairsComplete(roster, fw, t, dice, step, acc, i, j);
      }
    }
    r
  }

  lemma {:induction false} PairFromPrefix(roster: seq<Organism>, fw: FoodWeb, t: Terrain, dice: Dice, step: int, cs: seq<nat>, a: nat, pr: Pairing)
    requires IndicesIn(roster, cs) && a <= |cs|
    decreases |cs| - a
    ensures var r := PairFrom(roster, fw, t, dice, step, cs, a, pr);
            |r.acc.births| >= |pr.acc.births| && r.acc.births[..|pr.acc.births|] == pr.acc.births
  {
    if a < |cs| {
      PairWithPrefix(roster, fw, t, dice, step, cs, a, a + 1, pr);
      PairFromPrefix(roster, fw, t, dice, step, cs, a + 1, PairWith(roster, fw, t, dice, step, cs, a, a + 1, pr));
    }
  }

  lemma {:induction false} PairWithPrefix(roster: seq<Organism>, fw: FoodWeb, t: Terrain, dice: Dice, step: int, cs: seq<nat>, a: nat, b: nat, pr: Pairing)
    requires IndicesIn(roster, cs) && a < b <= |cs|
    decreases |cs| - b
    ensures var r := PairWith(roster, fw, t, dice, step, cs, a, b, pr);
            |r.acc.births| >= |pr.acc.births| && r.acc.births[..|pr.acc.births|] == pr.acc.births
  {
    if b < |cs| {
      PairWithPrefix(roster, fw, t, dice, step, cs, a, b + 1, TryPair(roster, fw, t, dice, step, cs[a], cs[b], pr));
    }
  }

  // ---------------------------------------------------------------- last-primary rescue

  /** The species of the living organisms, each once, in order of first appearance: the key order of the
      source's `Counter`. */
  function LiveSpecies(roster: seq<Organism>): (names: seq<string>)
    ensures NoDup(names)
  {
    var living := Filter(roster, (o: Organism) => o.alive);
    Dedup(seq(|living|, k requires 0 <= k < |living| => living[k].species))
  }

  /** The first shelter entry of the terrain map, in its insertion order. */
  function FirstShelter(tiles: Dict<Pos, string>): (p: Option<Pos>)
    ensures p.Some? ==> (p.value, SHELTER) in tiles
    ensures p.None? ==> forall e :: e in tiles ==> e.1 != SHELTER
    ensures p.Some? ==> exists k :: 0 <= k < |tiles| && tiles[k] == (p.value, SHELTER) && forall m :: 0 <= m < k ==> tiles[m].1 != SHELTER
  {
    if |tiles| == 0 then None
    else if tiles[0].1 == SHELTER then Some(tiles[0].0)
    else
      var r := FirstShelter(tiles[1..]);
      assert forall e :: e in tiles ==> e == tiles[0] || e in tiles[1..];
      if r.Some? then
        var k :| 0 <= k < |tiles[1..]| && tiles[1..][k] == (r.value, SHELTER) && forall m :: 0 <= m < k ==> tiles[1..][m].1 != SHELTER;
        assert tiles[k + 1] == (r.value, SHELTER);
        assert forall m :: 0 <= m < k + 1 ==> tiles[m].1 != SHELTER by {
          forall m | 0 <= m < k + 1 ensures tiles[m].1 != SHELTER {
            if m > 0 { assert tiles[m] == tiles[1..][m - 1]; }
          }
        }
        r
      else r
  }

  /** A species is due a rescue: exactly one living member, primary in the food web, and its last
      rescue at least 2 steps ago. */
  predicate RescueDue(roster: seq<Organism>, fw: FoodWeb, st: ReproState, step: int, s: string) {
    LiveCount(roster, s) == 1 && GetTrophicLevel(fw, s) == PRIMARY && step - LastRescue(st, s) >= RESCUE_COOLDOWN
  }

  /** The rescue loop over `species`: a due species gets one primary consumer on the first shelter tile,
      if there is one, and its rescue step is recorded. */
  function RescueFrom(roster: seq<Organism>, fw: FoodWeb, t: Terrain, species: seq<string>, st: ReproState, step: int): (r: (ReproState, seq<Birth>))
    decreases |species|
    ensures r.0.lastRepro == st.lastRepro
    ensures forall b :: b in r.1 ==> b.species in species && Some(b.pos) == FirstShelter(t.tiles) && b.kind == Consumer(PRIMARY, DEFAULT_SPEED)
  {
    if |species| == 0 then (st, [])
    else
      var s := species[0];
      var shelter := FirstShelter(t.tiles);
      var due := RescueDue(roster, fw, st, step, s) && shelter.Some?;
      var st1 := if due then st.(lastRescue := st.lastRescue[s := step]) else st;
      var now := if due then [ConsumerBirth(s, shelter.value, PRIMARY)] else [];
      var rest := RescueFrom(roster, fw, t, species[1..], st1, step);
      (rest.0, now + rest.1)
  }

  /** Over distinct species, each species is rescued exactly when it is listed, due in the state the loop
      started from, and a shelter exists; its rescue step then reads `step`, and otherwise is unchanged. */
  lemma {:induction false} RescueOutcome(roster: seq<Organism>, fw: FoodWeb, t: Terrain, species: seq<string>, st: ReproState, step: int, s: string)
    requires NoDup(species)
    decreases |species|
    ensures var r := RescueFrom(roster, fw, t, species, st, step);
            var rescued := s in species && RescueDue(roster, fw, st, step, s) && FirstShelter(t.tiles).Some?;
            && CountOf(r.1, s) == (if rescued then 1 else 0)
            && LastRescue(r.0, s) == (if rescued then step else LastRescue(st, s))
  {
    if |species| > 0 {
      var s0 := species[0];
      var shelter := FirstShelter(t.tiles);
      var due := RescueDue(roster, fw, st, step, s0) && shelter.Some?;
      var st1 := if due then st.(lastRescue := st.lastRescue[s0 := step]) else st;
      var now := if due then [ConsumerBirth(s0, shelter.value, PRIMARY)] else [];
      var rest := RescueFrom(roster, fw, t, species[1..], st1, step);
      NoDupTail(species);
      RescueOutcome(roster, fw, t, species[1..], st1, step, s);
      CountOfAppend(now, rest.1, s);
      assert s in species <==> s == s0 || s in species[1..];
    }
  }

  // ---------------------------------------------------------------- the whole call

  /** The result of one `reproduce` call, by phase: the producer births, the consumer births of both
      breeding phases, the rescues, and the new cooldown state. The source returns the births in this
      order. */
  datatype Offspring = Offspring(producers: seq<Birth>, bred: seq<Birth>, rescued: seq<Birth>, st: ReproState) {
    function All(): seq<Birth> {
      producers + bred + rescued
    }
  }

  /** `reproduce`. Producers are born only on every 30th step, on free tree-less tiles, and every
      producer birth the phase owes happens. Every consumer birth of the breeding phases comes from a
      ready same-tile group or a ready distance-2 pair, its cooldown had elapsed in the state the call
      started from, no two share a (species, tile) key, each key now reads `step`, and no other key
      changes; every ready same-tile group whose cooldown had elapsed breeds. A species gets exactly one
      rescue, a primary consumer on the first shelter tile, iff it is due one and a shelter exists, and
      only the rescued species' rescue steps change. */
  function Reproduce(roster: seq<Organism>, gridSize: int, fw: FoodWeb, t: Terrain, st: ReproState, step: int, dice: Dice): (r: Offspring)
    requires gridSize >= 1
    ensures step % RESPAWN_PERIOD != 0 ==> r.producers == []
    ensures forall b :: b in r.producers ==> b.kind.Producer? && InGrid(b.pos, gridSize) && !Occupied(roster, b.pos) && !IsBlocked(t, b.pos.0, b.pos.1)
    ensures BredOk(roster, fw, t, st, step, r.bred, r.st)
    ensures forall b :: b in r.rescued ==>
              b.kind == Consumer(PRIMARY, DEFAULT_SPEED) && Some(b.pos) == FirstShelter(t.tiles) && RescueDue(roster, fw, st, step, b.species)
    ensures forall s :: CountOf(r.rescued, s) <= 1
    ensures forall s :: LastRescue(r.st, s) == (if CountOf(r.rescued, s) == 1 then step else LastRescue(st, s))
    ensures ProducersComplete(roster, gridSize, t, step, dice, r.producers)
    ensures forall p, s :: GroupReady(roster, fw, p, s) && step - LastRepro(st, s, p) >= Cooldown(GroupLevel(roster, p, s)) ==>
              GroupBirth(roster, p, s) in r.bred
    ensures forall s :: CountOf(r.rescued, s) == (if RescueDue(roster, fw, st, step, s) && FirstShelter(t.tiles).Some? then 1 else 0)
  {
    ReproduceSound(roster, gridSize, fw, t, st, step, dice);
    ReproduceComplete(roster, gridSize, fw, t, st, step, dice);
    ReproducePhases(roster, gridSize, fw, t, st, step, dice)
  }

  /** The phases of `reproduce` in the source's order. */
  function ReproducePhases(roster: seq<Organism>, gridSize: int, fw: FoodWeb, t: Terrain, st: ReproState, step: int, dice: Dice): Offspring
    requires gridSize >= 1
  {
    var producers := Respawn(roster, gridSize, t, step, dice);
    var tile := SameTileFrom(roster, fw, Groups(roster, LivePositions(roster)), Acc(st, []), step);
    var prox := Proximity(roster, fw, t, dice, step, tile);
    var rescue := RescueFrom(roster, fw, t, LiveSpecies(roster), prox.acc.st, step);
    Offspring(producers, prox.acc.births, rescue.1, rescue.0)
  }

  /** The breeding phases' promise about their births `bred` and the state `after` they leave. */
  ghost predicate BredOk(roster: seq<Organism>, fw: FoodWeb, t: Terrain, st: ReproState, step: int, bred: seq<Birth>, after: ReproState) {
    BredOkIn(roster, fw, t, Groups(roster, LivePositions(roster)), st, step, bred, after)
  }

  /** `BredOk` for same-tile births drawn from `groups`: every birth is a Consumer whose key now reads
      `step` and whose cooldown had elapsed; no two births share a key; every other key is untouched; and
      every birth comes from a ready group or a ready pair. */
  ghost predicate BredOkIn(roster: seq<Organism>, fw: FoodWeb, t: Terrain, groups: seq<(Pos, string)>, st: ReproState, step: int,
                           bred: seq<Birth>, after: ReproState) {
    && (forall b :: b in bred ==>
          b.kind.Consumer? && LastRepro(after, b.species, b.pos) == step
          && step - LastRepro(st, b.species, b.pos) >= Cooldown(b.kind.trophicLevel))
    && (forall k1, k2 :: 0 <= k1 < k2 < |bred| ==> Key(bred[k1]) != Key(bred[k2]))
    && (forall s, p :: (s, p) !in BirthKeys(bred) ==> LastRepro(after, s, p) == LastRepro(st, s, p))
    && (forall b :: b in bred ==>
          GroupBred(roster, fw, groups, b) || FromPair(roster, fw, t, b))
  }

  /** `b` is the offspring of a ready same-tile group. */
  ghost predicate FromGroup(roster: seq<Organism>, fw: FoodWeb, b: Birth) {
    GroupBred(roster, fw, Groups(roster, LivePositions(roster)), b)
  }

  /** `b` is the offspring of a ready distance-2 pair. */
  ghost predicate FromPair(roster: seq<Organism>, fw: FoodWeb, t: Terrain, b: Birth) {
    exists i, j :: 0 <= i < j < |roster| && PairReady(roster, fw, t, i, j) && b == PairBirth(roster, i, j)
  }

  lemma BredOkTransfer(roster: seq<Organism>, fw: FoodWeb, t: Terrain, groups: seq<(Pos, string)>, st: ReproState, step: int,
                       bred: seq<Birth>, a: ReproState, b: ReproState)
    requires BredOkIn(roster, fw, t, groups, st, step, bred, a) && a.lastRepro == b.lastRepro
    ensures BredOkIn(roster, fw, t, groups, st, step, bred, b)
  {
    assert forall s, p :: LastRepro(a, s, p) == LastRepro(b, s, p);
  }

  /** The same-tile phase over `groups` followed by the pair phase keeps the breeding promise. */
  lemma BredSound(roster: seq<Organism>, fw: FoodWeb, t: Terrain, groups: seq<(Pos, string)>, st: ReproState, step: int, dice: Dice)
    ensures var prox := Proximity(roster, fw, t, dice, step, SameTileFrom(roster, fw, groups, Acc(st, []), step));
            BredOkIn(roster, fw, t, groups, st, step, prox.acc.births, prox.acc.st)
  {
    var tile := SameTileFrom(roster, fw, groups, Acc(st, []), step);
    SameTileRecorded(st, roster, fw, groups, Acc(st, []), step);
    SameTileBirths(roster, fw, groups, Acc(st, []), step);
    var prox := Proximity(roster, fw, t, dice, step, tile);
    ProximityRecorded(st, roster, fw, t, dice, step, tile);
    forall k | 0 <= k < |tile.births| ensures GroupBred(roster, fw, groups, tile.births[k]) {
      assert |Acc(st, []).births| <= k;
    }
    BredFromGroupsOrPairs(roster, fw, t, groups, tile, prox);
    RecordedBredOk(roster, fw, t, groups, st, step, prox.acc);
  }

  /** Bookkeeping plus provenance is the breeding phases' promise. */
  lemma RecordedBredOk(roster: seq<Organism>, fw: FoodWeb, t: Terrain, groups: seq<(Pos, string)>, st: ReproState, step: int, acc: Acc)
    requires Recorded(st, acc, step)
    requires forall b :: b in acc.births ==> GroupBred(roster, fw, groups, b) || FromPair(roster, fw, t, b)
    ensures BredOkIn(roster, fw, t, groups, st, step, acc.births, acc.st)
  {
    forall b | b in acc.births ensures b.kind.Consumer? && LastRepro(acc.st, b.species, b.pos) == step
                                   && step - LastRepro(st, b.species, b.pos) >= Cooldown(b.kind.trophicLevel) {
      var k :| 0 <= k < |acc.births| && acc.births[k] == b;
    }
  }

  lemma ReproduceSound(roster: seq<Organism>, gridSize: int, fw: FoodWeb, t: Terrain, st: ReproState, step: int, dice: Dice)
    requires gridSize >= 1
    ensures var r := ReproducePhases(roster, gridSize, fw, t, st, step, dice);
      && BredOk(roster, fw, t, st, step, r.bred, r.st)
      && (forall b :: b in r.rescued ==> RescueDue(roster, fw, st, step, b.species))
      && (forall s :: CountOf(r.rescued, s) <= 1)
      && (forall s :: LastRescue(r.st, s) == (if CountOf(r.rescued, s) == 1 then step else LastRescue(st, s)))
  {
    var tile := SameTileFrom(roster, fw, Groups(roster, LivePositions(roster)), Acc(st, []), step);
    SameTileRecorded(st, roster, fw, Groups(roster, LivePositions(roster)), Acc(st, []), step);
    var prox := Proximity(roster, fw, t, dice, step, tile);
    ProximityRecorded(st, roster, fw, t, dice, step, tile);
    BredSound(roster, fw, t, Groups(roster, LivePositions(roster)), st, step, dice);
    var rescue := RescueFrom(roster, fw, t, LiveSpecies(roster), prox.acc.st, step);
    RescueSummary(roster, fw, t, st, prox.acc.st, step, rescue);
    BredOkTransfer(roster, fw, t, Groups(roster, LivePositions(roster)), st, step, prox.acc.births, prox.acc.st, rescue.0);
  }

  /** Every ready same-tile group whose cooldown has elapsed breeds, and every species due a rescue gets
      exactly one when a shelter exists. */
  lemma ReproduceComplete(roster: seq<Organism>, gridSize: int, fw: FoodWeb, t: Terrain, st: ReproState, step: int, dice: Dice)
    requires gridSize >= 1
    ensures var r := ReproducePhases(roster, gridSize, fw, t, st, step, dice);
      && (forall p, s :: GroupReady(roster, fw, p, s) && step - LastRepro(st, s, p) >= Cooldown(GroupLevel(roster, p, s)) ==>
            GroupBirth(roster, p, s) in r.bred)
      && (forall s :: CountOf(r.rescued, s) == (if RescueDue(roster, fw, st, step, s) && FirstShelter(t.tiles).Some? then 1 else 0))
  {
    var groups := Groups(roster, LivePositions(roster));
    var tile := SameTileFrom(roster, fw, groups, Acc(st, []), step);
    var prox := Proximity(roster, fw, t, dice, step, tile);
    forall p, s | GroupReady(roster, fw, p, s) && step - LastRepro(st, s, p) >= Cooldown(GroupLevel(roster, p, s))
      ensures GroupBirth(roster, p, s) in prox.acc.births
    {
      GroupBreeds(roster, fw, t, st, step, dice, p, s);
    }
    SameTileRecorded(st, roster, fw, groups, Acc(st, []), step);
    ProximityRecorded(st, roster, fw, t, dice, step, tile);
    RescueComplete(roster, fw, t, st, prox.acc.st, step);
  }

  /** One ready group with an elapsed cooldown: its birth survives the pair phase. */
  lemma GroupBreeds(roster: seq<Organism>, fw: FoodWeb, t: Terrain, st: ReproState, step: int, dice: Dice, p: Pos, s: string)
    requires GroupReady(roster, fw, p, s) && step - LastRepro(st, s, p) >= Cooldown(GroupLevel(roster, p, s))
    ensures var tile := SameTileFrom(roster, fw, Groups(roster, LivePositions(roster)), Acc(st, []), step);
            GroupBirth(roster, p, s) in Proximity(roster, fw, t, dice, step, tile).acc.births
  {
    var tile := SameTileFrom(roster, fw, Groups(roster, LivePositions(roster)), Acc(st, []), step);
    var prox := Proximity(roster, fw, t, dice, step, tile);
    GroupsCover(roster, p, s);
    assert GroupBirth(roster, p, s) in tile.births;
    var k :| 0 <= k < |tile.births| && tile.births[k] == GroupBirth(roster, p, s);
    assert prox.acc.births[k] == prox.acc.births[..|tile.births|][k];
  }

  /** The rescue loop over the live species, started from a state with the call's rescue steps, rescues
      exactly the species due one, when a shelter exists. */
  lemma RescueComplete(roster: seq<Organism>, fw: FoodWeb, t: Terrain, st0: ReproState, st: ReproState, step: int)
    requires st.lastRescue == st0.lastRescue
    ensures forall s :: CountOf(RescueFrom(roster, fw, t, LiveSpecies(roster), st, step).1, s)
                          == (if RescueDue(roster, fw, st0, step, s) && FirstShelter(t.tiles).Some? then 1 else 0)
  {
    forall s ensures CountOf(RescueFrom(roster, fw, t, LiveSpecies(roster), st, step).1, s)
                     == (if RescueDue(roster, fw, st0, step, s) && FirstShelter(t.tiles).Some? then 1 else 0) {
      RescueOutcome(roster, fw, t, LiveSpecies(roster), st, step, s);
      assert LastRescue(st, s) == LastRescue(st0, s);
      if RescueDue(roster, fw, st0, step, s) {
        LiveSpeciesHas(roster, s);
      }
    }
  }

  /** A species with a living member is among the live species. */
  lemma LiveSpeciesHas(roster: seq<Organism>, s: string)
    requires LiveCount(roster, s) > 0
    ensures s in LiveSpecies(roster)
  {
    var k := LiveWitness(roster, s);
    var living := Filter(roster, (o: Organism) => o.alive);
    assert roster[k] in living;
    var m :| 0 <= m < |living| && living[m] == roster[k];
    var names := seq(|living|, k requires 0 <= k < |living| => living[k].species);
    assert names[m] == s;
  }

  lemma {:induction false} LiveWitness(roster: seq<Organism>, s: string) returns (k: nat)
    requires LiveCount(roster, s) > 0
    ensures k < |roster| && roster[k].alive && roster[k].species == s
  {
    if roster[0].alive && roster[0].species == s {
      k := 0;
    } else {
      var k' := LiveWitness(roster[1..], s);
      k := k' + 1;
    }
  }

  lemma ProximityRecorded(st0: ReproState, roster: seq<Organism>, fw: FoodWeb, t: Terrain, dice: Dice, step: int, acc: Acc)
    requires Recorded(st0, acc, step)
    ensures Recorded(st0, Proximity(roster, fw, t, dice, step, acc).acc, step)
  {
    PairFromRecorded(st0, roster, fw, t, dice, step, ConsumerIndices(roster, 0), 0, Pairing(acc, [], {}));
  }

  lemma BredFromGroupsOrPairs(roster: seq<Organism>, fw: FoodWeb, t: Terrain, groups: seq<(Pos, string)>, tile: Acc, prox: Pairing)
    requires forall k :: 0 <= k < |tile.births| ==> GroupBred(roster, fw, groups, tile.births[k])
    requires PairsOk(roster, fw, t, |tile.births|, prox) && prox.acc.births[..|tile.births|] == tile.births
    ensures forall b :: b in prox.acc.births ==> GroupBred(roster, fw, groups, b) || FromPair(roster, fw, t, b)
  {
    forall b | b in prox.acc.births
      ensures GroupBred(roster, fw, groups, b) || FromPair(roster, fw, t, b)
    {
      var k :| 0 <= k < |prox.acc.births| && prox.acc.births[k] == b;
      if k < |tile.births| {
        assert prox.acc.births[..|tile.births|][k] == b;
      } else {
        var n := k - |tile.births|;
        assert prox.acc.births[|tile.births| + n] == PairBirth(roster, prox.pairs[n].0, prox.pairs[n].1);
      }
    }
  }

  lemma RescueSummary(roster: seq<Organism>, fw: FoodWeb, t: Terrain, st0: ReproState, st: ReproState, step: int,
                      rescue: (ReproState, seq<Birth>))
    requires st.lastRescue == st0.lastRescue
    requires rescue == RescueFrom(roster, fw, t, LiveSpecies(roster), st, step)
    ensures forall b :: b in rescue.1 ==> RescueDue(roster, fw, st0, step, b.species)
    ensures forall s :: CountOf(rescue.1, s) <= 1
    ensures forall s :: LastRescue(rescue.0, s) == (if CountOf(rescue.1, s) == 1 then step else LastRescue(st0, s))
  {
    forall s ensures CountOf(rescue.1, s) <= 1 && LastRescue(rescue.0, s) == (if CountOf(rescue.1, s) == 1 then step else LastRescue(st0, s)) {
      RescueOutcome(roster, fw, t, LiveSpecies(roster), st, step, s);
    }
    forall b | b in rescue.1 ensures RescueDue(roster, fw, st0, step, b.species) {
      RescueOutcome(roster, fw, t, LiveSpecies(roster), st, step, b.species);
      CountOfPositive(rescue.1, b);
    }
  }

  lemma {:induction false} CountOfPositive(bs: seq<Birth>, b: Birth)
    requires b in bs
    ensures CountOf(bs, b.species) >= 1
  {
    if bs[0] != b {
      CountOfPositive(bs[1..], b);
    }
  }
}

=== FILE: seqs.dfy ===
/** Sequence helpers: order-preserving filtering and first-occurrence deduplication. */
module Seqs {

  predicate NoDup<T(==)>(s: seq<T>) {
    forall i, j :: 0 <= i < j < |s| ==> s[i] != s[j]
  }

  /** `[x for x in s if f(x)]`, in the order of `s`. */
  function Filter<T(!new)>(s: seq<T>, f: T -> bool): (r: seq<T>)
    ensures |r| <= |s|
    ensures forall x :: x in r <==> x in s && f(x)
  {
    if |s| == 0 then []
    else (if f(s[0]) then [s[0]] else []) + Filter(s[1..], f)
  }

  /** The elements of `s`, each once, in order of first occurrence: the key order of a Python dict
      or `Counter` filled from `s`. */
  function Dedup<T(==,!new)>(s: seq<T>): (r: seq<T>)
    ensures forall x :: x in r <==> x in s
    ensures NoDup(r)
    ensures |r| <= |s|
  {
    if |s| == 0 then []
    else
      var r := Dedup(s[..|s| - 1]);
      assert s == s[..|s| - 1] + [s[|s| - 1]];
      if s[|s| - 1] in r then r else r + [s[|s| - 1]]
  }

  /** Dropping the head of a duplicate-free sequence keeps it duplicate-free and loses the head. */
  lemma NoDupTail<T>(s: seq<T>)
    requires |s| > 0
    ensures NoDup(s) ==> s[0] !in s[1..] && NoDup(s[1..])
  {
    if NoDup(s) {
      forall j | 0 <= j < |s| - 1 ensures s[1..][j] != s[0] {
        assert s[1..][j] == s[j + 1];
      }
    }
  }

  /** Filtering distributes over concatenation. */
  lemma {:induction false} FilterAppend<T(!new)>(a: seq<T>, b: seq<T>, f: T -> bool)
    decreases |a|
    ensures Filter(a + b, f) == Filter(a, f) + Filter(b, f)
  {
    if |a| > 0 {
      assert (a + b)[1..] == a[1..] + b;
      FilterAppend(a[1..], b, f);
    } else {
      assert a + b == b;
    }
  }

  /** An element the filter rejects can be dropped from between two sequences without changing the
      filtered result. */
  lemma {:induction false} FilterSkip<T(!new)>(a: seq<T>, d: T, b: seq<T>, f: T -> bool)
    requires !f(d)
    decreases |a|
    ensures Filter(a + b, f) == Filter((a + [d]) + b, f)
  {
    if |a| == 0 {
      assert a + b == b;
      assert ((a + [d]) + b)[1..] == b;
    } else {
      assert (a + b)[1..] == a[1..] + b;
      assert ((a + [d]) + b)[1..] == (a[1..] + [d]) + b;
      FilterSkip(a[1..], d, b, f);
    }
  }
}

=== FILE: terrain.dfy ===
/** The terrain grid: a sparse, insertion-ordered map from tile to terrain type, the type queries, and
    the manual rectangle stamping of the configuration (the JSON reading itself is not modelled). */
module Terrains {
  import opened Wrappers
  import opened Grid
  import opened OrderedMap

  const PLAIN := "plain"
  const WATER := "water"
  const TREE := "tree"
  const HILL := "hill"
  const SHELTER := "shelter"

  /** `tiles` holds the explicitly set tiles in insertion order (a missing tile is plain);
      `waterCounters` and `shelterCounters` are keyed by (tile, organism id), a missing entry reading 0. */
  datatype Terrain = Terrain(
    gridSize: int,
    tiles: Dict<Pos, string>,
    waterCounters: map<(Pos, int), int>,
    shelterCounters: map<(Pos, int), int>)

  /** `Terrain(grid_size)`: every tile plain, no counters. */
  function NewTerrain(gridSize: int): (t: Terrain)
    ensures forall x, y :: GetType(t, x, y) == PLAIN
    ensures t.gridSize == gridSize && Valid(t)
    ensures t.waterCounters == map[] && t.shelterCounters == map[]
  {
    Terrain(gridSize, [], map[], map[])
  }

  /** Distinct tile keys, every stored tile inside the grid. */
  predicate Valid(t: Terrain) {
    && DistinctKeys(t.tiles)
    && forall i :: 0 <= i < |t.tiles| ==> InGrid(t.tiles[i].0, t.gridSize)
  }

  /** `get_type`: the stored type of the tile, "plain" for a tile never written. */
  function GetType(t: Terrain, x: int, y: int): (r: string)
    ensures !HasKey(t.tiles, (x, y)) ==> r == PLAIN
    ensures HasKey(t.tiles, (x, y)) ==> ((x, y), r) in t.tiles
  {
    Get(t.tiles, (x, y)).GetOr(PLAIN)
  }

  /** `is_blocked`: trees block movement. */
  predicate IsBlocked(t: Terrain, x: int, y: int) {
    Get(t.tiles, (x, y)) == Some(TREE)
  }

  /** `is_shelter`; `is_in_shelter` is the same test under a second name. */
  predicate IsShelter(t: Terrain, x: int, y: int) {
    Get(t.tiles, (x, y)) == Some(SHELTER)
  }

  predicate IsHill(t: Terrain, x: int, y: int) {
    Get(t.tiles, (x, y)) == Some(HILL)
  }

  predicate IsWater(t: Terrain, x: int, y: int) {
    Get(t.tiles, (x, y)) == Some(WATER)
  }

  /** The predicates read the stored entry directly, yet each agrees with the classification. */
  lemma TypePredicates(t: Terrain, x: int, y: int)
    ensures IsBlocked(t, x, y) <==> GetType(t, x, y) == TREE
    ensures IsShelter(t, x, y) <==> GetType(t, x, y) == SHELTER
    ensures IsHill(t, x, y) <==> GetType(t, x, y) == HILL
    ensures IsWater(t, x, y) <==> GetType(t, x, y) == WATER
  {
  }

  /** One `terrain_objects` entry, with `width` and `height` already defaulted to 1 when absent. */
  datatype TerrainObject = TerrainObject(kind: string, x: int, y: int, width: int, height: int)

  predicate Covers(o: TerrainObject, x: int, y: int) {
    o.x <= x < o.x + o.width && o.y <= y < o.y + o.height
  }

  /** `map[p] = kind`: only tile `p` changes type, the map gains at most one entry, and an in-grid tile
      keeps the map well formed. */
  function SetTile(t: Terrain, p: Pos, kind: string): (r: Terrain)
    ensures r == t.(tiles := r.tiles)
    ensures forall x, y :: GetType(r, x, y) == if (x, y) == p then kind else GetType(t, x, y)
    ensures InGrid(p, t.gridSize) && Valid(t) ==> Valid(r)
    ensures |r.tiles| <= |t.tiles| + 1
  {
    var r := t.(tiles := Put(t.tiles, p, kind));
    assert forall x, y :: GetType(r, x, y) == if (x, y) == p then kind else GetType(t, x, y) by {
      forall x, y ensures GetType(r, x, y) == if (x, y) == p then kind else GetType(t, x, y) {
        SetTileType(t, p, kind, x, y);
      }
    }
    SetTileValid(t, p, kind);
    r
  }

  lemma SetTileType(t: Terrain, p: Pos, kind: string, x: int, y: int)
    ensures GetType(t.(tiles := Put(t.tiles, p, kind)), x, y) == if (x, y) == p then kind else GetType(t, x, y)
  {
  }

  lemma SetTileValid(t: Terrain, p: Pos, kind: string)
    ensures InGrid(p, t.gridSize) && Valid(t) ==> Valid(t.(tiles := Put(t.tiles, p, kind)))
  {
    var tiles := Put(t.tiles, p, kind);
    if InGrid(p, t.gridSize) && Valid(t) {
      forall i | 0 <= i < |tiles| ensures InGrid(tiles[i].0, t.gridSize) {
        if i < |t.tiles| { assert tiles[i].0 == t.tiles[i].0; }
        else { assert tiles == t.tiles + [(p, kind)]; }
      }
    }
  }

  /** Sets one tile when it lies inside the grid. */
  function StampTile(t: Terrain, x0: int, y0: int, kind: string): (r: Terrain)
    ensures r.gridSize == t.gridSize && r.waterCounters == t.waterCounters && r.shelterCounters == t.shelterCounters
    ensures Valid(t) ==> Valid(r)
    ensures forall x, y :: GetType(r, x, y) == (if x == x0 && y == y0 && InGrid((x, y), t.gridSize) then kind else GetType(t, x, y))
  {
    if InGrid((x0, y0), t.gridSize) then SetTile(t, (x0, y0), kind) else t
  }

  /** The inner loop of the stamping (`for dy in range(height)`) for the column `o.x + dx`. */
  function StampColumn(t: Terrain, o: TerrainObject, dx: int, dy: nat): (r: Terrain)
    decreases o.height - dy
    ensures r.gridSize == t.gridSize && r.waterCounters == t.waterCounters && r.shelterCounters == t.shelterCounters
    ensures Valid(t) ==> Valid(r)
    ensures forall x, y :: GetType(r, x, y) == (if x == o.x + dx && o.y + dy <= y < o.y + o.height && InGrid((x, y), t.gridSize) then o.kind else GetType(t, x, y))
  {
    if dy >= o.height then t
    else
      var t1 := StampTile(t, o.x + dx, o.y + dy, o.kind);
      var r := StampColumn(t1, o, dx, dy + 1);
      assert forall x, y :: GetType(r, x, y) == (if x == o.x + dx && o.y + dy <= y < o.y + o.height && InGrid((x, y), t.gridSize) then o.kind else GetType(t, x, y)) by {
        forall x, y
          ensures GetType(r, x, y) == (if x == o.x + dx && o.y + dy <= y < o.y + o.height && InGrid((x, y), t.gridSize) then o.kind else GetType(t, x, y))
        {
          assert GetType(t1, x, y) == (if x == o.x + dx && y == o.y + dy && InGrid((x, y), t.gridSize) then o.kind else GetType(t, x, y));
        }
      }
      r
  }

  /** The outer loop (`for dx in range(width)`), from column `dx` on. */
  function StampColumns(t: Terrain, o: TerrainObject, dx: nat): (r: Terrain)
    decreases o.width - dx
    ensures r.gridSize == t.gridSize && r.waterCounters == t.waterCounters && r.shelterCounters == t.shelterCounters
    ensures Valid(t) ==> Valid(r)
    ensures forall x, y :: GetType(r, x, y) == (if o.x + dx <= x < o.x + o.width && o.y <= y < o.y + o.height && InGrid((x, y), t.gridSize) then o.kind else GetType(t, x, y))
  {
    if dx >= o.width then t
    else StampColumns(StampColumn(t, o, dx, 0), o, dx + 1)
  }

  /** One manual rectangle: every in-grid tile it covers gets its type, nothing else changes, and no
      tile outside the grid is ever stored. */
  function StampRect(t: Terrain, o: TerrainObject): (r: Terrain)
    ensures r.gridSize == t.gridSize && r.waterCounters == t.waterCounters && r.shelterCounters == t.shelterCounters
    ensures Valid(t) ==> Valid(r)
    ensures forall x, y :: GetType(r, x, y) == (if Covers(o, x, y) && InGrid((x, y), t.gridSize) then o.kind else GetType(t, x, y))
  {
    StampColumns(t, o, 0)
  }

  /** The type the last object covering an in-grid tile declares, if any object covers it
      (an independent statement of "later rectangles overwrite earlier ones"). */
  function LastCover(objs: seq<TerrainObject>, x: int, y: int, gridSize: int): Option<string> {
    if |objs| == 0 then None else if Covers(objs[|objs| - 1], x, y) && InGrid((x, y), gridSize) then Some(objs[|objs| - 1].kind)
    else LastCover(objs[..|objs| - 1], x, y, gridSize)
  }

  /** Manual mode of `load_from_config`: the objects are stamped in list order. Every tile ends with the
      type of the last object covering it, or keeps its type when none does. */
  function LoadManual(t: Terrain, objs: seq<TerrainObject>): (r: Terrain)
    ensures r.gridSize == t.gridSize && r.waterCounters == t.waterCounters && r.shelterCounters == t.shelterCounters
    ensures Valid(t) ==> Valid(r)
    ensures forall x, y :: GetType(r, x, y) == LastCover(objs, x, y, t.gridSize).GetOr(GetType(t, x, y))
  {
    if |objs| == 0 then t
    else StampRect(LoadManual(t, objs[..|objs| - 1]), objs[|objs| - 1])
  }

  /** Round trip of a manual configuration loaded into a fresh terrain: a tile whose last covering object
      is `objs[i]` reads back as that object's type, and a tile no object covers reads back as plain. */
  lemma {:induction false} ManualRoundTrip(gridSize: int, objs: seq<TerrainObject>, x: int, y: int)
    ensures LastCover(objs, x, y, gridSize).None? ==> GetType(LoadManual(NewTerrain(gridSize), objs), x, y) == PLAIN
    ensures forall i :: 0 <= i < |objs| && Covers(objs[i], x, y) && InGrid((x, y), gridSize)
                        && (forall j :: i < j < |objs| ==> !Covers(objs[j], x, y))
                        ==> GetType(LoadManual(NewTerrain(gridSize), objs), x, y) == objs[i].kind
  {
    forall i | 0 <= i < |objs| && Covers(objs[i], x, y) && InGrid((x, y), gridSize)
               && (forall j :: i < j < |objs| ==> !Covers(objs[j], x, y))
      ensures LastCover(objs, x, y, gridSize) == Some(objs[i].kind)
    {
      LastCoverIsLast(objs, i, x, y, gridSize);
    }
  }

  lemma {:induction false} LastCoverIsLast(objs: seq<TerrainObject>, i: int, x: int, y: int, gridSize: int)
    requires 0 <= i < |objs| && Covers(objs[i], x, y) && InGrid((x, y), gridSize)
    requires forall j :: i < j < |objs| ==> !Covers(objs[j], x, y)
    ensures LastCover(objs, x, y, gridSize) == Some(objs[i].kind)
  {
    if i < |objs| - 1 {
      var pre := objs[..|objs| - 1];
      assert forall j :: i < j < |pre| ==> pre[j] == objs[j];
      LastCoverIsLast(pre, i, x, y, gridSize);
    }
  }
}

=== FILE: terrain_effects.dfy ===
/** The two per-step terrain effects: the periodic water energy grant and the shelter rule. */
module TerrainEffects {
  import opened Wrappers
  import opened Grid
  import opened Terrains
  import opened Organisms

  const WATER_PERIOD := 10
  const WATER_BONUS := 5
  const WATER_GRANTS_PER_TILE := 2

  /** The eight neighbour offsets in the source's order: dx outer, dy inner, the centre skipped. */
  const NEIGHBOURS: seq<(int, int)> := [(-1, -1), (-1, 0), (-1, 1), (0, -1), (0, 1), (1, -1), (1, 0), (1, 1)]

  predicate Adjacent(a: Pos, b: Pos) {
    a != b && Abs(a.0 - b.0) <= 1 && Abs(a.1 - b.1) <= 1
  }

  function Neighbour(p: Pos, j: nat): (q: Pos)
    requires j < 8
    ensures Adjacent(p, q)
  {
    (p.0 + NEIGHBOURS[j].0, p.1 + NEIGHBOURS[j].1)
  }

  lemma AdjacentIsNeighbour(p: Pos, q: Pos)
    requires Adjacent(p, q)
    ensures exists j :: 0 <= j < 8 && q == Neighbour(p, j)
  {
    var dx, dy := q.0 - p.0, q.1 - p.1;
    var j := if dx == -1 then (if dy == -1 then 0 else if dy == 0 then 1 else 2)
             else if dx == 0 then (if dy == -1 then 3 else 4)
             else (if dy == -1 then 5 else if dy == 0 then 6 else 7);
    assert q == Neighbour(p, j);
  }

  /** `water_counters[tile][id(org)]`, 0 when absent. */
  function WaterCount(t: Terrain, p: Pos, id: int): int {
    if (p, id) in t.waterCounters then t.waterCounters[(p, id)] else 0
  }

  /** Every water counter lies in `[0, 2]`. */
  predicate WaterCountersCapped(t: Terrain) {
    forall k :: k in t.waterCounters ==> 0 <= t.waterCounters[k] <= WATER_GRANTS_PER_TILE
  }

  /** A tile that can still grant water to `o`: an in-grid neighbour holding water whose counter for `o`
      is below 2. */
  predicate Eligible(t: Terrain, o: Organism, p: Pos) {
    Adjacent(o.Pos(), p) && InGrid(p, t.gridSize) && IsWater(t, p.0, p.1) && WaterCount(t, p, o.id) < WATER_GRANTS_PER_TILE
  }

  /** The tile that grants: the first eligible neighbour in the source's order, from neighbour `k` on. */
  function GrantTile(t: Terrain, o: Organism, k: nat): (p: Option<Pos>)
    requires k <= 8
    decreases 8 - k
    ensures p.Some? ==> Eligible(t, o, p.value)
    ensures p.Some? ==> exists j :: k <= j < 8 && p.value == Neighbour(o.Pos(), j)
                                    && forall i :: k <= i < j ==> !Eligible(t, o, Neighbour(o.Pos(), i))
    ensures p.None? ==> forall j :: k <= j < 8 ==> !Eligible(t, o, Neighbour(o.Pos(), j))
  {
    if k == 8 then None
    else
      var q := Neighbour(o.Pos(), k);
      if Eligible(t, o, q) then Some(q) else GrantTile(t, o, k + 1)
  }

  /** Some tile grants exactly when some neighbour is eligible. */
  lemma GrantTileComplete(t: Terrain, o: Organism)
    ensures GrantTile(t, o, 0).Some? <==> exists q :: Eligible(t, o, q)
  {
    if q :| Eligible(t, o, q) {
      AdjacentIsNeighbour(o.Pos(), q);
    }
  }

  /** The organisms the water rule applies to on this step. */
  predicate WaterActive(o: Organism, step: nat) {
    step % WATER_PERIOD == 0 && o.alive && !o.kind.Producer?
  }

  /** `apply_terrain_effects`: on every 10th step a living non-producer next to an eligible water tile
      gains 5 energy (capped at its maximum) from the first such tile, whose counter for it goes up by
      exactly one; in every other case nothing changes. Only the energy and that one counter change. */
  function ApplyWaterEffect(t: Terrain, o: Organism, step: nat): (res: (Terrain, Organism))
    ensures res.0 == t.(waterCounters := res.0.waterCounters)
    ensures res.1 == o.(energy := res.1.energy)
    ensures !WaterActive(o, step) || GrantTile(t, o, 0).None? ==> res == (t, o)
    ensures WaterActive(o, step) && GrantTile(t, o, 0).Some? ==>
      var p := GrantTile(t, o, 0).value;
      && res.1.energy == Min(o.maxEnergy, o.energy + WATER_BONUS)
      && res.0.waterCounters == t.waterCounters[(p, o.id) := WaterCount(t, p, o.id) + 1]
    ensures WaterCountersCapped(t) ==> WaterCountersCapped(res.0)
    ensures EnergyCapped(o) ==> EnergyCapped(res.1)
  {
    if !WaterActive(o, step) then (t, o)
    else
      match GrantTile(t, o, 0)
      case None => (t, o)
      case Some(p) =>
        var c := WaterCount(t, p, o.id);
        assert c < WATER_GRANTS_PER_TILE;
        var counters := t.waterCounters[(p, o.id) := c + 1];
        assert WaterCountersCapped(t) ==> WaterCountersCapped(t.(waterCounters := counters)) by {
          if WaterCountersCapped(t) {
            forall key | key in counters ensures 0 <= counters[key] <= WATER_GRANTS_PER_TILE {
              if key != (p, o.id) { assert counters[key] == t.waterCounters[key]; }
            }
          }
        }
        (t.(waterCounters := counters), o.(energy := Min(o.maxEnergy, o.energy + WATER_BONUS)))
  }

  const SHELTER_TRIES := 20
  const SHELTER_LIMIT := 3

  /** `shelter_occupants[tile][id(org)]`, 0 when absent. */
  function ShelterCount(t: Terrain, p: Pos, id: int): int {
    if (p, id) in t.shelterCounters then t.shelterCounters[(p, id)] else 0
  }

  /** The tile the `k`-th eviction attempt draws. */
  function EvictionAttempt(t: Terrain, draw: nat -> (nat, nat), k: nat): Pos
    requires t.gridSize >= 1
  {
    (RandInt(0, t.gridSize - 1, draw(k).0), RandInt(0, t.gridSize - 1, draw(k).1))
  }

  predicate FreeOfShelter(t: Terrain, p: Pos) {
    !IsShelter(t, p.0, p.1) && !IsBlocked(t, p.0, p.1)
  }

  /** Where an evicted organism goes: the first of the 20 attempts that is neither shelter nor tree. */
  function EvictionTile(t: Terrain, draw: nat -> (nat, nat), k: nat): (p: Option<Pos>)
    requires t.gridSize >= 1
    decreases SHELTER_TRIES - k
    ensures p.Some? ==> InGrid(p.value, t.gridSize) && FreeOfShelter(t, p.value)
    ensures p.None? ==> forall j :: k <= j < SHELTER_TRIES ==> !FreeOfShelter(t, EvictionAttempt(t, draw, j))
  {
    if k >= SHELTER_TRIES then None
    else
      var a := EvictionAttempt(t, draw, k);
      if FreeOfShelter(t, a) then Some(a) else EvictionTile(t, draw, k + 1)
  }

  /** `can_enter_shelter`: standing on a shelter as a primary consumer. */
  predicate CanEnterShelter(t: Terrain, o: Organism) {
    IsShelter(t, o.x, o.y) && o.IsPrimary()
  }

  /** Leaves every counter whose organism is not `id` as it was. */
  ghost predicate OtherCountersKept(before: map<(Pos, int), int>, after: map<(Pos, int), int>, id: int) {
    forall k: (Pos, int) :: k.1 != id ==> (k in after <==> k in before) && (k in before ==> after[k] == before[k])
  }

  /** One iteration of `update_shelters`, for organism `o`.
      A non-primary on a shelter (producers included) is moved to a tile that is neither shelter nor tree,
      or stays when all 20 attempts fail; its counters are not touched.
      A primary on a shelter stays, its counter for that tile goes up by exactly one, and it dies once
      the counter exceeds 3.
      Anyone else loses its counters on every tile. */
  function UpdateShelterOne(t: Terrain, o: Organism, draw: nat -> (nat, nat)): (res: (Terrain, Organism))
    requires t.gridSize >= 1
    ensures res.0 == t.(shelterCounters := res.0.shelterCounters)
    ensures res.1 == o.(x := res.1.x, y := res.1.y, alive := res.1.alive)
    ensures res.1.alive ==> o.alive
    ensures OtherCountersKept(t.shelterCounters, res.0.shelterCounters, o.id)
    ensures IsShelter(t, o.x, o.y) && !o.IsPrimary() ==>
      && res.0 == t
      && res.1.alive == o.alive
      && (res.1.Pos() == o.Pos() || (InGrid(res.1.Pos(), t.gridSize) && FreeOfShelter(t, res.1.Pos())))
      && (EvictionTile(t, draw, 0).None? ==> res.1 == o)
    ensures CanEnterShelter(t, o) ==>
      && res.1.Pos() == o.Pos()
      && res.0.shelterCounters == t.shelterCounters[(o.Pos(), o.id) := ShelterCount(t, o.Pos(), o.id) + 1]
      && (res.1.alive <==> o.alive && ShelterCount(t, o.Pos(), o.id) + 1 <= SHELTER_LIMIT)
    ensures !IsShelter(t, o.x, o.y) ==>
      && res.1 == o
      && forall k :: k in res.0.shelterCounters <==> k in t.shelterCounters && k.1 != o.id
  {
    if IsShelter(t, o.x, o.y) && !o.IsPrimary() then
      match EvictionTile(t, draw, 0)
      case None => (t, o)
      case Some(p) => (t, o.(x := p.0, y := p.1))
    else if IsShelter(t, o.x, o.y) then
      var c := ShelterCount(t, o.Pos(), o.id) + 1;
      (t.(shelterCounters := t.shelterCounters[(o.Pos(), o.id) := c]),
       if c > SHELTER_LIMIT then o.(alive := false) else o)
    else
      (t.(shelterCounters := map k | k in t.shelterCounters && k.1 != o.id :: t.shelterCounters[k]), o)
  }

  /** A primary consumer that enters a shelter tile with no count there survives three consecutive shelter
      updates and dies on the fourth, whatever the draws. */
  lemma {:induction false} FourthShelterStepKills(t0: Terrain, o0: Organism, d: nat -> (nat, nat))
    requires t0.gridSize >= 1 && CanEnterShelter(t0, o0) && o0.alive
    requires ShelterCount(t0, o0.Pos(), o0.id) == 0
    ensures var (t1, o1) := UpdateShelterOne(t0, o0, d);
            var (t2, o2) := UpdateShelterOne(t1, o1, d);
            var (t3, o3) := UpdateShelterOne(t2, o2, d);
            var (t4, o4) := UpdateShelterOne(t3, o3, d);
            o3.alive && !o4.alive
  {
    var (t1, o1) := UpdateShelterOne(t0, o0, d);
    assert ShelterCount(t1, o0.Pos(), o0.id) == 1 && CanEnterShelter(t1, o1);
    var (t2, o2) := UpdateShelterOne(t1, o1, d);
    assert ShelterCount(t2, o0.Pos(), o0.id) == 2 && CanEnterShelter(t2, o2);
    var (t3, o3) := UpdateShelterOne(t2, o2, d);
    assert ShelterCount(t3, o0.Pos(), o0.id) == 3 && CanEnterShelter(t3, o3);
  }

  /** What one shelter update does to one organism, as far as the map's tiles decide it: only the position
      and liveness can change, nobody is revived, an organism off the shelters is untouched, an evicted one
      keeps its liveness and lands on a tile free of shelter and tree (or stays put), and a primary on a
      shelter is never moved. */
  predicate ShelterOutcome(t: Terrain, before: Organism, after: Organism) {
    && after == before.(x := after.x, y := after.y, alive := after.alive)
    && (after.alive ==> before.alive)
    && (!IsShelter(t, before.x, before.y) ==> after == before)
    && (IsShelter(t, before.x, before.y) && !before.IsPrimary() ==>
          && after.alive == before.alive
          && (after.Pos() == before.Pos() || (InGrid(after.Pos(), t.gridSize) && FreeOfShelter(t, after.Pos()))))
    && (CanEnterShelter(t, before) ==> after.Pos() == before.Pos())
  }

  lemma ShelterOutcomeOne(t: Terrain, o: Organism, draw: nat -> (nat, nat))
    requires t.gridSize >= 1
    ensures ShelterOutcome(t, o, UpdateShelterOne(t, o, draw).1)
  {
  }

  /** `update_shelters`: the rule above applied to the roster in order, from index `k` on. */
  function UpdateSheltersFrom(t: Terrain, roster: seq<Organism>, draws: (nat, nat) -> (nat, nat), k: nat): (res: (Terrain, seq<Organism>))
    requires t.gridSize >= 1 && k <= |roster|
    decreases |roster| - k
    ensures res.0 == t.(shelterCounters := res.0.shelterCounters)
    ensures |res.1| == |roster| && res.1[..k] == roster[..k]
  {
    if k == |roster| then (t, roster)
    else
      var one := UpdateShelterOne(t, roster[k], j => draws(k, j));
      var roster1 := roster[k := one.1];
      var res := UpdateSheltersFrom(one.0, roster1, draws, k + 1);
      assert roster1[..k] == roster[..k];
      assert res.1[..k] == res.1[..k + 1][..k];
      res
  }

  /** `update_shelters` over the whole roster. */
  function UpdateShelters(t: Terrain, roster: seq<Organism>, draws: (nat, nat) -> (nat, nat)): (res: (Terrain, seq<Organism>))
    requires t.gridSize >= 1
    ensures res.0 == t.(shelterCounters := res.0.shelterCounters)
    ensures |res.1| == |roster|
    ensures forall i :: 0 <= i < |roster| ==> ShelterOutcome(t, roster[i], res.1[i])
  {
    ShelterFoldOutcome(t, roster, draws, 0);
    UpdateSheltersFrom(t, roster, draws, 0)
  }

  /** Every organism from index `k` on ends as its own shelter update leaves it. */
  lemma {:induction false} ShelterFoldOutcome(t: Terrain, roster: seq<Organism>, draws: (nat, nat) -> (nat, nat), k: nat)
    requires t.gridSize >= 1 && k <= |roster|
    decreases |roster| - k
    ensures forall i :: k <= i < |roster| ==> ShelterOutcome(t, roster[i], UpdateSheltersFrom(t, roster, draws, k).1[i])
  {
    if k < |roster| {
      var (t1, o1) := UpdateShelterOne(t, roster[k], j => draws(k, j));
      ShelterOutcomeOne(t, roster[k], j => draws(k, j));
      var roster1 := roster[k := o1];
      ShelterFoldOutcome(t1, roster1, draws, k + 1);
      var res := UpdateSheltersFrom(t1, roster1, draws, k + 1);
      assert res == UpdateSheltersFrom(t, roster, draws, k);
      assert res.1[k] == res.1[..k + 1][k] == roster1[k] == o1;
      forall i | k < i < |roster|
        ensures ShelterOutcome(t, roster[i], res.1[i])
      {
        assert roster1[i] == roster[i];
        assert ShelterOutcome(t1, roster1[i], res.1[i]);
      }
    }
  }

  /** The fold leaves alone every counter of an organism it does not visit. */
  lemma {:induction false} ShelterFoldFrame(t: Terrain, roster: seq<Organism>, draws: (nat, nat) -> (nat, nat), k: nat, id: int)
    requires t.gridSize >= 1 && k <= |roster|
    requires forall i :: k <= i < |roster| ==> roster[i].id != id
    decreases |roster| - k
    ensures OtherCountersKeptFor(t.shelterCounters, UpdateSheltersFrom(t, roster, draws, k).0.shelterCounters, id)
  {
    if k < |roster| {
      var (t1, o1) := UpdateShelterOne(t, roster[k], j => draws(k, j));
      var roster1 := roster[k := o1];
      assert forall i :: k + 1 <= i < |roster| ==> roster1[i] == roster[i];
      ShelterFoldFrame(t1, roster1, draws, k + 1, id);
    }
  }

  /** Every counter of organism `id` is the same in `before` and `after`. */
  ghost predicate OtherCountersKeptFor(before: map<(Pos, int), int>, after: map<(Pos, int), int>, id: int) {
    forall k: (Pos, int) :: k.1 == id ==> (k in after <==> k in before) && (k in before ==> after[k] == before[k])
  }

  /** The counter side of one organism's shelter update, between terrains `t` and `r`: a primary on a
      shelter has its count there raised by exactly one and dies iff that exceeds 3; an organism off the
      shelters has no count left anywhere. */
  ghost predicate CounterOutcome(t: Terrain, r: Terrain, before: Organism, after: Organism) {
    && (CanEnterShelter(t, before) ==>
          && ShelterCount(r, before.Pos(), before.id) == ShelterCount(t, before.Pos(), before.id) + 1
          && (after.alive <==> before.alive && ShelterCount(t, before.Pos(), before.id) + 1 <= SHELTER_LIMIT))
    && (!IsShelter(t, before.x, before.y) ==> forall c :: c in r.shelterCounters ==> c.1 != before.id)
  }

  lemma CounterOutcomeOne(t: Terrain, o: Organism, draw: nat -> (nat, nat))
    requires t.gridSize >= 1
    ensures CounterOutcome(t, UpdateShelterOne(t, o, draw).0, o, UpdateShelterOne(t, o, draw).1)
  {
  }

  /** Later updates of other organisms do not disturb the outcome. */
  lemma CounterOutcomeLater(t: Terrain, r: Terrain, r': Terrain, before: Organism, after: Organism)
    requires CounterOutcome(t, r, before, after)
    requires OtherCountersKeptFor(r.shelterCounters, r'.shelterCounters, before.id)
    ensures CounterOutcome(t, r', before, after)
  {
  }

  /** Earlier updates of other organisms do not disturb it either. */
  lemma CounterOutcomeEarlier(t: Terrain, t1: Terrain, r: Terrain, before: Organism, after: Organism)
    requires t1 == t.(shelterCounters := t1.shelterCounters)
    requires OtherCountersKeptFor(t.shelterCounters, t1.shelterCounters, before.id)
    requires CounterOutcome(t1, r, before, after)
    ensures CounterOutcome(t, r, before, after)
  {
    assert ShelterCount(t1, before.Pos(), before.id) == ShelterCount(t, before.Pos(), before.id);
  }

  /** With distinct identities, the counters of the `i`-th organism end as its own update leaves them. */
  lemma {:induction false} ShelterFoldCounters(t: Terrain, roster: seq<Organism>, draws: (nat, nat) -> (nat, nat), k: nat, i: nat)
    requires t.gridSize >= 1 && k <= i < |roster| && DistinctIds(roster)
    decreases |roster| - k
    ensures CounterOutcome(t, UpdateSheltersFrom(t, roster, draws, k).0, roster[i], UpdateSheltersFrom(t, roster, draws, k).1[i])
  {
    var (t1, o1) := UpdateShelterOne(t, roster[k], j => draws(k, j));
    var roster1 := roster[k := o1];
    assert forall a :: 0 <= a < |roster1| ==> roster1[a].id == roster[a].id;
    var res := UpdateSheltersFrom(t1, roster1, draws, k + 1);
    assert res == UpdateSheltersFrom(t, roster, draws, k);
    if i == k {
      CounterOutcomeOne(t, roster[k], j => draws(k, j));
      ShelterFoldFrame(t1, roster1, draws, k + 1, roster[k].id);
      assert res.1[k] == res.1[..k + 1][k] == roster1[k] == o1;
      CounterOutcomeLater(t, t1, res.0, roster[k], o1);
    } else {
      ShelterFoldCounters(t1, roster1, draws, k + 1, i);
      assert roster1[i] == roster[i];
      assert OtherCountersKept(t.shelterCounters, t1.shelterCounters, roster[k].id);
      CounterOutcomeEarlier(t, t1, res.0, roster[i], res.1[i]);
    }
  }
}

=== FILE: terrain_gen.dfy ===
/** Random terrain generation: `_place_random` and the four `generate_*` passes. Every random draw is an
    explicit raw input; whatever the draws, generation only ever turns plain, in-grid tiles into a feature. */
module TerrainGen {
  import opened Wrappers
  import opened Grid
  import opened OrderedMap
  import opened Terrains

  /** Python's `round(n / d)` for a non-negative `n`: the nearest integer, halves going to the even one. */
  function RoundHalfEven(n: nat, d: nat): (q: nat)
    requires d > 0
    ensures 2 * Abs(q * d - n) <= d
    ensures 2 * Abs(q * d - n) == d ==> q % 2 == 0
  {
    var q0 := n / d;
    var rem := n % d;
    assert n == q0 * d + rem;
    assert (q0 + 1) * d - n == d - rem;
    if 2 * rem > d then q0 + 1
    else if 2 * rem < d then q0
    else if q0 % 2 == 0 then q0
    else q0 + 1
  }

  /** Generation only turns plain tiles inside the grid into one of `kinds`; the grid size and the counters
      are untouched and the map stays well formed. */
  ghost predicate OverwritesOnlyPlain(t: Terrain, r: Terrain, kinds: set<string>) {
    && r.gridSize == t.gridSize
    && r.waterCounters == t.waterCounters
    && r.shelterCounters == t.shelterCounters
    && (Valid(t) ==> Valid(r))
    && forall x, y :: GetType(r, x, y) != GetType(t, x, y) ==>
         GetType(t, x, y) == PLAIN && InGrid((x, y), t.gridSize) && GetType(r, x, y) in kinds
  }

  lemma OverwritesOnlyPlainTrans(a: Terrain, b: Terrain, c: Terrain, k1: set<string>, k2: set<string>)
    requires OverwritesOnlyPlain(a, b, k1) && OverwritesOnlyPlain(b, c, k2)
    ensures OverwritesOnlyPlain(a, c, k1 + k2)
  {
  }

  /** Tile `p`, if it lies in the grid and was plain in `t`, reads `kind` in `r`. */
  predicate WrittenIfPlain(t: Terrain, r: Terrain, p: Pos, kind: string) {
    InGrid(p, t.gridSize) && GetType(t, p.0, p.1) == PLAIN ==> GetType(r, p.0, p.1) == kind
  }

  /** Every in-grid tile within 2 of `c` that was plain in `t` reads `kind` in `r`: the 5x5 patch around
      `c` has been written. */
  ghost predicate PatchDone(t: Terrain, r: Terrain, kind: string, c: Pos) {
    forall x, y :: Abs(x - c.0) <= 2 && Abs(y - c.1) <= 2 ==> WrittenIfPlain(t, r, (x, y), kind)
  }

  /** Across two passes that each only write plain tiles to `kind`, a tile written by either pass reads
      `kind` at the end: a tile plain at the start is either still plain for the second pass, or was
      already written by the first, and a written tile is no longer plain unless `kind` is. */
  lemma WrittenStep(a: Terrain, b: Terrain, c: Terrain, p: Pos, kind: string)
    requires OverwritesOnlyPlain(a, b, {kind}) && OverwritesOnlyPlain(b, c, {kind})
    ensures WrittenIfPlain(a, b, p, kind) ==> WrittenIfPlain(a, c, p, kind)
    ensures WrittenIfPlain(b, c, p, kind) ==> WrittenIfPlain(a, c, p, kind)
  {
  }

  /** The patch-level form of `WrittenStep`. */
  lemma PatchDoneStep(a: Terrain, b: Terrain, c: Terrain, kind: string, q: Pos)
    requires OverwritesOnlyPlain(a, b, {kind}) && OverwritesOnlyPlain(b, c, {kind})
    ensures PatchDone(a, b, kind, q) ==> PatchDone(a, c, kind, q)
    ensures PatchDone(b, c, kind, q) ==> PatchDone(a, c, kind, q)
  {
    forall x, y | Abs(x - q.0) <= 2 && Abs(y - q.1) <= 2 {
      WrittenStep(a, b, c, (x, y), kind);
    }
  }

  /** A tile that reads `kind` keeps it through a pass that only writes plain tiles to `kind`. */
  lemma KindKept(a: Terrain, b: Terrain, kind: string, p: Option<Pos>)
    requires OverwritesOnlyPlain(a, b, {kind})
    ensures p.Some? && GetType(a, p.value.0, p.value.1) == kind ==> GetType(b, p.value.0, p.value.1) == kind
  {
  }

  /** A feature written to a tile survives later passes that only write plain tiles. */
  lemma FeatureKept(a: Terrain, b: Terrain, c: Terrain, kind: string, later: set<string>, q: Pos)
    requires OverwritesOnlyPlain(a, b, {kind}) && OverwritesOnlyPlain(b, c, later) && kind != PLAIN
    ensures PatchDone(a, b, kind, q) ==> PatchDone(a, c, kind, q)
  {
  }

  /** `FeatureKept` for every drawn patch at once. */
  lemma PatchesKept(a: Terrain, b: Terrain, c: Terrain, kind: string, later: set<string>, centres: nat -> (nat, nat), count: nat)
    requires a.gridSize >= 5
    requires OverwritesOnlyPlain(a, b, {kind}) && OverwritesOnlyPlain(b, c, later) && kind != PLAIN
    ensures (forall m :: 0 <= m < count ==> PatchDone(a, b, kind, Centre(a.gridSize, centres, m))) ==>
            forall m :: 0 <= m < count ==> PatchDone(a, c, kind, Centre(a.gridSize, centres, m))
  {
    forall m | 0 <= m < count && PatchDone(a, b, kind, Centre(a.gridSize, centres, m))
      ensures PatchDone(a, c, kind, Centre(a.gridSize, centres, m))
    {
      FeatureKept(a, b, c, kind, later, Centre(a.gridSize, centres, m));
    }
  }

  /** The tile the `k`-th attempt of `_place_random` draws. */
  function Attempt(gridSize: int, draw: nat -> (nat, nat), k: nat): Pos
    requires gridSize >= 1
  {
    (RandInt(0, gridSize - 1, draw(k).0), RandInt(0, gridSize - 1, draw(k).1))
  }

  const PLACE_TRIES := 100

  /** The tile `_place_random` writes: the first of its 100 attempts that lands on a plain tile, none when
      every attempt lands on a feature. */
  function PlaceRandomTile(t: Terrain, draw: nat -> (nat, nat), k: nat): (p: Option<Pos>)
    requires t.gridSize >= 1
    decreases PLACE_TRIES - k
    ensures p.Some? ==> InGrid(p.value, t.gridSize) && GetType(t, p.value.0, p.value.1) == PLAIN
    ensures p.Some? ==> exists j :: k <= j < PLACE_TRIES && p.value == Attempt(t.gridSize, draw, j)
    ensures p.None? ==> forall j :: k <= j < PLACE_TRIES ==>
              GetType(t, Attempt(t.gridSize, draw, j).0, Attempt(t.gridSize, draw, j).1) != PLAIN
  {
    if k >= PLACE_TRIES then None
    else
      var a := Attempt(t.gridSize, draw, k);
      if GetType(t, a.0, a.1) == PLAIN then Some(a) else PlaceRandomTile(t, draw, k + 1)
  }

  /** `_place_random(kind)`: writes at most one tile, the one `PlaceRandomTile` picks, which was plain and
      lies inside the grid. */
  function PlaceRandom(t: Terrain, kind: string, draw: nat -> (nat, nat)): (r: Terrain)
    requires t.gridSize >= 1
    ensures OverwritesOnlyPlain(t, r, {kind})
    ensures forall x, y :: GetType(r, x, y) != GetType(t, x, y) ==> PlaceRandomTile(t, draw, 0) == Some((x, y))
    ensures forall p :: PlaceRandomTile(t, draw, 0) == Some(p) ==> GetType(r, p.0, p.1) == kind
    ensures |r.tiles| <= |t.tiles| + 1
  {
    match PlaceRandomTile(t, draw, 0)
    case None => t
    case Some(p) => SetTile(t, p, kind)
  }

  /** The `k`-th tile of the 5x5 patch around `(cx, cy)`, in the source's loop order (dx outer, dy inner). */
  function PatchTile(cx: int, cy: int, k: nat): (p: Pos)
    requires k < 25
    ensures Abs(p.0 - cx) <= 2 && Abs(p.1 - cy) <= 2
  {
    (cx + k / 5 - 2, cy + k % 5 - 2)
  }

  /** `if 0 <= x < n and 0 <= y < n and map[(x, y)] == "plain": map[(x, y)] = kind`. */
  function SetIfPlain(t: Terrain, p: Pos, kind: string): (r: Terrain)
    ensures OverwritesOnlyPlain(t, r, {kind})
    ensures forall x, y :: GetType(r, x, y) != GetType(t, x, y) ==> (x, y) == p
    ensures WrittenIfPlain(t, r, p, kind)
  {
    if InGrid(p, t.gridSize) && GetType(t, p.0, p.1) == PLAIN then SetTile(t, p, kind) else t
  }

  /** The body of `generate_water` / `generate_hills` for one centre: every plain in-grid tile of the
      5x5 patch becomes `kind`, from patch index `k` on. */
  function Patch(t: Terrain, kind: string, cx: int, cy: int, k: nat): (r: Terrain)
    decreases 25 - k
    ensures OverwritesOnlyPlain(t, r, {kind})
    ensures forall x, y :: GetType(r, x, y) != GetType(t, x, y) ==> Abs(x - cx) <= 2 && Abs(y - cy) <= 2
  {
    if k >= 25 then t
    else
      var p := PatchTile(cx, cy, k);
      var t' := SetIfPlain(t, p, kind);
      var r := Patch(t', kind, cx, cy, k + 1);
      OverwritesOnlyPlainTrans(t, t', r, {kind}, {kind});
      r
  }

  /** From patch index `k` on, every plain in-grid tile of the patch becomes `kind`. */
  lemma {:induction false} PatchWrites(t: Terrain, kind: string, cx: int, cy: int, k: nat)
    decreases 25 - k
    ensures forall j :: k <= j < 25 ==> WrittenIfPlain(t, Patch(t, kind, cx, cy, k), PatchTile(cx, cy, j), kind)
  {
    if k < 25 {
      var t' := SetIfPlain(t, PatchTile(cx, cy, k), kind);
      assert Patch(t, kind, cx, cy, k) == Patch(t', kind, cx, cy, k + 1);
      PatchWrites(t', kind, cx, cy, k + 1);
      PatchWritesStep(t, t', Patch(t', kind, cx, cy, k + 1), kind, cx, cy, k);
    }
  }

  /** One step of `PatchWrites`: the tile written first, then the tiles the rest of the patch writes. */
  lemma PatchWritesStep(t: Terrain, t': Terrain, r: Terrain, kind: string, cx: int, cy: int, k: nat)
    requires k < 25
    requires OverwritesOnlyPlain(t, t', {kind}) && OverwritesOnlyPlain(t', r, {kind})
    requires WrittenIfPlain(t, t', PatchTile(cx, cy, k), kind)
    requires forall j :: k + 1 <= j < 25 ==> WrittenIfPlain(t', r, PatchTile(cx, cy, j), kind)
    ensures forall j :: k <= j < 25 ==> WrittenIfPlain(t, r, PatchTile(cx, cy, j), kind)
  {
    forall j | k <= j < 25 ensures WrittenIfPlain(t, r, PatchTile(cx, cy, j), kind) {
      WrittenStep(t, t', r, PatchTile(cx, cy, j), kind);
    }
  }

  /** The 25 patch indices enumerate the whole 5x5 square around the centre. */
  lemma PatchTileCovers(cx: int, cy: int, x: int, y: int)
    requires Abs(x - cx) <= 2 && Abs(y - cy) <= 2
    ensures var j := (x - cx + 2) * 5 + (y - cy + 2); 0 <= j < 25 && PatchTile(cx, cy, j) == (x, y)
  {
    var j := (x - cx + 2) * 5 + (y - cy + 2);
    assert j / 5 == x - cx + 2 && j % 5 == y - cy + 2;
  }

  /** A whole patch writes its square: every plain in-grid tile within 2 of the centre becomes `kind`.
      With the frame of `Patch`, nothing else changes. */
  lemma {:induction false} PatchWritesSquare(t: Terrain, kind: string, cx: int, cy: int)
    ensures PatchDone(t, Patch(t, kind, cx, cy, 0), kind, (cx, cy))
  {
    PatchWrites(t, kind, cx, cy, 0);
    SquareFromIndices(t, Patch(t, kind, cx, cy, 0), kind, cx, cy);
  }

  /** Written at all 25 patch indices means written on the whole square. */
  lemma SquareFromIndices(t: Terrain, r: Terrain, kind: string, cx: int, cy: int)
    requires forall j :: 0 <= j < 25 ==> WrittenIfPlain(t, r, PatchTile(cx, cy, j), kind)
    ensures PatchDone(t, r, kind, (cx, cy))
  {
    forall x, y | Abs(x - cx) <= 2 && Abs(y - cy) <= 2 ensures WrittenIfPlain(t, r, (x, y), kind) {
      PatchTileCovers(cx, cy, x, y);
      var j := (x - cx + 2) * 5 + (y - cy + 2);
      assert WrittenIfPlain(t, r, PatchTile(cx, cy, j), kind);
    }
  }

  /** The centre of the `k`-th patch, drawn in `[2, gridSize - 3]` on both axes. */
  function Centre(gridSize: int, centres: nat -> (nat, nat), k: nat): (c: Pos)
    requires gridSize >= 5
    ensures 2 <= c.0 <= gridSize - 3 && 2 <= c.1 <= gridSize - 3
  {
    (RandInt(2, gridSize - 3, centres(k).0), RandInt(2, gridSize - 3, centres(k).1))
  }

  /** Draws `count - k` patch centres in `[2, gridSize - 3]` and applies a patch of `kind` at each. */
  function Patches(t: Terrain, kind: string, centres: nat -> (nat, nat), count: nat, k: nat): (r: Terrain)
    requires t.gridSize >= 5 || count <= k
    decreases count - k
    ensures OverwritesOnlyPlain(t, r, {kind})
  {
    if k >= count then t
    else
      var c := Centre(t.gridSize, centres, k);
      var t' := Patch(t, kind, c.0, c.1, 0);
      var r := Patches(t', kind, centres, count, k + 1);
      OverwritesOnlyPlainTrans(t, t', r, {kind}, {kind});
      r
  }

  /** Every drawn patch is written: each plain in-grid tile within 2 of a drawn centre reads `kind` after
      all the patches, since later patches only write plain tiles, and only with `kind`. */
  lemma {:induction false} PatchesWrite(t: Terrain, kind: string, centres: nat -> (nat, nat), count: nat, k: nat)
    requires t.gridSize >= 5
    decreases count - k
    ensures forall m :: k <= m < count ==> PatchDone(t, Patches(t, kind, centres, count, k), kind, Centre(t.gridSize, centres, m))
  {
    if k < count {
      var c := Centre(t.gridSize, centres, k);
      var t' := Patch(t, kind, c.0, c.1, 0);
      assert Patches(t, kind, centres, count, k) == Patches(t', kind, centres, count, k + 1);
      PatchWritesSquare(t, kind, c.0, c.1);
      PatchesWrite(t', kind, centres, count, k + 1);
      PatchesWriteStep(t, t', Patches(t', kind, centres, count, k + 1), kind, centres, count, k);
    }
  }

  /** One step of `PatchesWrite`: the first patch, then the patches drawn after it. */
  lemma PatchesWriteStep(t: Terrain, t': Terrain, r: Terrain, kind: string, centres: nat -> (nat, nat), count: nat, k: nat)
    requires t.gridSize >= 5 && t'.gridSize == t.gridSize
    requires OverwritesOnlyPlain(t, t', {kind}) && OverwritesOnlyPlain(t', r, {kind})
    requires PatchDone(t, t', kind, Centre(t.gridSize, centres, k))
    requires forall m :: k + 1 <= m < count ==> PatchDone(t', r, kind, Centre(t.gridSize, centres, m))
    ensures forall m :: k <= m < count ==> PatchDone(t, r, kind, Centre(t.gridSize, centres, m))
  {
    forall m | k <= m < count ensures PatchDone(t, r, kind, Centre(t.gridSize, centres, m)) {
      var q := Centre(t.gridSize, centres, m);
      PatchDoneStep(t, t', r, kind, q);
      if m == k {
        assert PatchDone(t, t', kind, q);
      } else {
        assert PatchDone(t', r, kind, q);
      }
    }
  }

  /** The draws of placement call `i`. */
  function DrawsOf(draws: (nat, nat) -> (nat, nat), i: nat): nat -> (nat, nat) {
    j => draws(i, j)
  }

  /** `count - k` calls of `_place_random(kind)`, call `i` using the draws `draws(i, _)`. */
  function Placements(t: Terrain, kind: string, draws: (nat, nat) -> (nat, nat), count: int, k: nat): (r: Terrain)
    requires t.gridSize >= 1
    decreases count - k
    ensures OverwritesOnlyPlain(t, r, {kind})
    ensures |r.tiles| <= |t.tiles| + Max(0, count - k)
  {
    if k >= count then t
    else
      var t' := PlaceRandom(t, kind, DrawsOf(draws, k));
      var r := Placements(t', kind, draws, count, k + 1);
      OverwritesOnlyPlainTrans(t, t', r, {kind}, {kind});
      r
  }

  /** The tile the first of the calls picks ends as `kind`: the later calls only write plain tiles. */
  lemma PlacementsWriteFirst(t: Terrain, kind: string, draws: (nat, nat) -> (nat, nat), count: int, k: nat)
    requires t.gridSize >= 1 && k < count
    ensures forall p :: PlaceRandomTile(t, DrawsOf(draws, k), 0) == Some(p) ==>
              GetType(Placements(t, kind, draws, count, k), p.0, p.1) == kind
  {
    var t' := PlaceRandom(t, kind, DrawsOf(draws, k));
    assert Placements(t, kind, draws, count, k) == Placements(t', kind, draws, count, k + 1);
    KindKept(t', Placements(t', kind, draws, count, k + 1), kind, PlaceRandomTile(t, DrawsOf(draws, k), 0));
  }

  function WaterPatchCount(gridSize: nat): nat {
    Max(1, RoundHalfEven(gridSize, 7))
  }

  function HillPatchCount(gridSize: nat): nat {
    RoundHalfEven(gridSize, 6)
  }

  function ShelterClusterCount(gridSize: nat): nat {
    Max(1, RoundHalfEven(gridSize, 10))
  }

  /** `generate_water`: `max(1, round(grid_size / 7))` water patches. */
  function GenerateWater(t: Terrain, centres: nat -> (nat, nat)): (r: Terrain)
    requires t.gridSize >= 5
    ensures OverwritesOnlyPlain(t, r, {WATER})
    ensures WaterPatchCount(t.gridSize) >= 1
    ensures forall m :: 0 <= m < WaterPatchCount(t.gridSize) ==> PatchDone(t, r, WATER, Centre(t.gridSize, centres, m))
  {
    PatchesWrite(t, WATER, centres, WaterPatchCount(t.gridSize), 0);
    Patches(t, WATER, centres, WaterPatchCount(t.gridSize), 0)
  }

  /** `generate_trees`: `grid_size - 7` single-tile placements (none when that is not positive), so the
      map gains at most that many entries. */
  function GenerateTrees(t: Terrain, draws: (nat, nat) -> (nat, nat)): (r: Terrain)
    requires t.gridSize >= 1
    ensures OverwritesOnlyPlain(t, r, {TREE})
    ensures |r.tiles| <= |t.tiles| + Max(0, t.gridSize - 7)
    ensures t.gridSize > 7 ==> forall p :: PlaceRandomTile(t, DrawsOf(draws, 0), 0) == Some(p) ==> GetType(r, p.0, p.1) == TREE
  {
    if t.gridSize > 7 then
      PlacementsWriteFirst(t, TREE, draws, t.gridSize - 7, 0);
      Placements(t, TREE, draws, t.gridSize - 7, 0)
    else
      Placements(t, TREE, draws, t.gridSize - 7, 0)
  }

  /** `generate_hills`: `round(grid_size / 6)` hill patches. On grids of 1 to 3 tiles that rounds to 0, so
      no centre is drawn and nothing changes; a grid of 4 would draw from the empty range `2..1`. */
  function GenerateHills(t: Terrain, centres: nat -> (nat, nat)): (r: Terrain)
    requires t.gridSize >= 5 || (t.gridSize >= 0 && HillPatchCount(t.gridSize) == 0)
    ensures OverwritesOnlyPlain(t, r, {HILL})
    ensures t.gridSize <= 3 ==> r == t
    ensures t.gridSize >= 5 ==>
      forall m :: 0 <= m < HillPatchCount(t.gridSize) ==> PatchDone(t, r, HILL, Centre(t.gridSize, centres, m))
  {
    if t.gridSize >= 5 then
      PatchesWrite(t, HILL, centres, HillPatchCount(t.gridSize), 0);
      Patches(t, HILL, centres, HillPatchCount(t.gridSize), 0)
    else
      Patches(t, HILL, centres, HillPatchCount(t.gridSize), 0)
  }

  /** `generate_shelters`: `max(1, round(grid_size / 10))` clusters of 4 placements each; placement
      `4 * c + m` is member `m` of cluster `c`. */
  function GenerateShelters(t: Terrain, draws: (nat, nat) -> (nat, nat)): (r: Terrain)
    requires t.gridSize >= 1
    ensures OverwritesOnlyPlain(t, r, {SHELTER})
    ensures |r.tiles| <= |t.tiles| + 4 * ShelterClusterCount(t.gridSize)
    ensures forall p :: PlaceRandomTile(t, DrawsOf(draws, 0), 0) == Some(p) ==> GetType(r, p.0, p.1) == SHELTER
  {
    PlacementsWriteFirst(t, SHELTER, draws, 4 * ShelterClusterCount(t.gridSize), 0);
    Placements(t, SHELTER, draws, 4 * ShelterClusterCount(t.gridSize), 0)
  }

  /** The draws of one random generation. */
  datatype GenDraws = GenDraws(
    waterCentres: nat -> (nat, nat),
    trees: (nat, nat) -> (nat, nat),
    hillCentres: nat -> (nat, nat),
    shelters: (nat, nat) -> (nat, nat))

  /** Random mode of `load_from_config` (and the fallback of the entry points): water, trees, hills, then
      shelters. Only plain in-grid tiles change, each into one of the four features, and every water
      patch drawn first is still water at the end. */
  function GenerateRandom(t: Terrain, d: GenDraws): (r: Terrain)
    requires t.gridSize >= 5
    ensures OverwritesOnlyPlain(t, r, {WATER, TREE, HILL, SHELTER})
    ensures forall m :: 0 <= m < WaterPatchCount(t.gridSize) ==> PatchDone(t, r, WATER, Centre(t.gridSize, d.waterCentres, m))
  {
    var t1 := GenerateWater(t, d.waterCentres);
    var t2 := GenerateTrees(t1, d.trees);
    var t3 := GenerateHills(t2, d.hillCentres);
    var t4 := GenerateShelters(t3, d.shelters);
    OverwritesOnlyPlainTrans(t, t1, t2, {WATER}, {TREE});
    OverwritesOnlyPlainTrans(t, t2, t3, {WATER, TREE}, {HILL});
    OverwritesOnlyPlainTrans(t, t3, t4, {WATER, TREE, HILL}, {SHELTER});
    OverwritesOnlyPlainTrans(t1, t2, t3, {TREE}, {HILL});
    OverwritesOnlyPlainTrans(t1, t3, t4, {TREE, HILL}, {SHELTER});
    PatchesKept(t, t1, t4, WATER, {TREE, HILL, SHELTER}, d.waterCentres, WaterPatchCount(t.gridSize));
    t4
  }
}

=== FILE: wrappers.dfy ===
/** The optional value used by every lookup of the model. */
module Wrappers {

  datatype Option<+T> = None | Some(value: T) {

    /** The wrapped value, or `default` when there is none: the `dict.get(key, default)` idiom. */
    function GetOr(default: T): T {
      match this
      case Some(v) => v
      case None => default
    }
  }
}
